=== FILE: README.md ===
# Repack catalog pipeline — a Dafny model

This project models the data-handling core of a game-repack catalog pipeline. The pipeline has five parts:

- **scripts/scraper.py and scraper.py.** Scrapers read a repack site's listing pages and game pages into `downloads` entries. An entry has a title, download links, a size label, an upload date and a source page URL.
- **scripts/validate_links.py.** A link validator probes every link with a per-host checker and groups entries by normalized title. It keeps one surviving entry per group and blacklists the rest.
- **rework_scraper.py.** An older catalog rebuild does the same with a pairwise "which duplicate to keep" rule.
- **validate.py.** A content-marker validator fetches each link of the published catalog and drops dead links. It keeps only entries whose remaining links are not all 1fichier links and not all torrents.
- **scripts/categorize_games.py.** A categorizer matches each validated entry against reference lists (VR, adult, software) with a two-stage fuzzy matcher and a length gate. It files each entry into an all-in-one catalog and the category catalogs it matched.

Entries are immutable `Catalog.Game` records and every operation is a pure function. Where the source has a loop worth checking, a method implements the function and proves it equal to it. Everything the code gets from the outside world is a parameter:

| Outside dependency | Parameter |
|---|---|
| Host checkers | `check(provider, link)` |
| Probe outcomes | `Probes` |
| HTTP responses | `respond(link)` |
| Fuzzy scorers, the regex and normalisation tail of `clean_title`, `is_vr_title` | `Matcher` |
| Title normalizers written as regular expressions | `norm` |
| Page fetches | `fetch` and `pages` |
| The clock | `now` and `earliest` |
| Completion order of the process pool | `arrival` |

Modules follow the source files:

| Module | File | Contents |
|---|---|---|
| `Strings`, `Seqs` | strings.dfy, seqs.dfy | Python's `in`, `replace`, `lower()`, `strip()`, `split()` and order-preserving filtering |
| `Catalog` | catalog.dfy | the entry record, provider domains, `Later` on upload dates, the size unit, the MediaFire quick key |
| `LinkValidator` | linkvalidator.dfy | scripts/validate_links.py |
| `Rework` | rework.dfy | rework_scraper.py |
| `SiteScraper` | sitescraper.dfy | scripts/scraper.py |
| `LegacyScraper` | legacyscraper.dfy | scraper.py; reuses `SiteScraper` for the functions the two files share verbatim |
| `ContentValidator` | contentvalidator.dfy | validate.py |
| `Categorizer` | categorizer.dfy | scripts/categorize_games.py |

Points where the code is easy to misread:

- **Candidate order.** scripts/validate_links.py:337-343 sorts a group newest first. When some entry's title mentions "multiplayer" or "0xdeadcode", only those entries are candidates. No other criterion ranks them. rework_scraper.py:342-370 instead folds `decide_game_to_keep` (rework_scraper.py:312-340) over the group; `Rework.DecidePrecedence` proves it is a lexicographic order.
- **Untitled entries.** scripts/validate_links.py:311-314 skips only entries without a title. An entry whose title normalizes to "" is grouped under the key "".
- **Invalid-link cache.** scripts/validate_links.py:384-385 saves the cache once, after every group. The model returns the grown set instead of writing a file.
- **Removed list.** As written, the group step appends rejected candidates twice (see Findings). The model uses the corrected step. `LinkValidator.ProcessDuplicates` states its removed list: every eligible entry that is not a survivor's source, each in the version the tries left, and as many entries as that.

## Model

| member | source | states |
|---|---|---|
| Catalog.SizeUnitOf | rework_scraper.py:244-251 | format_size prints at least one whole unit above KB and fewer than 1024 units below GB |
| Catalog.SizeUnitUnique | rework_scraper.py:244-251 | those two bounds single out the unit, so they are an independent definition of the branch chain |
| Catalog.KeyAfterFile | scripts/validate_links.py:148-156 | a quick key exists exactly when "/file/" occurs; it is the '/'-free text after the first "/file/" up to the next '/' or the end |
| LinkValidator.RouteOfFacts | scripts/validate_links.py:250-280 | a checked link goes to the earliest host in the elif chain that it names; only a 1fichier link naming no checked host is accepted unchecked; exactly the links on no known host are dropped |
| LinkValidator.FailedLinksMembers | scripts/validate_links.py:282-295 | the new invalid links are exactly the dispatched links the checker rejects |
| LinkValidator.ValidateLinks | scripts/validate_links.py:234-298 | the two-pass loop computes the kept links (direct accepts in input order, then confirmed links in task order) and the new invalid set |
| LinkValidator.ValidateLinksSound | scripts/validate_links.py:234-298 | an entry without links comes back unchanged; only the links change; every kept link is an input link on a known host that was not cached as invalid and did not fail; every new invalid link was a checked input link; conversely every uncached input link that is a direct accept or passes its checker is kept |
| LinkValidator.StripTrailingFile | scripts/validate_links.py:149 | exactly one trailing "/file" or "/file/" is dropped, also when followed by a final newline, which stays; any other text is unchanged |
| LinkValidator.ExtractMediafireKey | scripts/validate_links.py:148-156 | after that strip, no key exactly when no "/file/" is left; otherwise the key is the '/'-free text that follows the first "/file/", possibly empty |
| LinkValidator.IsBlacklistedMeaning | scripts/validate_links.py:398-403 | an entry is blacklisted iff it has a non-empty source page that some blacklist entry shares |
| LinkValidator.MergeBlacklistFacts | scripts/validate_links.py:512-515 | the old blacklist stays a prefix; every removed entry with a source page ends up blacklisted; only removed entries not already blacklisted are appended |
| LinkValidator.EligibleKeysCover | scripts/validate_links.py:307-318 | every entry that is neither blacklisted nor untitled contributes its group key |
| LinkValidator.AddToGroupsStep | scripts/validate_links.py:315-318 | one grouping iteration keeps every group equal to the eligible entries with its key, in input order |
| LinkValidator.GroupGames | scripts/validate_links.py:303-318 | the keys are the distinct eligible keys in first-appearance order; each group holds exactly the eligible entries with its key, in input order; blacklisted and untitled entries are in no group |
| LinkValidator.GroupingMembers | scripts/validate_links.py:307-318 | every grouped entry is an eligible input entry under its own key, and every eligible entry is in its key's group |
| LinkValidator.SortPrefixSorted | scripts/validate_links.py:337-341 | the stable insertion sort yields a permutation of the positions, newest date first, missing dates last, ties in input order |
| LinkValidator.FilterKeepsOrder | scripts/validate_links.py:342 | selecting the networked entries keeps the date order |
| LinkValidator.CandidatesFacts | scripts/validate_links.py:337-343 | the candidates are distinct positions in date order; they are exactly the networked entries when there are any, and the whole group otherwise |
| LinkValidator.RunAsWrittenRemovedCount | scripts/validate_links.py:345-372 | without a survivor, the loop as written records every candidate once inside the loop and the whole group again |
| LinkValidator.AsWrittenRemovesTwice | scripts/validate_links.py:345-372 | for a group with no survivor the removed list is longer than the group, so a failing single entry is blacklisted twice |
| LinkValidator.RunFixedCount | scripts/validate_links.py:345-372 | in the corrected loop the survivors and the removed entries together are as many as the group's entries, with at most one survivor |
| LinkValidator.RunFixedInvalid | scripts/validate_links.py:351-352 | invalid links gathered during the tries are links of the group's entries not cached before |
| LinkValidator.RunFixedWinner | scripts/validate_links.py:345-372 | the survivor is the validated first candidate whose validated form passes the survival rule; without one, no survivor and the group as rewritten by the tries is removed |
| LinkValidator.RunFixedRemoved | scripts/validate_links.py:345-372 | with a survivor, the group as rewritten by the tries up to the survivor is removed in group order with the survivor's own slot taken out: every other entry once, the tried ones validated |
| LinkValidator.ProcessGameGroupFacts | scripts/validate_links.py:330-372 | at most one survivor, the validated first acceptable candidate (`WinnerOf`, none exactly when no candidate is acceptable); survivors plus removed equal the group size; without a survivor the whole group, as the tries rewrote it, is removed; with one, every other entry is removed once, in group order, the tried ones validated |
| LinkValidator.GroupCountFacts | scripts/validate_links.py:345-372 | a group call keeps or removes each entry once, keeps at most one, and reports as invalid only uncached links of the group's entries |
| LinkValidator.GroupValidFacts | scripts/validate_links.py:343-372 | a group call keeps exactly the group's winner; without one, it removes the whole group as the tries rewrote it |
| LinkValidator.GroupRemovedAt | scripts/validate_links.py:345-372 | with a winner, a group call removes the group as the tries up to the winner rewrote it, in group order, with the winner's own slot taken out |
| LinkValidator.WinnerOf | scripts/validate_links.py:343-365 | a group has no survivor exactly when no candidate's validated form passes the survival rule |
| LinkValidator.GroupRemovedFacts | scripts/validate_links.py:345-372 | nothing lost and nothing invented: every removed entry is a version of a group entry, and every group entry is the survivor's source or removed in one of its versions |
| LinkValidator.WinnerNewest | scripts/validate_links.py:337-367 | the first acceptable candidate passes the survival rule, is networked when any entry is, and no acceptable candidate has a strictly later date |
| LinkValidator.NoWinnerNoneAcceptable | scripts/validate_links.py:343-365 | without a first acceptable candidate, no candidate's validated form passes the survival rule |
| LinkValidator.SurvivorIsNewestAcceptable | scripts/validate_links.py:337-367 | the survivor passes the rule (links left, not a lone 1fichier link), keeps title and date, is networked when any entry is, and no acceptable candidate is strictly newer; without a survivor no candidate is acceptable |
| LinkValidator.ProcessGroup | scripts/validate_links.py:330-372 | one group call yields the group's `WinnerOf` as its only possible survivor; every removed entry is a version of a group entry and every group entry is the survivor's source or removed; only the group's uncached links are reported invalid |
| LinkValidator.FoldSurvivors | scripts/validate_links.py:375-377 | over the groups in key order, with a step that keeps only its group's winner: one survivor for each key whose group has one, in key order, and no other |
| LinkValidator.FoldCount | scripts/validate_links.py:375-377 | with a step that keeps or removes each entry once, survivors plus removed equal the summed group sizes |
| LinkValidator.FoldNoneInvented | scripts/validate_links.py:375-377 | across the groups every removed entry is a version of some group's entry |
| LinkValidator.FoldNoneLost | scripts/validate_links.py:375-377 | across the groups every group entry is a survivor's source or removed in one of its versions |
| LinkValidator.DuplicatesSurvivors | scripts/validate_links.py:307-377 | over the input games: one survivor per normalized title whose group of eligible entries has a winner, equal to that winner, in order of first appearance |
| LinkValidator.DuplicatesCount | scripts/validate_links.py:307-377 | survivors plus removed entries are as many as the eligible input games |
| LinkValidator.DuplicatesMembers | scripts/validate_links.py:307-377 | every removed entry is a version of an eligible input, and every eligible input is a survivor's source or removed |
| LinkValidator.KeyedSizesPartition | scripts/validate_links.py:307-318 | with distinct keys covering every eligible entry, the groups' sizes add up to the number of eligible entries: the groups partition them |
| LinkValidator.HitsOnce | scripts/validate_links.py:315-318 | an eligible entry enters exactly one group, of its own key, and any other entry none |
| LinkValidator.ProcessGroups | scripts/validate_links.py:375-382 | the loop over the groups in key order computes the fold `FoldGroups` of the group step; survivors have pairwise different normalized titles and each is an acceptable validated eligible entry |
| LinkValidator.ProcessDuplicates | scripts/validate_links.py:300-386 | one survivor for each normalized title, in order of first appearance, whose group has an acceptable candidate, namely that group's validated first acceptable candidate, and no other; every removed entry is a version of an eligible input, every eligible input is a survivor's source or removed, and survivors plus removed are as many as the eligible inputs; the invalid cache only grows, and only with input links |
| Rework.SpaceRunSpaces | rework_scraper.py:27 | the `\s*` run is maximal |
| Rework.CloseAt | rework_scraper.py:27 | the lazy `.*?` stops at a `)` |
| Rework.CloseAtFirst | rework_scraper.py:27 | it stops at the first `)`, and fails exactly when a line break comes first |
| Rework.GroupMatch | rework_scraper.py:27 | a match of `\s*\(.*?\)` spans at least the two parentheses |
| Rework.DropFrom | rework_scraper.py:40-42 | `re.sub` never lengthens the text |
| Rework.NormalizeShape | rework_scraper.py:40-42 | a normalized title has no capital letter and no white space at either end |
| Rework.DropFromPlain | rework_scraper.py:40-42 | text without `)` is left as it is |
| Rework.SuffixSameGroup | rework_scraper.py:27-42 | a title with a "(...)" suffix normalizes to the bare title, so both fall into one group |
| Rework.FormatSizeAsWritten | rework_scraper.py:244-251 | format_size as written yields a label iff the size is below 1024^3 bytes, in the unit SizeUnitOf selects |
| Rework.FormatSize | rework_scraper.py:244-251 | the corrected format_size never fails, and its unit shows an amount of at least 1 except in KB and below 1024 except in GB, which by `Catalog.SizeUnitUnique` is the one unit format_size's branch chain picks |
| Rework.MediafireCheck | rework_scraper.py:200-242 | a MediaFire link passes only after the page check and a successful reply for a non-empty quick key |
| Rework.LargeMediafireRejected | rework_scraper.py:200-251 | a live non-torrent MediaFire file of 1 GiB or more is rejected as written and accepted with a GB label when corrected |
| Rework.DispatchFacts | rework_scraper.py:279-293 | a dispatched link goes to a probing host it names, never gofile; undispatched links name none of the four hosts |
| Rework.SplitLinks | rework_scraper.py:279-293 | the dispatch loop splits the links into the directly accepted ones and the probed ones, each in input order |
| Rework.ProbeAll | rework_scraper.py:294-295 | `gather` returns one outcome per task, in task order |
| Rework.ReadResults | rework_scraper.py:294-303 | the result loop keeps the passing tasks in order and ends with the last success's size label |
| Rework.PassingIsFilter | rework_scraper.py:294-303 | reading the gathered outcomes is filtering the tasks by their probe |
| Rework.ValidateLinks | rework_scraper.py:272-310 | validate_links computes the validated entry |
| Rework.LastSizeLast | rework_scraper.py:296-301 | the size label is that of the last passing probe, or the old one if none passed |
| Rework.ValidatedSound | rework_scraper.py:272-310 | title, date and source are kept; every kept link is an input link on one of the five hosts; unprobed kept links are 1fichier links; probed ones passed; a lone 1fichier link is never left |
| Rework.ValidatedComplete | rework_scraper.py:272-310 | every input link accepted on its host alone and every probed link whose probe succeeds is kept, unless the lone-1fichier rule leaves no link at all |
| Rework.DecideGameToKeep | rework_scraper.py:312-340 | the result is one of the two arguments |
| Rework.KnownLinksNonEmpty | rework_scraper.py:314-321 | the known-link list is non-empty iff the entry has a link on one of the five hosts |
| Rework.DecidePrecedence | rework_scraper.py:312-340 | the new entry wins iff it outranks the existing one lexicographically on (known links, networked title, strictly later date with both dated); ties and a missing date keep the existing one |
| Rework.BestTopStanding | rework_scraper.py:361-363 | the fold never ends on an entry of lower standing than another group member |
| Rework.Resolve | rework_scraper.py:355-368 | one survivor per resolved key |
| Rework.GroupKeysFromGames | rework_scraper.py:344-349 | the group keys are distinct, each is an input key, and every input key is among them |
| Rework.GroupMembers | rework_scraper.py:344-349 | a group holds exactly the entries with its key |
| Rework.BestIsTop | rework_scraper.py:361-363 | the chosen entry is a member of the group that no member exceeds in standing |
| Rework.RemovedFacts | rework_scraper.py:368 | the removed entries are exactly the other members that differ from the validated survivor |
| Rework.GroupOutcomeFacts | rework_scraper.py:356-368 | a group yields one survivor, the validated form of a top-standing member; the removed entries are members unlike it; every member is removed, kept, or kept validated |
| Rework.ResolveFacts | rework_scraper.py:355-368 | resolving the keys in order gives one survivor per key and the removed entries of each group |
| Rework.ValidatedKeepsTitle | rework_scraper.py:272-310 | validation leaves the title alone |
| Rework.SurvivorKeys | rework_scraper.py:355-368 | the i-th survivor carries the i-th key |
| Rework.RemovedNotKept | rework_scraper.py:355-370 | with distinct keys no removed entry is also kept |
| Rework.NothingLost | rework_scraper.py:342-370 | every input entry is removed, kept, or kept in validated form |
| Rework.ResolveAllFacts | rework_scraper.py:342-370 | one survivor per key in first-appearance order with pairwise distinct keys, each a validated top-standing member; removed entries are inputs that are not kept; nothing is lost |
| Rework.DeduplicatedFacts | rework_scraper.py:342-370 | process_duplicates keeps exactly one entry per normalized title, even one left without links, with the guarantees above |
| Rework.ResolveGroup | rework_scraper.py:361-368 | one loop round computes the group's outcome |
| Rework.ProcessGroups | rework_scraper.py:355-368 | the group loop computes the resolution of the keys |
| Rework.ProcessDuplicates | rework_scraper.py:342-370 | the method computes process_duplicates |
| SiteScraper.ParseRelativeDate | scripts/scraper.py:48-65 | the parsed date is never later than now |
| SiteScraper.PhrasePeriod | scripts/scraper.py:51-60 | the site's own "N units ago" phrase is read with its own unit, even though "day" is tested before "month" |
| SiteScraper.PhraseRoundTrip | scripts/scraper.py:48-65 | reading the site's phrase back gives now minus N units whenever the date is representable |
| SiteScraper.ParseRelativeDateDefault | scripts/scraper.py:48-65 | without a unit keyword or without a digit the result is now |
| SiteScraper.EmulatorTagNeutral | scripts/scraper.py:107-114 | appending " (Emulator)" changes no multiplayer marker test |
| SiteScraper.EmulatorTagNeutralVr | scripts/scraper.py:107-114 | nor any VR marker test |
| SiteScraper.MultiplayerTagNeutral | scripts/scraper.py:107-114 | appending " (Multiplayer)" changes no VR marker test |
| SiteScraper.MarkFlat | scripts/scraper.py:107-114 | the marked title is the title followed by the tags whose test passes on the original title, in the order Emulator, Multiplayer, VR |
| SiteScraper.NoEmulatorTagAgain | scripts/scraper.py:107-109 | a marked title fails the emulator test |
| SiteScraper.NoMultiplayerTagAgain | scripts/scraper.py:110-111 | a marked title fails the multiplayer test |
| SiteScraper.NoVrTagAgain | scripts/scraper.py:112-113 | a marked title fails the VR test |
| SiteScraper.MarkIdempotent | scripts/scraper.py:107-114 | marking twice with the same URL equals marking once |
| SiteScraper.NoDeadcodeLeft | scripts/scraper.py:116-123 | no lower-case "0xdeadcode" or "0xdeadc0de" survives normalize_special_titles |
| SiteScraper.DeadcodeIgnoresCase | scripts/scraper.py:125-127 | is_deadcode_version does not depend on letter case |
| SiteScraper.DeadcodeSpelled | scripts/scraper.py:125-127 | a title containing either lower-case spelling is a deadcode version |
| SiteScraper.FindDuplicateGame | scripts/scraper.py:129-133 | New iff no entry has the source; otherwise the first entry with it |
| SiteScraper.CategoryScan | scripts/scraper.py:138-142 | the search finds the leftmost position where the pattern can match |
| SiteScraper.CategoryFacts | scripts/scraper.py:138-142 | the category is the non-empty '/'-free segment after the leftmost usable "/category/", up to the next '/' or the end; "unknown" without one |
| SiteScraper.CategoryRoundTrip | scripts/scraper.py:138-142 | a URL built from a host, "/category/", a category and a '/'-started rest reads back as that category |
| SiteScraper.SiteCategory | scripts/scraper.py:10-19 | every listing URL of the site reads back as its category |
| SiteScraper.PicksFacts | scripts/scraper.py:206-219 | at most one link per slot, each the last link of its host, and every host present on the page has its link |
| SiteScraper.PicksAscending | scripts/scraper.py:206-219 | the kept links follow the priority order |
| SiteScraper.PicksFromPage | scripts/scraper.py:199-219 | every kept link is one of the page's hrefs |
| SiteScraper.PicksCoverPage | scripts/scraper.py:199-219 | no host the page links to is missed |
| SiteScraper.PriorityLinksFacts | scripts/scraper.py:199-219 | at most five links, each the last of its host on the page, ordered 1fichier, datanodes, gofile, mediafire, pixeldrain, covering every host present |
| SiteScraper.SelectPriorityLinks | scripts/scraper.py:206-219 | the overwrite loop and the comprehension compute those links |
| SiteScraper.CollectPicks | scripts/scraper.py:219 | the comprehension over the filled slot dictionary equals the picks |
| SiteScraper.FetchFacts | scripts/scraper.py:173-228 | blacklisted or unreachable pages give nothing; otherwise the source is the page URL, the title extends the heading, at most five links, a date no later than now |
| SiteScraper.FetchWithSourced | scripts/scraper.py:226 | every fetched entry records its page URL as source |
| SiteScraper.SelectTasks | scripts/scraper.py:259-266 | at most the remaining budget of tasks, each a listed URL neither known nor blacklisted |
| SiteScraper.SelectAllNew | scripts/scraper.py:259-266 | below the budget every new listed URL becomes a task, in order |
| SiteScraper.Retries | scripts/scraper.py:306-308 | only the page URL is queued for retry |
| SiteScraper.AbsorbSaturated | scripts/scraper.py:280-281 | at the limit the result loop changes nothing |
| SiteScraper.AbsorbGrows | scripts/scraper.py:273-303 | the loop only appends and counts what it appends, never passes the limit, and only grows the known and blacklisted sets |
| SiteScraper.AbsorbAdded | scripts/scraper.py:283-303 | every appended entry is a fetched result with a title and links and an uncracked title, and its source becomes known |
| SiteScraper.AbsorbBlacklisted | scripts/scraper.py:296-300 | a URL is newly blacklisted only for a fetched entry with a cracked title |
| SiteScraper.AbsorbKnown | scripts/scraper.py:302-303 | a URL becomes known only as the source of an appended entry |
| SiteScraper.AbsorbResults | scripts/scraper.py:273-303 | the loop with its early break computes the result fold |
| SiteScraper.AbsorbTracked | scripts/scraper.py:273-303 | fresh, pairwise different sources keep every entry's source unique and known |
| SiteScraper.FetchAll | scripts/scraper.py:272 | one fetch outcome per task, in order |
| SiteScraper.AsWrittenAppendsTwice | scripts/scraper.py:259-303 | as written, a listing naming a new game twice appends it twice |
| SiteScraper.AsWrittenUntracked | scripts/scraper.py:259-303 | as written, that breaks the one-entry-per-source invariant |
| SiteScraper.SelectNewTasks | scripts/scraper.py:259-266 | the corrected task loop keeps the budget and takes only new, unblacklisted listed URLs |
| SiteScraper.SelectNewDistinct | scripts/scraper.py:259-266 | the corrected task loop queues no URL twice |
| SiteScraper.RunPageTracked | scripts/scraper.py:230-303 | the corrected page step keeps every source unique and known |
| SiteScraper.ProcessPageTracked | scripts/scraper.py:230-303 | the same with the real page fetcher |
| SiteScraper.RunPageFacts | scripts/scraper.py:230-308 | the corrected page step raises exactly at the limit and leaves the state alone for an empty page; it fetches only new URLs within budget, appends only accepted games, blacklists only cracked ones, and learns exactly the sources it appends |
| LegacyScraper.CollectedHasHost | scraper.py:149-170 | every collected link gets a host |
| LegacyScraper.FirstsFrom | scraper.py:157-172 | kept links are first-of-host links, one per host |
| LegacyScraper.FirstsCover | scraper.py:157-172 | every host seen has its first link kept |
| LegacyScraper.AtMostFourHosts | scraper.py:157-172 | there are at most four hosts, hence at most four links |
| LegacyScraper.PageLinksFacts | scraper.py:149-172 | at most four links from the page, on pairwise different hosts, each collected, every collected host present |
| LegacyScraper.SelectFirstPerHost | scraper.py:157-172 | the first-wins dictionary loop computes those links in insertion order |
| LegacyScraper.FindDuplicateGame | scraper.py:188-195 | None iff no entry has the same lower-cased normalized title; otherwise the first such entry |
| LegacyScraper.ShouldReplaceMeaning | scraper.py:197-215 | the new game replaces iff its date is strictly later (a missing date being earliest) or it alone is a deadcode version; an entry never displaces an equal copy of itself |
| LegacyScraper.DeadcodeOnlyOtherCase | scraper.py:259-279 | after normalize_special_titles the deadcode preference fires only where the lower-cased title reads "0xdeadcode" and the title itself has an upper-case letter in that span |
| LegacyScraper.MergeUnique | scraper.py:276-298 | a merge keeps the duplicate keys of downloads pairwise different |
| LegacyScraper.MergeShape | scraper.py:276-298 | a merge leaves downloads alone, replaces one slot with the same key, or appends one new key and counts it |
| LegacyScraper.AbsorbUnique | scraper.py:247-298 | the result loop keeps keys unique |
| LegacyScraper.RunPageUnique | scraper.py:217-298 | a page keeps keys unique |
| LegacyScraper.AbsorbCount | scraper.py:256-298 | the count grows only by appends and never passes the limit |
| LegacyScraper.AbsorbResults | scraper.py:247-298 | the loop with its early break computes the result fold |
| LegacyScraper.AbsorbSaturated | scraper.py:256-257 | at the limit nothing changes |
| ContentValidator.Classify | validate.py:30-73 | a link survives iff the fetch succeeded with status 200 and no Gofile, MediaFire or error-marker rejection applies; a survivor is the link itself |
| ContentValidator.IndicatorRejectsAnyHost | validate.py:65-67 | an error marker in any letter case rejects a page whatever the host |
| ContentValidator.GofileMarkerCaseSensitive | validate.py:54-57 | the Gofile "contentId" marker is matched case-sensitively |
| ContentValidator.IndicatorsReduce | validate.py:40-67 | the ten markers reject exactly what eight of them reject ("unavailable" and "torrent" subsume two others) |
| ContentValidator.SurvivorsFilter | validate.py:86-87 | the surviving links are the passing links in order |
| ContentValidator.Rewrite | validate.py:84-88 | only the links change; kept links are passing input links; every passing link is kept |
| ContentValidator.IsValidGameMeaning | validate.py:91-99 | an entry is kept iff some link is not a 1fichier link and some link, possibly another, is not a torrent |
| ContentValidator.FichierPlusTorrentKept | validate.py:91-99 | one 1fichier link beside one torrent link keeps the entry |
| ContentValidator.ValidateAllFacts | validate.py:75-101 | nothing is written without a downloads list; written entries are valid rewritten inputs; every input valid after the rewrite is written |
| ContentValidator.RewriteStable | validate.py:84-88 | an entry whose links all pass is unchanged |
| ContentValidator.ValidateIdempotent | validate.py:75-101 | with the same responses, a second run writes what the first wrote |
| Categorizer.Count | scripts/categorize_games.py:231-246 | the denominator counts non-space characters: at most the length, zero iff the text is all spaces |
| Categorizer.DetectLanguage | scripts/categorize_games.py:227-264 | "unknown" iff the text is empty or all spaces |
| Categorizer.TopShareIsTopCount | scripts/categorize_games.py:248-253 | a ratio equals the maximum ratio iff its counter is the largest counter |
| Categorizer.DetectRatios | scripts/categorize_games.py:244-264 | the integer computation agrees with the source's real ratios: a script claims the text iff its share is the largest and above 0.3 (0.5 for Latin), earlier labels winning |
| Categorizer.TiesGoEarlier | scripts/categorize_games.py:255-264 | between scripts tied for the largest count above the threshold, the earlier of Chinese, Japanese, Korean wins, and Latin never wins a tie |
| Categorizer.CountPure | scripts/categorize_games.py:231-246 | a title wholly in one script, without spaces, counts every character under that script and in the denominator |
| Categorizer.PureScript | scripts/categorize_games.py:227-264 | a title wholly in one script, without spaces, gets that script's label |
| Categorizer.PadLatin | scripts/categorize_games.py:241-246 | spaces count as Latin but not in the denominator, so padding keeps a Latin title Latin |
| Categorizer.SpaceTipsToLatin | scripts/categorize_games.py:241-262 | an example: "中 a" is labelled Latin because the space counts as a Latin character |
| Categorizer.TieGoesToChinese | scripts/categorize_games.py:255-258 | an example of the tie rule: "中あ", one ideograph and one kana, is labelled Chinese |
| Categorizer.CharacterMappingsAcross | scripts/categorize_games.py:201-224 | every mapping replaces a non-empty wholly non-ASCII word by a non-empty ASCII word |
| Categorizer.ReplaceEachAbsent | scripts/categorize_games.py:271-275 | text holding no key is unchanged |
| Categorizer.ReplaceEachCreatesNothing | scripts/categorize_games.py:271-275 | the replacements create no non-ASCII word that was not there |
| Categorizer.ReplaceEachRemoves | scripts/categorize_games.py:271-275 | no key survives the replacements |
| Categorizer.TransliterateFacts | scripts/categorize_games.py:267-275 | no mapped word remains, and text without one is unchanged |
| Categorizer.SpecialCase | scripts/categorize_games.py:321-323 | None iff no variant of any case occurs; otherwise the key of a case with an occurring variant |
| Categorizer.SpecialCaseFirst | scripts/categorize_games.py:321-323 | the first case with an occurring variant wins |
| Categorizer.ExplicitChecksUnreachable | scripts/categorize_games.py:316-332 | the four explicit checks after the table never decide: clean_title is the table lookup or the regex tail |
| Categorizer.CumverseCheckDead | scripts/categorize_games.py:325-326 | the cumverse check cannot fire after the table failed |
| Categorizer.ChroeCheckDead | scripts/categorize_games.py:327-328 | the "dark of chroe" check cannot fire after the table failed |
| Categorizer.FurryCheckDead | scripts/categorize_games.py:329-330 | the "furry sex resort" check cannot fire after the table failed |
| Categorizer.BustyCheckDead | scripts/categorize_games.py:331-332 | the "busty milf..." check cannot fire after the table failed |
| Categorizer.SpecialKeyFixed | scripts/categorize_games.py:192-197 | each special-case key cleans to itself |
| Categorizer.TitlesFold | scripts/categorize_games.py:132-138 | every kept title has five characters or more and is a key of the original map, and every key is a kept title |
| Categorizer.TitlesFoldSources | scripts/categorize_games.py:132-138 | each cleaned title maps to the original of the last entry cleaning to it |
| Categorizer.TitlesFoldCover | scripts/categorize_games.py:132-138 | every titled entry whose cleaned title is long enough contributes it |
| Categorizer.TitlesFromFacts | scripts/categorize_games.py:126-140 | a missing or empty list gives nothing; otherwise the facts above hold |
| Categorizer.RefineFacts | scripts/categorize_games.py:415-427 | the stage-2 scan ends on the first eligible candidate with the top score, if that beats the start; otherwise nothing changes |
| Categorizer.BestMatchFacts | scripts/categorize_games.py:410-431 | a best match scores 90 or more, is a shortlisted eligible candidate, beats every other eligible one, and comes first among ties |
| Categorizer.LengthGateRatio | scripts/categorize_games.py:448-457 | the integer gate agrees with the source's ratio: at least 0.65, or at least 0.45 with a score of 96 or more |
| Categorizer.LengthGateFacts | scripts/categorize_games.py:448-457 | the gate is symmetric, monotone in the score, and passes titles of equal length |
| Categorizer.TagListFacts | scripts/categorize_games.py:400-547 | the tags start with shisuy_source, follow the fixed order, and hold a category iff it matched |
| Categorizer.BlacklistedMeaning | scripts/categorize_games.py:389-390 | a title is skipped as blacklisted iff it contains "reflection" in any case |
| Categorizer.ProcessGameFacts | scripts/categorize_games.py:372-582 | process_game with the corrected VR check never raises; a skipped game gets no tag; other games get shisuy_source then the matched categories, counted as categorized iff they have a second tag, logged iff not |
| Categorizer.ProcessGameAsWrittenFacts | scripts/categorize_games.py:433-446 | as written the call raises iff a game that is not skipped meets a VR-ness mismatch; otherwise it agrees with the corrected call |
| Categorizer.AsWrittenMismatchDropsGame | scripts/categorize_games.py:433-446 | such a game is lost by the as-written call and filed under shisuy_source, without the VR tag, by the corrected one |
| Categorizer.NoVrListNoCrash | scripts/categorize_games.py:404 | without a VR list the as-written call never raises |
| Categorizer.Routed | scripts/categorize_games.py:647-654 | a catalog is never longer than the results |
| Categorizer.RoutedMembers | scripts/categorize_games.py:647-654 | an entry is routed under a tag iff some result carrying the tag has it |
| Categorizer.RoutedInAio | scripts/categorize_games.py:647-654 | each category catalog is a sub-multiset of the all-in-one catalog |
| Categorizer.Outcomes | scripts/categorize_games.py:620-641 | one result per arrival, that of the arriving game |
| Categorizer.ArrivalMembers | scripts/categorize_games.py:620-654 | whatever order the results arrive in, an entry is routed under a tag iff its own result carries it |
| Categorizer.OutcomesWellTagged | scripts/categorize_games.py:400 | every tagged result starts with shisuy_source |
| Categorizer.CategorizeFacts | scripts/categorize_games.py:584-671 | with the corrected VR check (see Findings): nothing is written without games; each catalog holds exactly the entries whose result carries its tag, independently of arrival order, and is part of the all-in-one catalog |
| Categorizer.CategorizeKeepsEveryGame | scripts/categorize_games.py:584-671 | with the corrected VR check every entry that is not skipped reaches the all-in-one catalog |

## Left out

- File and console I/O are not modelled: JSON loading and saving, log files, colour output, progress bars, ETA computation. Missing or malformed input files become `Option` parameters.
- Network and browser probes are parameters: `check` in scripts/validate_links.py, `Probes` in rework_scraper.py, `respond` in validate.py. These cover the qiwi, datanodes, pixeldrain, MediaFire, Gofile and proxy probes, the driver pool and Gofile authorization. Their own retry, timeout and parsing logic is not modelled.
- The normalize_title regexes of scripts/validate_links.py, scripts/scraper.py and scraper.py are the parameter `norm`. rework_scraper.py's simpler pattern is modelled character by character.
- Scheduling is not modelled: asyncio concurrency, semaphores, the process pool, category and page loops (process_category, scrape_games, retry_failed_games, fetch_last_page_num, fetch_page), cleanup and the command-line entry points. The completion order of the categorizer's process pool is the `arrival` permutation. The scrapers' page step is modelled as one sequential call.
- Parsing is not modelled: HTML (BeautifulSoup), ISO date strings and the clock. A parsed page is a `GamePage`. Dates are integer timestamps. `datetime.now()` and `datetime.min` are the parameters `now` and `earliest`. A malformed ISO date, which raises in the source, is not represented.
- scraper.py's save_invalid_game only writes a log file and is not modelled.
- The categorizer's fuzzy scorers are oracles in `Categorizer.Matcher`: `process.extract`, `token_sort_ratio`, and cross_language_match with its `WRatio`. So are is_vr_title, compare_base_titles_for_vr (it only chooses a log message), normalize_special_chars, and lru_cache. The regex, emoji and normalisation tail of clean_title, after its special-case table and explicit checks, is the matcher's `rest`; `Categorizer.CleanTitle` models the rest of clean_title and is what the categorizer applies. The text of the unmatched log line (the closest match) is reduced to the `Unmatched` marker.
- Strings.Lower: Python's `lower()` and `upper()` are modelled on ASCII letters only, because Unicode case mapping is not modelled. Contracts that mention case hold for ASCII text.
- Categorizer.DetectRatios: the source compares binary floating-point ratios with 0.3 and 0.5. The model compares exact rationals, which can differ when a ratio falls within rounding distance of a threshold.
- Categorizer.LengthGateRatio: the same exact-rational reading for 0.45 and 0.65.
- A catalog entry without a `title` key, or with a `None` title, is read as titled "". In rework_scraper.py (decide_game_to_keep and process_duplicates, lines 324-325 and 346) and in scraper.py (find_duplicate_game and should_replace_game, lines 192 and 209) `game["title"]` then raises KeyError, or TypeError/AttributeError on `None`, and the run stops. The model does not represent that failure: it groups or compares such an entry under the title "" and goes on. In scripts/categorize_games.py a `None` title (not a missing one) makes process_game raise AttributeError at line 374. `main` catches it at line 662 and the game gets no catalog entry and no unmatched-log line, while the model logs it as skipped for an empty title.
- The `category` field that scripts/scraper.py adds to an entry is not part of `Catalog.Game`.
- SiteScraper.ParseRelativeDate and SiteScraper.ParseRelativeDateDefault: a digit is an ASCII digit (`Strings.IsDigit`). Python's `\d` and `int()` also accept the other Unicode decimal digits, so for "٣ days ago" scripts/scraper.py:53-54 subtracts three days where the model returns `now`. Dates written with non-ASCII digits are not modelled.
- SiteScraper.ParseRelativeDate: `timedelta` overflow is modelled by the bound of 999999999 days. An underflow below `datetime.min` uses the parameter `earliest`. The microsecond fields of `now` are not represented.
- Statistics printed at the end of the categorizer are not modelled.

## Findings

| source | as written | input that shows it | evidently intended | confidence | as-written member | corrected member |
|---|---|---|---|---|---|---|
| scripts/validate_links.py:345-372 | a rejected candidate is appended to `removed_games` inside the loop, and the final `extend` appends the whole group again (the winner branch likewise re-appends every rejected candidate) | a group of one entry whose only link fails: the entry is removed twice and `main` appends it to the blacklist twice | every entry other than the survivor is removed once; the corrected loop removes by position, so an exact copy of the survivor is still removed rather than dropped by the `!=` filter | high, not executed | LinkValidator.AsWrittenRemovesTwice | LinkValidator.ProcessGameGroupFacts |
| rework_scraper.py:244-251 | the GB branch formats with `::.2f`, an invalid format specification that raises ValueError; validate_mediafire_link catches it and rejects the link | a live, non-torrent MediaFire file of 1073741824 bytes | a size label in GB | high, not executed | Rework.LargeMediafireRejected | Rework.FormatSize |
| scripts/scraper.py:259-303 | the task loop skips only URLs already in `existing_links` and never adds the URLs it queues, so a URL listed twice on one page is fetched twice | a listing page naming the same new game URL twice: the entry is appended twice with the same source | each source page appears once in `downloads` | medium, not executed | SiteScraper.AsWrittenAppendsTwice | SiteScraper.RunPageTracked |
| scripts/categorize_games.py:433-446 | the VR-mismatch branches append to `log_messages`, which process_game never defines, so the call raises NameError and `main` drops the game from every catalog | a game whose best VR match is a VR title while its own title is not | reject the VR match and go on to the adult and software checks; the game stays in the all-in-one catalog | high, not executed | Categorizer.AsWrittenMismatchDropsGame | Categorizer.CategorizeKeepsEveryGame |

=== FILE: catalog.dfy ===
/** The catalog entry every script reads and writes, the hosting providers
    recognised by domain substring, and the two title/date notions shared by
    the duplicate resolvers. */
module Catalog {

  import opened Options
  import opened Strings

  /** One entry of a `downloads` list. `title` and `source` (the
      `repackLinkSource` page URL) use "" for a missing key or a `None`
      value. The truthiness tests of scripts/validate_links.py (the grouping
      at lines 311-314 and is_blacklisted at 399-401) and of
      scripts/categorize_games.py line 133 treat those alike.
      scripts/categorize_games.py line 374 reads a missing title as "" but
      fails on a `None` one (`.strip()` of `None`). rework_scraper.py (lines
      324-325 and 346) and scraper.py (lines 192 and 209) index
      `game["title"]` directly and fail on a missing key. The model reads
      every such entry as titled "". `uploadDate` is the parsed ISO
      timestamp, `None` when absent or empty. */
  datatype Game = Game(
    title: string,
    uris: seq<string>,
    fileSize: string,
    uploadDate: Option<int>,
    source: string)

  const FichierDomain: string := "1fichier.com"
  const GofileDomain: string := "gofile.io"
  const PixeldrainDomain: string := "pixeldrain.com"
  const MediafireDomain: string := "mediafire.com"
  const DatanodesDomain: string := "datanodes.to"
  const QiwiDomain: string := "qiwi.gg"

  /** A title naming a networked (online-fix) release: lower-cased, it
      contains "multiplayer" or "0xdeadcode". */
  predicate IsOnlineTitle(title: string)
  {
    ContainsLower(title, "multiplayer") || ContainsLower(title, "0xdeadcode")
  }

  /** `a` is a strictly later upload date than `b`; a missing date compares
      below every present one, as `datetime.min` does in the sort key. */
  predicate Later(a: Option<int>, b: Option<int>)
  {
    a.Some? && (b.None? || a.value > b.value)
  }

  /** The hosts some script probes with a dedicated checker. */
  datatype Provider = Qiwi | Datanodes | Pixeldrain | Mediafire | Gofile

  /** The domain substring a provider is recognised by. */
  function DomainOf(p: Provider): string
  {
    match p
    case Qiwi => QiwiDomain
    case Datanodes => DatanodesDomain
    case Pixeldrain => PixeldrainDomain
    case Mediafire => MediafireDomain
    case Gofile => GofileDomain
  }

  /** The unit format_size prints a byte count in. */
  datatype SizeUnit = KB | MB | GB

  function Divisor(u: SizeUnit): nat
  {
    match u
    case KB => 1024
    case MB => 1024 * 1024
    case GB => 1024 * 1024 * 1024
  }

  /** The unit format_size prints: the amount shown is at least 1 except in
      KB, and below 1024 except in GB. */
  function SizeUnitOf(bytes: int): (u: SizeUnit)
    ensures u != KB ==> Divisor(u) <= bytes
    ensures u != GB ==> bytes < 1024 * Divisor(u)
  {
    if bytes < 1024 * 1024 then KB
    else if bytes < 1024 * 1024 * 1024 then MB
    else GB
  }

  /** The two bounds determine the unit. */
  lemma SizeUnitUnique(bytes: int, u: SizeUnit)
    requires u != KB ==> Divisor(u) <= bytes
    requires u != GB ==> bytes < 1024 * Divisor(u)
    ensures u == SizeUnitOf(bytes)
  {
  }

  /** The MediaFire quick key of a share link: the text after its first
      "/file/" up to the next '/', as both link validators compute it from
      `u.split("/file/")[1].split("/")[0]`; `None` when there is no
      "/file/". The key can be empty. */
  function KeyAfterFile(u: string): (r: Option<string>)
    ensures r.None? <==> !Contains(u, "/file/")
    ensures r.Some? ==> '/' !in r.value
    ensures r.Some? ==> exists i | 0 <= i <= |u| - 6 ::
      && OccursAt(u, "/file/", i)
      && (forall j | 0 <= j < i :: !OccursAt(u, "/file/", j))
      && StartsWith(u[i + 6..], r.value)
      && (i + 6 + |r.value| == |u| || u[i + 6 + |r.value|] == '/')
  {
    match FindFirst(u, "/file/")
    case None => None
    case Some(i) =>
      var key := TakeUntil(u[i + 6..], '/');
      assert OccursAt(u, "/file/", i);
      Some(key)
  }
}

=== FILE: categorizer.dfy ===
/** The categorizer: each validated catalog entry is matched against three
    reference lists (VR, adult, software) and filed into the all-in-one
    catalog and the category catalogs it matches. Fuzzy scores, the regex
    tail of title cleaning and `is_vr_title` are oracles in a `Matcher`. */
module Categorizer {

  import opened Options
  import opened Strings
  import opened Seqs
  import opened Catalog

  // ------------------------------------------------------ detect_language

  datatype Script = Han | Kana | Hangul | LatinScript | OtherScript

  /** The code-point block a character is counted under. */
  function ScriptOf(c: char): Script
  {
    if ('\U{4E00}' <= c <= '\U{9FFF}') || ('\U{3400}' <= c <= '\U{4DBF}') then Han
    else if ('\U{3040}' <= c <= '\U{309F}') || ('\U{30A0}' <= c <= '\U{30FF}') then Kana
    else if '\U{AC00}' <= c <= '\U{D7A3}' then Hangul
    else if (' ' <= c <= '\U{7F}') || ('\U{A0}' <= c <= '\U{24F}') then LatinScript
    else OtherScript
  }

  /** The four script counters and the number of characters other than
      the plain space, which is the denominator of every ratio. */
  datatype Tally = Tally(han: nat, kana: nat, hangul: nat, latin: nat, nonSpace: nat)

  function Tick(t: Tally, c: char): Tally
  {
    var t := t.(nonSpace := if c == ' ' then t.nonSpace else t.nonSpace + 1);
    match ScriptOf(c)
    case Han => t.(han := t.han + 1)
    case Kana => t.(kana := t.kana + 1)
    case Hangul => t.(hangul := t.hangul + 1)
    case LatinScript => t.(latin := t.latin + 1)
    case OtherScript => t
  }

  function Count(text: string): (r: Tally)
    ensures r.nonSpace <= |text|
    ensures r.nonSpace == 0 <==> forall i | 0 <= i < |text| :: text[i] == ' '
    decreases |text|
  {
    if |text| == 0 then Tally(0, 0, 0, 0, 0)
    else
      var init := text[..|text| - 1];
      assert forall i | 0 <= i < |init| :: init[i] == text[i];
      Tick(Count(init), text[|text| - 1])
  }

  function Max(a: int, b: int): int { if a >= b then a else b }
  function Min(a: int, b: int): int { if a <= b then a else b }

  datatype Language = Chinese | Japanese | Korean | Latin | Other | Unknown

  /** `detect_language`. Every counter shares the denominator, so "this
      ratio is the largest" is "this counter is the largest", and the
      thresholds 0.3 and 0.5 are compared by cross-multiplying. */
  function DetectLanguage(text: string): (r: Language)
    ensures r == Unknown <==> forall i | 0 <= i < |text| :: text[i] == ' '
  {
    if |text| == 0 then Unknown
    else
      var t := Count(text);
      if t.nonSpace == 0 then Unknown
      else
        var top := Max(Max(t.han, t.kana), Max(t.hangul, t.latin));
        if t.han == top && 10 * t.han > 3 * t.nonSpace then Chinese
        else if t.kana == top && 10 * t.kana > 3 * t.nonSpace then Japanese
        else if t.hangul == top && 10 * t.hangul > 3 * t.nonSpace then Korean
        else if t.latin == top && 2 * t.latin > t.nonSpace then Latin
        else Other
  }

  /** A counter's share of the non-space characters, as a real ratio. */
  function Share(x: nat, n: nat): real
    requires n > 0
  {
    (x as real) / (n as real)
  }

  /** Shares of one denominator order as their counters do. */
  lemma ShareOrder(x: nat, y: nat, n: nat)
    requires n > 0
    ensures Share(x, n) <= Share(y, n) <==> x <= y
  {
    assert Share(x, n) * (n as real) == x as real;
    assert Share(y, n) * (n as real) == y as real;
  }

  /** Cross-multiplying a share against a rational threshold. */
  lemma ShareAbove(x: nat, n: nat, p: nat, q: nat)
    requires n > 0 && q > 0
    ensures Share(x, n) > (p as real) / (q as real) <==> q * x > p * n
  {
    var a, b := Share(x, n), (p as real) / (q as real);
    assert a * (n as real) == x as real;
    assert b * (q as real) == p as real;
    assert (q * x) as real == a * (n as real) * (q as real);
    assert (p * n) as real == b * (q as real) * (n as real);
  }

  lemma ShareAtLeast(x: nat, n: nat, p: nat, q: nat)
    requires n > 0 && q > 0
    ensures Share(x, n) >= (p as real) / (q as real) <==> q * x >= p * n
  {
    var a, b := Share(x, n), (p as real) / (q as real);
    assert a * (n as real) == x as real;
    assert b * (q as real) == p as real;
    assert (q * x) as real == a * (n as real) * (q as real);
    assert (p * n) as real == b * (q as real) * (n as real);
  }

  function MaxReal(a: real, b: real): real { if a >= b then a else b }

  /** `max_ratio == ratio` for the counter `x` of `t`. */
  predicate TopShare(t: Tally, x: nat)
    requires t.nonSpace > 0
  {
    var n := t.nonSpace;
    Share(x, n) == MaxReal(MaxReal(Share(t.han, n), Share(t.kana, n)), MaxReal(Share(t.hangul, n), Share(t.latin, n)))
  }

  /** The script with counter `x` claims the title at threshold `p / q`. */
  predicate Claims(t: Tally, x: nat, p: nat, q: nat)
    requires t.nonSpace > 0 && q > 0
  {
    TopShare(t, x) && Share(x, t.nonSpace) > (p as real) / (q as real)
  }

  lemma TopShareIsTopCount(t: Tally, x: nat)
    requires t.nonSpace > 0
    ensures TopShare(t, x) <==> x == Max(Max(t.han, t.kana), Max(t.hangul, t.latin))
  {
    var n := t.nonSpace;
    ShareOrder(t.han, t.kana, n);
    ShareOrder(t.kana, t.han, n);
    ShareOrder(t.hangul, t.latin, n);
    ShareOrder(t.latin, t.hangul, n);
    var m1, m2 := Max(t.han, t.kana), Max(t.hangul, t.latin);
    assert MaxReal(Share(t.han, n), Share(t.kana, n)) == Share(m1, n);
    assert MaxReal(Share(t.hangul, n), Share(t.latin, n)) == Share(m2, n);
    ShareOrder(m1, m2, n);
    ShareOrder(m2, m1, n);
    var m := Max(m1, m2);
    assert MaxReal(Share(m1, n), Share(m2, n)) == Share(m, n);
    ShareOrder(x, m, n);
    ShareOrder(m, x, n);
  }

  /** The result read as the source computes it, with real ratios: a label
      goes to a script whose share of the non-space characters is the
      largest and above 0.3 (0.5 for Latin), earlier labels winning ties. */
  lemma DetectRatios(text: string)
    requires exists i | 0 <= i < |text| :: text[i] != ' '
    ensures Count(text).nonSpace > 0
    ensures var t := Count(text);
      && (DetectLanguage(text) == Chinese <==> Claims(t, t.han, 3, 10))
      && (DetectLanguage(text) == Japanese <==> !Claims(t, t.han, 3, 10) && Claims(t, t.kana, 3, 10))
      && (DetectLanguage(text) == Korean <==>
            !Claims(t, t.han, 3, 10) && !Claims(t, t.kana, 3, 10) && Claims(t, t.hangul, 3, 10))
      && (DetectLanguage(text) == Latin <==>
            !Claims(t, t.han, 3, 10) && !Claims(t, t.kana, 3, 10) && !Claims(t, t.hangul, 3, 10)
            && Claims(t, t.latin, 1, 2))
  {
    var t := Count(text);
    TopShareIsTopCount(t, t.han);
    TopShareIsTopCount(t, t.kana);
    TopShareIsTopCount(t, t.hangul);
    TopShareIsTopCount(t, t.latin);
    ShareAbove(t.han, t.nonSpace, 3, 10);
    ShareAbove(t.kana, t.nonSpace, 3, 10);
    ShareAbove(t.hangul, t.nonSpace, 3, 10);
    ShareAbove(t.latin, t.nonSpace, 1, 2);
  }

  function LanguageOf(s: Script): Language
  {
    match s
    case Han => Chinese
    case Kana => Japanese
    case Hangul => Korean
    case LatinScript => Latin
    case OtherScript => Other
  }

  function Only(s: Script, n: nat): Tally
  {
    match s
    case Han => Tally(n, 0, 0, 0, n)
    case Kana => Tally(0, n, 0, 0, n)
    case Hangul => Tally(0, 0, n, 0, n)
    case LatinScript => Tally(0, 0, 0, n, n)
    case OtherScript => Tally(0, 0, 0, 0, n)
  }

  lemma {:induction false} CountPure(text: string, s: Script)
    requires forall i | 0 <= i < |text| :: ScriptOf(text[i]) == s && text[i] != ' '
    ensures Count(text) == Only(s, |text|)
    decreases |text|
  {
    if |text| > 0 {
      CountPure(text[..|text| - 1], s);
    }
  }

  /** A title written wholly in one script, without spaces, is labelled
      with that script's language. */
  lemma PureScript(text: string, s: Script)
    requires |text| > 0
    requires forall i | 0 <= i < |text| :: ScriptOf(text[i]) == s && text[i] != ' '
    ensures DetectLanguage(text) == LanguageOf(s)
  {
    CountPure(text, s);
  }

  /** Spaces are counted as Latin but left out of the denominator, so
      padding a Latin title with spaces keeps it Latin. */
  lemma PadLatin(text: string)
    requires DetectLanguage(text) == Latin
    ensures DetectLanguage(text + " ") == Latin
  {
    assert (text + " ")[..|text|] == text;
  }

  /** The same bias turns one ideograph and one ASCII letter into a Latin
      title: the space between them is a third Latin character. */
  lemma SpaceTipsToLatin()
    ensures DetectLanguage("中 a") == Latin
  {
    assert "中 a"[..2] == "中 ";
    assert "中 "[..1] == "中";
    assert "中"[..0] == "";
    assert Count("中") == Tally(1, 0, 0, 0, 1);
    assert Count("中 ") == Tally(1, 0, 0, 1, 1);
    assert Count("中 a") == Tally(1, 0, 0, 2, 2);
  }

  /** Between two scripts tied for the largest count, the label earlier in
      the order Chinese, Japanese, Korean, Latin wins, and Latin never wins
      a tie. */
  lemma TiesGoEarlier(text: string)
    requires exists i | 0 <= i < |text| :: text[i] != ' '
    ensures Count(text).nonSpace > 0
    ensures var t := Count(text);
      && (t.han == t.kana && Claims(t, t.kana, 3, 10) ==> DetectLanguage(text) == Chinese)
      && (t.han == t.hangul && Claims(t, t.hangul, 3, 10) ==> DetectLanguage(text) == Chinese)
      && (t.han < t.kana && t.kana == t.hangul && Claims(t, t.hangul, 3, 10) ==> DetectLanguage(text) == Japanese)
      && (Claims(t, t.latin, 1, 2) && (t.latin == t.han || t.latin == t.kana || t.latin == t.hangul) ==>
            DetectLanguage(text) != Latin)
  {
    DetectRatios(text);
    var t := Count(text);
    TopShareIsTopCount(t, t.han);
    TopShareIsTopCount(t, t.kana);
    TopShareIsTopCount(t, t.hangul);
    TopShareIsTopCount(t, t.latin);
  }

  /** An instance of the tie rule: one ideograph and one kana make a
      Chinese title. */
  lemma TieGoesToChinese()
    ensures DetectLanguage("中あ") == Chinese
  {
    assert "中あ"[..1] == "中";
    assert "中"[..0] == "";
  }

  // ------------------------------------------------- transliterate_chinese

  /** `CHARACTER_MAPPINGS`, in dictionary order. */
  const CharacterMappings: seq<(string, string)> := [
    ("暗黑", "dark"), ("克蘿薇", "chroe"), ("的", "of"), ("遊戲", "game"),
    ("戰爭", "war"), ("龍", "dragon"), ("劍", "sword"), ("魔法", "magic"),
    ("幻想", "fantasy"), ("冒險", "adventure"), ("世界", "world"),
    ("王國", "kingdom"), ("傳說", "legend"), ("英雄", "hero"), ("時代", "era"),
    ("命運", "destiny"), ("戰士", "warrior"), ("公主", "princess"),
    ("皇帝", "emperor"), ("神話", "mythology"), ("夢想", "dream")
  ]

  predicate Ascii(c: char) { c < '\U{80}' }

  /** A replacement table whose keys are non-empty and wholly non-ASCII and
      whose values are non-empty and wholly ASCII. */
  predicate AcrossScripts(table: seq<(string, string)>)
  {
    forall i | 0 <= i < |table| ::
      && |table[i].0| > 0 && |table[i].1| > 0
      && (forall k | 0 <= k < |table[i].0| :: !Ascii(table[i].0[k]))
      && (forall k | 0 <= k < |table[i].1| :: Ascii(table[i].1[k]))
  }

  /** The replacements applied one after the other in table order. */
  function ReplaceEach(text: string, table: seq<(string, string)>): string
    requires forall i | 0 <= i < |table| :: |table[i].0| > 0
    decreases |table|
  {
    if |table| == 0 then text
    else ReplaceEach(ReplaceAll(text, table[0].0, table[0].1), table[1..])
  }

  lemma CharacterMappingsAcross()
    ensures AcrossScripts(CharacterMappings)
  {
    var m := CharacterMappings;
    MappingsAcrossLow();
    MappingsAcrossMid();
    MappingsAcrossHigh();
    AcrossConcat(m[..7], m[7..14]);
    AcrossConcat(m[..14], m[14..]);
    assert m[..7] + m[7..14] == m[..14];
    assert m[..14] + m[14..] == m;
  }

  lemma MappingsAcrossLow()
    ensures AcrossScripts(CharacterMappings[..7])
  {
  }

  lemma MappingsAcrossMid()
    ensures AcrossScripts(CharacterMappings[7..14])
  {
  }

  lemma MappingsAcrossHigh()
    ensures AcrossScripts(CharacterMappings[14..])
  {
  }

  lemma AcrossConcat(a: seq<(string, string)>, b: seq<(string, string)>)
    requires AcrossScripts(a) && AcrossScripts(b)
    ensures AcrossScripts(a + b)
  {
    forall i | 0 <= i < |a + b|
      ensures (a + b)[i] == if i < |a| then a[i] else b[i - |a|]
    {
    }
  }

  /** `transliterate_chinese`. */
  function Transliterate(text: string): string
  {
    CharacterMappingsAcross();
    if text == "" then "" else ReplaceEach(text, CharacterMappings)
  }

  /** Text holding no key comes back unchanged. */
  lemma {:induction false} ReplaceEachAbsent(text: string, table: seq<(string, string)>)
    requires forall i | 0 <= i < |table| :: |table[i].0| > 0 && !Contains(text, table[i].0)
    ensures ReplaceEach(text, table) == text
    decreases |table|
  {
    if |table| > 0 {
      ReplaceAbsent(text, table[0].0, table[0].1);
      ReplaceEachAbsent(text, table[1..]);
    }
  }

  /** Replacing across scripts never creates a wholly non-ASCII word that
      was not there before. */
  lemma {:induction false} ReplaceEachCreatesNothing(text: string, table: seq<(string, string)>, w: string)
    requires AcrossScripts(table)
    requires |w| > 0 && (forall k | 0 <= k < |w| :: !Ascii(w[k]))
    requires Contains(ReplaceEach(text, table), w)
    ensures Contains(text, w)
    decreases |table|
  {
    if |table| > 0 {
      var (key, value) := table[0];
      assert AcrossScripts(table[1..]) by {
        forall i | 0 <= i < |table[1..]| ensures table[1..][i] == table[i + 1] { }
      }
      ReplaceEachCreatesNothing(ReplaceAll(text, key, value), table[1..], w);
      assert w[0] !in value by {
        assert forall k | 0 <= k < |value| :: value[k] != w[0];
      }
      assert value[0] !in w by {
        assert forall k | 0 <= k < |w| :: w[k] != value[0];
      }
      ReplaceCreatesNothing(text, key, value, w);
    }
  }

  /** After the table is applied, none of its keys is left. */
  lemma {:induction false} ReplaceEachRemoves(text: string, table: seq<(string, string)>)
    requires AcrossScripts(table)
    ensures forall i | 0 <= i < |table| :: !Contains(ReplaceEach(text, table), table[i].0)
    decreases |table|
  {
    if |table| > 0 {
      var (key, value) := table[0];
      var next := ReplaceAll(text, key, value);
      assert AcrossScripts(table[1..]) by {
        forall i | 0 <= i < |table[1..]| ensures table[1..][i] == table[i + 1] { }
      }
      ReplaceEachRemoves(next, table[1..]);
      assert key[0] !in value by {
        assert forall k | 0 <= k < |value| :: value[k] != key[0];
      }
      assert value[0] !in key by {
        assert forall k | 0 <= k < |key| :: key[k] != value[0];
      }
      ReplaceRemoves(text, key, value);
      if Contains(ReplaceEach(next, table[1..]), key) {
        ReplaceEachCreatesNothing(next, table[1..], key);
      }
      forall i | 1 <= i < |table|
        ensures !Contains(ReplaceEach(text, table), table[i].0)
      {
        assert table[i] == table[1..][i - 1];
      }
    }
  }

  /** The transliteration leaves no mapped word behind, and a text that
      holds none of them comes back unchanged. */
  lemma TransliterateFacts(text: string)
    ensures forall i | 0 <= i < |CharacterMappings| :: !Contains(Transliterate(text), CharacterMappings[i].0)
    ensures (forall i | 0 <= i < |CharacterMappings| :: !Contains(text, CharacterMappings[i].0))
            ==> Transliterate(text) == text
  {
    CharacterMappingsAcross();
    if text != "" {
      ReplaceEachRemoves(text, CharacterMappings);
      if forall i | 0 <= i < |CharacterMappings| :: !Contains(text, CharacterMappings[i].0) {
        ReplaceEachAbsent(text, CharacterMappings);
      }
    }
  }

  // ------------------------------------------------------------ clean_title

  /** `SPECIAL_CASE_MAPPINGS`, in dictionary order: a cleaned key and the
      lower-case variants that select it. */
  const SpecialCases: seq<(string, seq<string>)> := [
    ("cumverse", ["cumverse [18+]", "cumverse", "cumverse free download"]),
    ("dark of chroe", ["暗黑的克蘿薇 (dark of chroe)", "dark of chroe", "dark of chroe free download"]),
    ("furry sex resort", ["furry sex resort 🏝🔞", "furry sex resort", "furry sex resort free download"]),
    ("busty milf and summer country sex life",
      ["busty milf and summer country sex life", "busty milf and summer country sex life free download"])
  ]

  predicate AnyVariantIn(low: string, variants: seq<string>)
  {
    exists j | 0 <= j < |variants| :: Contains(low, Lower(variants[j]))
  }

  /** The first special case one of whose variants the lower-cased title
      contains. */
  function SpecialCase(low: string, cases: seq<(string, seq<string>)>): (r: Option<string>)
    ensures r.None? <==> forall i | 0 <= i < |cases| :: !AnyVariantIn(low, cases[i].1)
    ensures r.Some? ==> exists i | 0 <= i < |cases| :: r.value == cases[i].0 && AnyVariantIn(low, cases[i].1)
    decreases |cases|
  {
    if |cases| == 0 then None
    else if AnyVariantIn(low, cases[0].1) then Some(cases[0].0)
    else
      var r := SpecialCase(low, cases[1..]);
      assert forall i | 1 <= i < |cases| :: cases[i] == cases[1..][i - 1];
      r
  }

  /** The start of `clean_title`: the empty title, the special cases, and
      four explicit checks; `rest` is the regex-and-normalisation tail. */
  function CleanTitle(title: string, rest: string -> string): string
  {
    if title == "" then ""
    else
      var low := Lower(title);
      match SpecialCase(low, SpecialCases)
      case Some(key) => key
      case None =>
        if Contains(low, "cumverse free download") then "cumverse"
        else if Contains(low, "dark of chroe free download") then "dark of chroe"
        else if Contains(low, "furry sex resort") && (Contains(low, "free download") || Contains(low, "uncensored")) then "furry sex resort"
        else if Contains(low, "busty milf and summer country sex life") then "busty milf and summer country sex life"
        else rest(title)
  }

  /** The four explicit checks never decide: each needle contains a
      variant that the special-case table already matched. */
  lemma ExplicitChecksUnreachable(title: string, rest: string -> string)
    ensures CleanTitle(title, rest)
        == if title == "" then "" else match SpecialCase(Lower(title), SpecialCases)
             case Some(key) => key
             case None => rest(title)
  {
    var low := Lower(title);
    if title != "" && SpecialCase(low, SpecialCases).None? {
      assert !AnyVariantIn(low, SpecialCases[0].1);
      assert !AnyVariantIn(low, SpecialCases[1].1);
      assert !AnyVariantIn(low, SpecialCases[2].1);
      assert !AnyVariantIn(low, SpecialCases[3].1);
      CumverseCheckDead(low);
      ChroeCheckDead(low);
      FurryCheckDead(low);
      BustyCheckDead(low);
    }
  }

  lemma CumverseCheckDead(low: string)
    requires !AnyVariantIn(low, SpecialCases[0].1)
    ensures !Contains(low, "cumverse free download")
  {
    assert Lower("cumverse") == "cumverse";
    assert !Contains(low, SpecialCases[0].1[1]);
    PrefixContained("cumverse free download", "cumverse");
    if Contains(low, "cumverse free download") {
      ContainsTrans(low, "cumverse free download", "cumverse");
    }
  }

  lemma ChroeCheckDead(low: string)
    requires !AnyVariantIn(low, SpecialCases[1].1)
    ensures !Contains(low, "dark of chroe free download")
  {
    assert Lower("dark of chroe") == "dark of chroe";
    assert !Contains(low, SpecialCases[1].1[1]);
    PrefixContained("dark of chroe free download", "dark of chroe");
    if Contains(low, "dark of chroe free download") {
      ContainsTrans(low, "dark of chroe free download", "dark of chroe");
    }
  }

  lemma FurryCheckDead(low: string)
    requires !AnyVariantIn(low, SpecialCases[2].1)
    ensures !Contains(low, "furry sex resort")
  {
    assert Lower("furry sex resort") == "furry sex resort";
    assert !Contains(low, SpecialCases[2].1[1]);
  }

  lemma BustyCheckDead(low: string)
    requires !AnyVariantIn(low, SpecialCases[3].1)
    ensures !Contains(low, "busty milf and summer country sex life")
  {
    assert Lower(SpecialCases[3].1[0]) == SpecialCases[3].1[0];
    assert !Contains(low, SpecialCases[3].1[0]);
  }

  /** `SpecialCase` picks case `i` when it is the first whose variants
      occur. */
  lemma {:induction false} SpecialCaseFirst(low: string, cases: seq<(string, seq<string>)>, i: nat)
    requires i < |cases| && AnyVariantIn(low, cases[i].1)
    requires forall h | 0 <= h < i :: !AnyVariantIn(low, cases[h].1)
    ensures SpecialCase(low, cases) == Some(cases[i].0)
    decreases i
  {
    if i > 0 {
      assert !AnyVariantIn(low, cases[0].1);
      assert forall h | 0 <= h < |cases| - 1 :: cases[1..][h] == cases[h + 1];
      SpecialCaseFirst(low, cases[1..], i - 1);
    }
  }

  /** A text without ASCII capitals is its own lower-case form. */
  lemma LowerFixed(s: string)
    requires forall k | 0 <= k < |s| :: !('A' <= s[k] <= 'Z')
    ensures Lower(s) == s
  {
  }

  /** No variant of case `i` occurs in `s` when every such variant holds
      a lower-case letter that `s` lacks. */
  lemma NoVariantIn(s: string, i: nat, c: char)
    requires i < |SpecialCases| && 'a' <= c <= 'z' && c !in s
    requires forall j | 0 <= j < |SpecialCases[i].1| :: c in SpecialCases[i].1[j]
    ensures !AnyVariantIn(s, SpecialCases[i].1)
  {
    forall j | 0 <= j < |SpecialCases[i].1|
      ensures !Contains(s, Lower(SpecialCases[i].1[j]))
    {
      var v := SpecialCases[i].1[j];
      var k :| 0 <= k < |v| && v[k] == c;
      assert Lower(v)[k] == c;
      AbsentChar(s, Lower(v), k);
    }
  }

  /** The same with two adjacent lower-case letters at `k` and `k + 1`. */
  lemma NoVariantPairIn(s: string, i: nat, k: nat)
    requires i < |SpecialCases|
    requires forall j | 0 <= j < |SpecialCases[i].1| ::
      && k + 1 < |SpecialCases[i].1[j]|
      && 'a' <= SpecialCases[i].1[j][k] <= 'z' && 'a' <= SpecialCases[i].1[j][k + 1] <= 'z'
      && forall m | 0 <= m < |s| - 1 :: !(s[m] == SpecialCases[i].1[j][k] && s[m + 1] == SpecialCases[i].1[j][k + 1])
    ensures !AnyVariantIn(s, SpecialCases[i].1)
  {
    forall j | 0 <= j < |SpecialCases[i].1|
      ensures !Contains(s, Lower(SpecialCases[i].1[j]))
    {
      var v := SpecialCases[i].1[j];
      assert Lower(v)[k] == v[k] && Lower(v)[k + 1] == v[k + 1];
      AbsentPair(s, Lower(v), k);
    }
  }

  /** The key of case `i` selects case `i`, given that no earlier case
      matched it. */
  lemma KeySelectsItself(i: nat, rest: string -> string)
    requires i < |SpecialCases|
    requires forall k | 0 <= k < |SpecialCases[i].0| :: !('A' <= SpecialCases[i].0[k] <= 'Z')
    requires forall h | 0 <= h < i :: !AnyVariantIn(SpecialCases[i].0, SpecialCases[h].1)
    ensures CleanTitle(SpecialCases[i].0, rest) == SpecialCases[i].0
  {
    var key := SpecialCases[i].0;
    LowerFixed(key);
    var j := if i == 3 then 0 else 1;
    assert SpecialCases[i].1[j] == key;
    PrefixContained(key, key);
    assert AnyVariantIn(key, SpecialCases[i].1);
    SpecialCaseFirst(key, SpecialCases, i);
  }

  /** A special-case key cleans to itself: every key is one of its own
      variants, and no variant of an earlier case occurs in a later key. */
  lemma SpecialKeyFixed(i: nat, rest: string -> string)
    requires i < |SpecialCases|
    ensures CleanTitle(SpecialCases[i].0, rest) == SpecialCases[i].0
  {
    if i == 0 {
      KeySelectsItself(0, rest);
    } else if i == 1 {
      NoVariantIn("dark of chroe", 0, 'v');
      KeySelectsItself(1, rest);
    } else if i == 2 {
      FurryKeyFixed(rest);
    } else {
      BustyKeyFixed(rest);
    }
  }

  lemma FurryKeyFixed(rest: string -> string)
    ensures CleanTitle(SpecialCases[2].0, rest) == SpecialCases[2].0
  {
    NoVariantIn("furry sex resort", 0, 'v');
    NoVariantIn("furry sex resort", 1, 'h');
    KeySelectsItself(2, rest);
  }

  const Busty: string := "busty milf and summer country sex life"

  lemma BustyKeyFixed(rest: string -> string)
    ensures CleanTitle(SpecialCases[3].0, rest) == SpecialCases[3].0
  {
    BustyLacksEarlier();
    KeySelectsItself(3, rest);
  }

  lemma BustyLacksEarlier()
    ensures !AnyVariantIn(Busty, SpecialCases[0].1)
    ensures !AnyVariantIn(Busty, SpecialCases[1].1)
    ensures !AnyVariantIn(Busty, SpecialCases[2].1)
  {
    BustyLacksCumverse();
    BustyLacksDark();
    BustyLacksFurry();
  }

  lemma BustyLacksCumverse()
    ensures !AnyVariantIn(Busty, SpecialCases[0].1)
  {
    NoVariantIn(Busty, 0, 'v');
  }

  lemma BustyLacksDark()
    ensures !AnyVariantIn(Busty, SpecialCases[1].1)
  {
    NoVariantIn(Busty, 1, 'h');
  }

  lemma BustyLacksFurry()
    ensures !AnyVariantIn(Busty, SpecialCases[2].1)
  {
    assert forall m | 0 <= m < |Busty| - 1 :: !(Busty[m] == 'f' && Busty[m + 1] == 'u');
    NoVariantPairIn(Busty, 2, 0);
  }

  // -------------------------------------------------- get_titles_from_list

  const MinTitleLength: nat := 5

  /** The qualifying titles of `games` in order, and for each cleaned
      title the original it was cleaned from, a later original
      overwriting an earlier one. */
  function TitlesFold(games: seq<Game>, clean: string -> string): (r: (seq<string>, map<string, string>))
    ensures forall k | 0 <= k < |r.0| :: |r.0[k]| >= MinTitleLength && r.0[k] in r.1
    ensures forall c | c in r.1 :: c in r.0
    decreases |games|
  {
    if |games| == 0 then ([], map[])
    else
      var (ts, orig) := TitlesFold(games[..|games| - 1], clean);
      var title := games[|games| - 1].title;
      if title != "" && |clean(title)| >= MinTitleLength then (ts + [clean(title)], orig[clean(title) := title])
      else (ts, orig)
  }

  /** `get_titles_from_list`; `None` stands for a file that could not be
      loaded or does not hold a list. */
  function TitlesFrom(list: Option<seq<Game>>, clean: string -> string): (seq<string>, map<string, string>)
  {
    match list
    case None => ([], map[])
    case Some(games) => if |games| == 0 then ([], map[]) else TitlesFold(games, clean)
  }

  /** Game `i` contributed title `c`, and no later game did. */
  ghost predicate LastSource(games: seq<Game>, clean: string -> string, c: string, i: int)
  {
    && 0 <= i < |games| && games[i].title != "" && clean(games[i].title) == c
    && forall j | i < j < |games| :: games[j].title == "" || clean(games[j].title) != c
  }

  /** Each cleaned title maps to the original of the last game that
      cleaned to it. */
  lemma {:induction false} TitlesFoldSources(games: seq<Game>, clean: string -> string)
    ensures forall c | c in TitlesFold(games, clean).1 ::
      exists i :: LastSource(games, clean, c, i) && TitlesFold(games, clean).1[c] == games[i].title
    decreases |games|
  {
    if |games| > 0 {
      var init := games[..|games| - 1];
      TitlesFoldSources(init, clean);
      var orig0 := TitlesFold(init, clean).1;
      var orig := TitlesFold(games, clean).1;
      var last := |games| - 1;
      var title := games[last].title;
      var kept := title != "" && |clean(title)| >= MinTitleLength;
      assert orig == if kept then orig0[clean(title) := title] else orig0;
      forall c | c in orig
        ensures exists i :: LastSource(games, clean, c, i) && orig[c] == games[i].title
      {
        if kept && c == clean(title) {
          assert LastSource(games, clean, c, last);
        } else {
          var i :| LastSource(init, clean, c, i) && orig0[c] == init[i].title;
          assert LastSource(games, clean, c, i);
        }
      }
    }
  }

  /** Every game with a title that cleans to five characters or more
      contributes it. */
  lemma {:induction false} TitlesFoldCover(games: seq<Game>, clean: string -> string)
    ensures forall i | 0 <= i < |games| :: games[i].title != "" && |clean(games[i].title)| >= MinTitleLength
                                          ==> clean(games[i].title) in TitlesFold(games, clean).0
    decreases |games|
  {
    if |games| > 0 {
      var init := games[..|games| - 1];
      TitlesFoldCover(init, clean);
      forall i | 0 <= i < |games| - 1 ensures games[i] == init[i] { }
    }
  }

  /** `([], {})` for a missing or empty list; otherwise every kept title
      is long enough and a key of the map, the keys are the kept titles,
      each maps to the original of the last game cleaning to it, and
      every qualifying game contributes. */
  lemma TitlesFromFacts(list: Option<seq<Game>>, clean: string -> string)
    ensures list.None? || |list.value| == 0 ==> TitlesFrom(list, clean) == ([], map[])
    ensures var (ts, orig) := TitlesFrom(list, clean);
      && (forall k | 0 <= k < |ts| :: |ts[k]| >= MinTitleLength && ts[k] in orig)
      && (forall c | c in orig :: c in ts)
    ensures list.Some? ==>
      && (forall c | c in TitlesFrom(list, clean).1 ::
            exists i :: LastSource(list.value, clean, c, i) && TitlesFrom(list, clean).1[c] == list.value[i].title)
      && (forall i | 0 <= i < |list.value| :: list.value[i].title != "" && |clean(list.value[i].title)| >= MinTitleLength
                                              ==> clean(list.value[i].title) in TitlesFrom(list, clean).0)
  {
    if list.Some? {
      TitlesFoldSources(list.value, clean);
      TitlesFoldCover(list.value, clean);
    }
  }

  // --------------------------------------------------------- tokenisation

  /** Length of the run of non-space characters at the front of `s`. */
  function WordLength(s: string): (n: nat)
    ensures n <= |s|
    ensures forall k | 0 <= k < n :: !IsSpace(s[k])
    ensures n < |s| ==> IsSpace(s[n])
    decreases |s|
  {
    if |s| == 0 || IsSpace(s[0]) then 0 else 1 + WordLength(s[1..])
  }

  /** `s.split()`: the maximal runs of non-space characters, in order. */
  function Words(s: string): (r: seq<string>)
    ensures forall k | 0 <= k < |r| :: |r[k]| > 0 && forall m | 0 <= m < |r[k]| :: !IsSpace(r[k][m])
    decreases |s|
  {
    if |s| == 0 then []
    else if IsSpace(s[0]) then Words(s[1..])
    else
      var n := WordLength(s);
      [s[..n]] + Words(s[n..])
  }

  /** `set(t.lower().split())`. */
  function Tokens(t: string): set<string>
  {
    set w | w in Words(Lower(t))
  }

  /** The token overlap (intersection over union) is at least 0.5. */
  predicate Overlaps(a: string, b: string)
  {
    var x, y := Tokens(a), Tokens(b);
    |x + y| > 0 && 2 * |x * y| >= |x + y|
  }

  // ----------------------------------------------------------- the matcher

  const FuzzyThreshold: int := 90
  const PreliminaryThreshold: int := 80
  const MaxPreliminary: nat := 5
  const StrictScore: int := 96
  const BlacklistKeywords: seq<string> := ["reflection"]

  /** The fuzzy-matching oracles: `ranked(title, list)` is
      `process.extract` with `token_sort_ratio`, every entry of `list`
      with its score, best first; `score` is `cross_language_match`;
      `isVr` is `is_vr_title`; `rest` is the regex-and-normalisation tail
      of `clean_title`. */
  datatype Matcher = Matcher(
    ranked: (string, seq<string>) -> seq<(string, int)>,
    score: (string, string) -> int,
    isVr: string -> bool,
    rest: string -> string)

  /** `clean_title` with the matcher's regex tail. */
  function Clean(m: Matcher): string -> string
  {
    t => CleanTitle(t, m.rest)
  }

  function Names(cands: seq<(string, int)>): (r: seq<string>)
    ensures |r| == |cands| && forall k | 0 <= k < |cands| :: r[k] == cands[k].0
  {
    seq(|cands|, k requires 0 <= k < |cands| => cands[k].0)
  }

  function QualifiedPred(): ((string, int)) -> bool
  {
    (c: (string, int)) => c.1 >= PreliminaryThreshold
  }

  /** Stage 1: the best five by `token_sort_ratio`, those scoring 80 or
      more. */
  function Shortlist(m: Matcher, title: string, list: seq<string>): seq<string>
  {
    var ranked := m.ranked(title, list);
    Names(Filter(ranked[..Min(|ranked|, MaxPreliminary)], QualifiedPred()))
  }

  /** Stage 2 scan: `best` and `high` after the candidates in `cands`,
      a candidate replacing the best only with a strictly higher score;
      with `needOverlap` only candidates sharing half their tokens count. */
  function Refine(m: Matcher, title: string, cands: seq<string>, needOverlap: bool,
                  best: Option<string>, high: int): (Option<string>, int)
    decreases |cands|
  {
    if |cands| == 0 then (best, high)
    else
      var c := cands[0];
      if (!needOverlap || Overlaps(title, c)) && m.score(title, c) > high
      then Refine(m, title, cands[1..], needOverlap, Some(c), m.score(title, c))
      else Refine(m, title, cands[1..], needOverlap, best, high)
  }

  predicate Eligible(m: Matcher, title: string, needOverlap: bool, c: string)
  {
    !needOverlap || Overlaps(title, c)
  }

  /** `cands[i]` is eligible, scores `h`, and every eligible candidate
      before it scores less. */
  ghost predicate FirstTopAt(m: Matcher, title: string, cands: seq<string>, needOverlap: bool, i: int, h: int)
  {
    && 0 <= i < |cands| && Eligible(m, title, needOverlap, cands[i]) && m.score(title, cands[i]) == h
    && forall j | 0 <= j < i :: Eligible(m, title, needOverlap, cands[j]) ==> m.score(title, cands[j]) < h
  }

  /** The scan ends on the first eligible candidate with the highest
      score, if that score beats the starting one; otherwise nothing
      changes. */
  lemma {:induction false} RefineFacts(m: Matcher, title: string, cands: seq<string>, needOverlap: bool,
                                       best: Option<string>, high: int)
    ensures var (b, h) := Refine(m, title, cands, needOverlap, best, high);
      && h >= high
      && (forall j | 0 <= j < |cands| :: Eligible(m, title, needOverlap, cands[j]) ==> m.score(title, cands[j]) <= h)
      && (h == high ==> b == best)
      && (h > high ==> b.Some? && exists i :: FirstTopAt(m, title, cands, needOverlap, i, h) && b.value == cands[i])
    decreases |cands|
  {
    if |cands| > 0 {
      var c := cands[0];
      var tail := cands[1..];
      var picked := Eligible(m, title, needOverlap, c) && m.score(title, c) > high;
      var best', high' := if picked then Some(c) else best, if picked then m.score(title, c) else high;
      RefineFacts(m, title, tail, needOverlap, best', high');
      var (b, h) := Refine(m, title, cands, needOverlap, best, high);
      assert (b, h) == Refine(m, title, tail, needOverlap, best', high');
      forall j | 0 <= j < |cands| && Eligible(m, title, needOverlap, cands[j])
        ensures m.score(title, cands[j]) <= h
      {
        if j > 0 {
          assert cands[j] == tail[j - 1];
        }
      }
      if h > high {
        if h == high' {
          assert picked;
          assert FirstTopAt(m, title, cands, needOverlap, 0, h);
        } else {
          var i :| FirstTopAt(m, title, tail, needOverlap, i, h) && b.value == tail[i];
          forall j | 0 <= j < i + 1 && Eligible(m, title, needOverlap, cands[j])
            ensures m.score(title, cands[j]) < h
          {
            if j > 0 {
              assert cands[j] == tail[j - 1];
            }
          }
          assert FirstTopAt(m, title, cands, needOverlap, i + 1, h);
        }
      }
    }
  }

  /** The best match of stage 2, when its score reaches 90. */
  function BestMatch(m: Matcher, title: string, list: seq<string>, needOverlap: bool): Option<(string, int)>
  {
    var cands := Shortlist(m, title, list);
    if |cands| == 0 then None
    else
      var (b, h) := Refine(m, title, cands, needOverlap, None, 0);
      if b.Some? && b.value != "" && h >= FuzzyThreshold then Some((b.value, h)) else None
  }

  /** A best match is a shortlisted candidate that beats every other
      eligible shortlisted candidate or ties with it and comes first. */
  lemma BestMatchFacts(m: Matcher, title: string, list: seq<string>, needOverlap: bool)
    ensures var r := BestMatch(m, title, list, needOverlap);
      var cands := Shortlist(m, title, list);
      r.Some? ==> && r.value.1 >= FuzzyThreshold && r.value.0 != ""
                  && (exists i :: FirstTopAt(m, title, cands, needOverlap, i, r.value.1) && cands[i] == r.value.0)
                  && forall j | 0 <= j < |cands| :: Eligible(m, title, needOverlap, cands[j]) ==> m.score(title, cands[j]) <= r.value.1
  {
    RefineFacts(m, title, Shortlist(m, title, list), needOverlap, None, 0);
  }

  /** The length gate: the shorter title over the longer is at least 0.65,
      or at least 0.45 with a score of 96 or more; a ratio is 0 when a
      title is empty. */
  predicate LengthGate(a: nat, b: nat, score: int)
  {
    var lo, hi := Min(a, b), Max(a, b);
    a > 0 && b > 0 && (100 * lo >= 65 * hi || (100 * lo >= 45 * hi && score >= StrictScore))
  }

  /** The gate read with the real ratio the source computes. */
  lemma LengthGateRatio(a: nat, b: nat, score: int)
    requires a > 0 && b > 0
    ensures LengthGate(a, b, score)
        <==> Share(Min(a, b), Max(a, b)) >= 0.65 || (Share(Min(a, b), Max(a, b)) >= 0.45 && score >= StrictScore)
  {
    ShareAtLeast(Min(a, b), Max(a, b), 65, 100);
    ShareAtLeast(Min(a, b), Max(a, b), 45, 100);
  }

  /** The gate does not depend on the order of the titles, a higher score
      never closes it, and titles of equal length always pass. */
  lemma LengthGateFacts(a: nat, b: nat, score: int, score': int)
    ensures LengthGate(a, b, score) == LengthGate(b, a, score)
    ensures LengthGate(a, b, score) && score <= score' ==> LengthGate(a, b, score')
    ensures a > 0 ==> LengthGate(a, a, score)
  {
  }

  // ----------------------------------------------------------- process_game

  datatype Tag = ShisuySource | VrTag | AdultTag | SoftwareTag

  function TagRank(t: Tag): nat
  {
    match t
    case ShisuySource => 0
    case VrTag => 1
    case AdultTag => 2
    case SoftwareTag => 3
  }

  datatype Log = SkippedEmpty | SkippedBlacklisted(keyword: string) | Unmatched

  /** What `main` receives for one game: `Crashed` when `process_game`
      raised, otherwise its result dictionary. */
  datatype Outcome = Crashed | Processed(game: Game, categories: seq<Tag>, categorized: bool, log: Option<Log>)

  /** The three reference lists of cleaned titles. */
  datatype Lists = Lists(vr: seq<string>, adult: seq<string>, software: seq<string>)

  datatype VrVerdict = VrNo | VrYes | VrCrash

  /** The VR check as written. A best match whose VR-ness differs from the
      original title's reaches a branch that appends to `log_messages`, a
      name `process_game` never defines, so the call raises. */
  function VrDecisionAsWritten(m: Matcher, title: string, original: string, list: seq<string>): VrVerdict
  {
    if |list| == 0 || title == "" then VrNo
    else match BestMatch(m, title, list, true)
      case None => VrNo
      case Some((name, score)) =>
        if m.isVr(name) != m.isVr(original) then VrCrash
        else if score >= FuzzyThreshold && LengthGate(|title|, |name|, score) then VrYes
        else VrNo
  }

  /** The VR check as evidently intended: a VR-ness mismatch rejects the
      match, as the log text of those branches says, and the game goes on
      to the other checks. */
  predicate VrDecision(m: Matcher, title: string, original: string, list: seq<string>)
  {
    VrDecisionAsWritten(m, title, original, list) == VrYes
  }

  /** The adult and software checks. */
  predicate PlainMatch(m: Matcher, title: string, list: seq<string>)
  {
    if |list| == 0 || title == "" then false
    else match BestMatch(m, title, list, false)
      case None => false
      case Some((name, score)) => score >= FuzzyThreshold && LengthGate(|title|, |name|, score)
  }

  function KeywordPred(title: string): string -> bool
  {
    k => ContainsLower(title, k)
  }

  /** `shisuy_source`, then each matched category in checking order. */
  function TagList(vr: bool, adult: bool, software: bool): seq<Tag>
  {
    [ShisuySource] + (if vr then [VrTag] else []) + (if adult then [AdultTag] else [])
    + (if software then [SoftwareTag] else [])
  }

  /** `process_game` with the intended VR check. */
  function ProcessGame(game: Game, lists: Lists, m: Matcher): Outcome
  {
    var original := Strip(game.title);
    var title := Clean(m)(original);
    if title == "" then Processed(game, [], false, Some(SkippedEmpty))
    else match FirstIndex(BlacklistKeywords, KeywordPred(title))
      case Some(k) => Processed(game, [], false, Some(SkippedBlacklisted(BlacklistKeywords[k])))
      case None =>
        var vr := VrDecision(m, title, original, lists.vr);
        var adult := PlainMatch(m, title, lists.adult);
        var software := PlainMatch(m, title, lists.software);
        var categorized := vr || adult || software;
        Processed(game, TagList(vr, adult, software), categorized,
                  if categorized then None else Some(Unmatched))
  }

  /** `process_game` as written: a VR-ness mismatch raises before any
      category is recorded. */
  function ProcessGameAsWritten(game: Game, lists: Lists, m: Matcher): Outcome
  {
    var original := Strip(game.title);
    var title := Clean(m)(original);
    if title != "" && FirstIndex(BlacklistKeywords, KeywordPred(title)).None?
       && VrDecisionAsWritten(m, title, original, lists.vr) == VrCrash
    then Crashed
    else ProcessGame(game, lists, m)
  }

  /** Tags in strictly increasing rank: no repeats, fixed order. */
  predicate Ascending(tags: seq<Tag>)
  {
    forall i, j | 0 <= i < j < |tags| :: TagRank(tags[i]) < TagRank(tags[j])
  }

  /** The tag list starts with `shisuy_source`, keeps the fixed order,
      and holds a category tag exactly when that category matched. */
  lemma TagListFacts(vr: bool, adult: bool, software: bool)
    ensures var tags := TagList(vr, adult, software);
      && tags[0] == ShisuySource && |tags| <= 4 && Ascending(tags)
      && (|tags| > 1 <==> vr || adult || software)
      && (VrTag in tags <==> vr) && (AdultTag in tags <==> adult) && (SoftwareTag in tags <==> software)
  {
  }

  lemma BlacklistedMeaning(title: string)
    ensures FirstIndex(BlacklistKeywords, KeywordPred(title)).Some? <==> ContainsLower(title, "reflection")
  {
    assert KeywordPred(title)(BlacklistKeywords[0]) == ContainsLower(title, "reflection");
  }

  /** A skipped game gets no tag; any other game is tagged
      `shisuy_source` first, then a subset of vr, adult, software in that
      order; it counts as categorized exactly when it has a second tag,
      and is logged exactly when it is not categorized. */
  lemma ProcessGameFacts(game: Game, lists: Lists, m: Matcher)
    ensures var r := ProcessGame(game, lists, m);
      var original := Strip(game.title);
      var title := Clean(m)(original);
      && r.Processed? && r.game == game && |r.categories| <= 4 && Ascending(r.categories)
      && (r.categories == [] <==> title == "" || ContainsLower(title, "reflection"))
      && (r.categories != [] ==>
            && r.categories[0] == ShisuySource
            && (r.categorized <==> |r.categories| > 1)
            && (r.log.Some? <==> !r.categorized)
            && (VrTag in r.categories <==> VrDecision(m, title, original, lists.vr))
            && (AdultTag in r.categories <==> PlainMatch(m, title, lists.adult))
            && (SoftwareTag in r.categories <==> PlainMatch(m, title, lists.software)))
      && (r.categories == [] ==> !r.categorized && r.log.Some? && !r.log.value.Unmatched?)
  {
    var original := Strip(game.title);
    var title := Clean(m)(original);
    BlacklistedMeaning(title);
    TagListFacts(VrDecision(m, title, original, lists.vr), PlainMatch(m, title, lists.adult),
                 PlainMatch(m, title, lists.software));
  }

  /** The as-written call raises exactly on a VR-ness mismatch of a game
      that is not skipped, and otherwise agrees with the intended one. */
  lemma ProcessGameAsWrittenFacts(game: Game, lists: Lists, m: Matcher)
    ensures var original := Strip(game.title);
      var title := Clean(m)(original);
      ProcessGameAsWritten(game, lists, m).Crashed? <==>
        title != "" && !ContainsLower(title, "reflection")
             && VrDecisionAsWritten(m, title, original, lists.vr) == VrCrash
    ensures ProcessGameAsWritten(game, lists, m).Processed? ==>
      ProcessGameAsWritten(game, lists, m) == ProcessGame(game, lists, m)
  {
    BlacklistedMeaning(Clean(m)(Strip(game.title)));
  }

  /** The discrepancy: a game the intended check files under
      `shisuy_source` is lost by the as-written call. */
  lemma AsWrittenMismatchDropsGame(game: Game, lists: Lists, m: Matcher)
    requires var original := Strip(game.title);
      var title := Clean(m)(original);
      title != "" && !ContainsLower(title, "reflection")
      && VrDecisionAsWritten(m, title, original, lists.vr) == VrCrash
    ensures ProcessGameAsWritten(game, lists, m) == Crashed
    ensures ShisuySource in ProcessGame(game, lists, m).categories
    ensures VrTag !in ProcessGame(game, lists, m).categories
  {
    ProcessGameAsWrittenFacts(game, lists, m);
    ProcessGameFacts(game, lists, m);
  }

  /** A VR reference list is the only way to crash: with it empty no game
      raises. */
  lemma NoVrListNoCrash(game: Game, lists: Lists, m: Matcher)
    requires lists.vr == []
    ensures ProcessGameAsWritten(game, lists, m).Processed?
  {
  }

  // ---------------------------------------------------------------- routing

  const MaxGamesToProcess: nat := 9999999
  const BatchSize: nat := 10

  /** The order in which results reach `main`: a permutation of the
      games that keeps every game inside its batch of ten, since a batch
      is collected as its futures complete before the next is submitted. */
  predicate IsArrival(arrival: seq<nat>, n: nat)
  {
    && |arrival| == n
    && (forall k | 0 <= k < n :: arrival[k] < n && arrival[k] / BatchSize == k / BatchSize)
    && (forall i | 0 <= i < n :: i in arrival)
    && Distinct(arrival)
  }

  /** The catalogs written, and the unmatched log. */
  datatype Catalogs = Catalogs(aio: seq<Game>, vr: seq<Game>, adult: seq<Game>, software: seq<Game>, unmatched: seq<Log>)

  /** The games of the results that carry `t`, in arrival order. */
  function Routed(results: seq<Outcome>, t: Tag): (r: seq<Game>)
    ensures |r| <= |results|
    decreases |results|
  {
    if |results| == 0 then []
    else
      var o := results[0];
      (if o.Processed? && t in o.categories then [o.game] else []) + Routed(results[1..], t)
  }

  function Logs(results: seq<Outcome>): seq<Log>
    decreases |results|
  {
    if |results| == 0 then []
    else
      var o := results[0];
      (if o.Processed? && o.log.Some? then [o.log.value] else []) + Logs(results[1..])
  }

  function CatalogOf(c: Catalogs, t: Tag): seq<Game>
  {
    match t
    case ShisuySource => c.aio
    case VrTag => c.vr
    case AdultTag => c.adult
    case SoftwareTag => c.software
  }

  function Collect(results: seq<Outcome>): Catalogs
  {
    Catalogs(Routed(results, ShisuySource), Routed(results, VrTag), Routed(results, AdultTag),
             Routed(results, SoftwareTag), Logs(results))
  }

  /** The games routed under `t` are exactly those whose result carries
      `t`. */
  lemma {:induction false} RoutedMembers(results: seq<Outcome>, t: Tag)
    ensures forall g :: g in Routed(results, t) <==>
      exists k | 0 <= k < |results| :: results[k].Processed? && t in results[k].categories && results[k].game == g
    decreases |results|
  {
    if |results| > 0 {
      RoutedMembers(results[1..], t);
      forall g | exists k | 0 <= k < |results| :: results[k].Processed? && t in results[k].categories && results[k].game == g
        ensures g in Routed(results, t)
      {
        var k :| 0 <= k < |results| && results[k].Processed? && t in results[k].categories && results[k].game == g;
        if k > 0 {
          assert results[1..][k - 1] == results[k];
        }
      }
      forall g | g in Routed(results[1..], t)
        ensures exists k | 0 <= k < |results| :: results[k].Processed? && t in results[k].categories && results[k].game == g
      {
        var k :| 0 <= k < |results[1..]| && results[1..][k].Processed? && t in results[1..][k].categories && results[1..][k].game == g;
        assert results[k + 1] == results[1..][k];
      }
    }
  }

  /** A result tagged at all carries `shisuy_source` first. */
  predicate WellTagged(o: Outcome)
  {
    o.Crashed? || o.categories == [] || o.categories[0] == ShisuySource
  }

  /** Each category catalog is a sub-multiset of the all-in-one catalog. */
  lemma {:induction false} RoutedInAio(results: seq<Outcome>, t: Tag)
    requires forall k | 0 <= k < |results| :: WellTagged(results[k])
    ensures multiset(Routed(results, t)) <= multiset(Routed(results, ShisuySource))
    decreases |results|
  {
    if |results| > 0 {
      assert WellTagged(results[0]);
      RoutedInAio(results[1..], t);
    }
  }

  /** The results in arrival order, `process` standing for
      `process_game` with the reference lists bound. */
  function Outcomes(games: seq<Game>, arrival: seq<nat>, process: Game -> Outcome): (r: seq<Outcome>)
    requires forall k | 0 <= k < |arrival| :: arrival[k] < |games|
    ensures |r| == |arrival| && forall k | 0 <= k < |arrival| :: r[k] == process(games[arrival[k]])
  {
    seq(|arrival|, k requires 0 <= k < |arrival| => process(games[arrival[k]]))
  }

  function ProcessWith(lists: Lists, m: Matcher): Game -> Outcome
  {
    g => ProcessGame(g, lists, m)
  }

  /** The games `main` works on: at most `MaxGamesToProcess`. */
  function Workload(downloads: seq<Game>): seq<Game>
  {
    downloads[..Min(|downloads|, MaxGamesToProcess)]
  }

  /** `main` from loading to saving, with the corrected VR check of
      `ProcessGame` (the as-written call is `ProcessGameAsWritten`, see
      `AsWrittenMismatchDropsGame`). `data` is the `downloads` list of the
      validated catalog, `None` when it is missing; `vr`, `adult` and
      `software` are the reference files. Nothing is written (`None`) when
      there is no game to process. */
  function Categorize(data: Option<seq<Game>>, vr: Option<seq<Game>>, adult: Option<seq<Game>>,
                      software: Option<seq<Game>>, m: Matcher, arrival: seq<nat>): Option<Catalogs>
    requires data.Some? ==> IsArrival(arrival, |Workload(data.value)|)
  {
    match data
    case None => None
    case Some(downloads) =>
      var games := Workload(downloads);
      if |games| == 0 then None
      else
        Some(Collect(Outcomes(games, arrival, ProcessWith(ListsFrom(vr, adult, software, Clean(m)), m))))
  }

  /** Game `i` of `games` is processed and its result carries `t`. */
  ghost predicate TaggedAt(games: seq<Game>, process: Game -> Outcome, t: Tag, i: int)
  {
    0 <= i < |games| && process(games[i]).Processed? && t in process(games[i]).categories
  }

  /** Whatever the arrival order, a game is routed under `t` exactly when
      it is the game of some result carrying `t`. */
  lemma ArrivalMembers(games: seq<Game>, arrival: seq<nat>, process: Game -> Outcome, t: Tag)
    requires IsArrival(arrival, |games|)
    requires forall i | 0 <= i < |games| :: process(games[i]).Processed? ==> process(games[i]).game == games[i]
    ensures forall g :: g in Routed(Outcomes(games, arrival, process), t) <==>
      exists i :: TaggedAt(games, process, t, i) && games[i] == g
  {
    var results := Outcomes(games, arrival, process);
    RoutedMembers(results, t);
    forall g
      ensures g in Routed(results, t) <==> exists i :: TaggedAt(games, process, t, i) && games[i] == g
    {
      if exists i :: TaggedAt(games, process, t, i) && games[i] == g {
        var i :| TaggedAt(games, process, t, i) && games[i] == g;
        assert i in arrival;
        var k :| 0 <= k < |arrival| && arrival[k] == i;
        assert results[k].Processed? && t in results[k].categories && results[k].game == g;
      }
      if g in Routed(results, t) {
        var k :| 0 <= k < |results| && results[k].Processed? && t in results[k].categories && results[k].game == g;
        assert TaggedAt(games, process, t, arrival[k]);
      }
    }
  }

  lemma OutcomesWellTagged(games: seq<Game>, arrival: seq<nat>, lists: Lists, m: Matcher)
    requires forall k | 0 <= k < |arrival| :: arrival[k] < |games|
    ensures forall k | 0 <= k < |arrival| :: WellTagged(Outcomes(games, arrival, ProcessWith(lists, m))[k])
  {
    forall k | 0 <= k < |arrival| ensures WellTagged(Outcomes(games, arrival, ProcessWith(lists, m))[k]) {
      ProcessGameFacts(games[arrival[k]], lists, m);
    }
  }

  /** The reference lists `main` builds. */
  function ListsFrom(vr: Option<seq<Game>>, adult: Option<seq<Game>>, software: Option<seq<Game>>,
                     clean: string -> string): Lists
  {
    Lists(TitlesFrom(vr, clean).0, TitlesFrom(adult, clean).0, TitlesFrom(software, clean).0)
  }

  /** Each catalog holds exactly the games whose result carries its tag,
      whatever order the results arrive in; each category catalog is part
      of the all-in-one one; nothing is written without games. */
  lemma CategorizeFacts(data: Option<seq<Game>>, vr: Option<seq<Game>>, adult: Option<seq<Game>>,
                        software: Option<seq<Game>>, m: Matcher, arrival: seq<nat>, t: Tag)
    requires data.Some? ==> IsArrival(arrival, |Workload(data.value)|)
    ensures Categorize(data, vr, adult, software, m, arrival).None? <==> data.None? || |data.value| == 0
    ensures data.Some? && |data.value| > 0 ==>
      var games := Workload(data.value);
      var lists := ListsFrom(vr, adult, software, Clean(m));
      var c := Categorize(data, vr, adult, software, m, arrival).value;
      && |c.aio| <= |games|
      && multiset(CatalogOf(c, t)) <= multiset(c.aio)
      && forall g :: g in CatalogOf(c, t) <==> exists i :: TaggedAt(games, ProcessWith(lists, m), t, i) && games[i] == g
  {
    if data.Some? && |data.value| > 0 {
      var games := Workload(data.value);
      var lists := ListsFrom(vr, adult, software, Clean(m));
      var results := Outcomes(games, arrival, ProcessWith(lists, m));
      assert Categorize(data, vr, adult, software, m, arrival).value == Collect(results);
      OutcomesWellTagged(games, arrival, lists, m);
      RoutedInAio(results, t);
      forall i | 0 <= i < |games|
        ensures ProcessWith(lists, m)(games[i]).Processed? ==> ProcessWith(lists, m)(games[i]).game == games[i]
      {
        ProcessGameFacts(games[i], lists, m);
      }
      ArrivalMembers(games, arrival, ProcessWith(lists, m), t);
    }
  }

  /** With the intended VR check, every game that is not skipped reaches
      the all-in-one catalog. */
  lemma CategorizeKeepsEveryGame(data: Option<seq<Game>>, vr: Option<seq<Game>>, adult: Option<seq<Game>>,
                                 software: Option<seq<Game>>, m: Matcher, arrival: seq<nat>, i: nat)
    requires data.Some? && IsArrival(arrival, |Workload(data.value)|)
    requires i < |Workload(data.value)|
    requires var title := Clean(m)(Strip(Workload(data.value)[i].title));
      title != "" && !ContainsLower(title, "reflection")
    ensures Workload(data.value)[i] in Categorize(data, vr, adult, software, m, arrival).value.aio
  {
    var games := Workload(data.value);
    var lists := ListsFrom(vr, adult, software, Clean(m));
    CategorizeFacts(data, vr, adult, software, m, arrival, ShisuySource);
    ProcessGameFacts(games[i], lists, m);
    assert TaggedAt(games, ProcessWith(lists, m), ShisuySource, i);
  }
}

=== FILE: contentvalidator.dfy ===
/** The content-marker validator: each link of the remote catalog is fetched
    once, judged by its status and the text of the page it leads to, and a
    catalog entry is kept only when its surviving links are not all 1fichier
    links and not all torrents. The HTTP client is an oracle `respond` from a
    link to what fetching it yields. */
module ContentValidator {

  import opened Options
  import opened Strings
  import opened Seqs
  import opened Catalog

  /** What fetching a link yields: `Failed` when the request raised (timeout,
      connection error), otherwise the status, the path of the final URL
      after redirects, and the body text. */
  datatype Response = Failed | Response(status: int, finalPath: string, content: string)

  /** The markers that reject a page when its lower-cased text holds one. */
  const ErrorIndicators: seq<string> := [
    "file could not be found",
    "unavailable for legal reasons",
    "unavailable",
    "torrent",
    "magnet:",
    ".torrent",
    "file has been deleted",
    "file does not exist",
    "error-page-premium",
    "file has been removed"
  ]

  const GofileMarker: string := "contentId"
  const GofileMissing: string := "Sorry, the file you are requesting does not exist"
  const MediafireErrorPath: string := "error.php"
  const MediafireRemoved: string := "File Removed for Violation"

  predicate HasErrorIndicator(content: string)
  {
    exists i | 0 <= i < |ErrorIndicators| :: ContainsLower(content, ErrorIndicators[i])
  }

  /** A Gofile link (domain matched case-insensitively) whose page lacks the
      case-sensitive `contentId` marker or shows the missing-file notice. */
  predicate GofileRejects(link: string, content: string)
  {
    ContainsLower(link, GofileDomain)
    && (!Contains(content, GofileMarker) || Contains(content, GofileMissing))
  }

  /** A MediaFire link redirected to its error page or showing the removal
      notice. */
  predicate MediafireRejects(link: string, finalPath: string, content: string)
  {
    ContainsLower(link, MediafireDomain)
    && (Contains(finalPath, MediafireErrorPath) || Contains(content, MediafireRemoved))
  }

  /** `validate_single_link` once the response is in hand: the link itself
      when it survives every check, `None` otherwise. */
  function Classify(link: string, resp: Response): (r: Option<string>)
    ensures r.Some? ==> r.value == link
    ensures r.Some? ==> resp.Response? && resp.status == 200 && !HasErrorIndicator(resp.content)
    ensures r.None? <==> (resp.Failed? || resp.status != 200 || GofileRejects(link, resp.content)
                         || MediafireRejects(link, resp.finalPath, resp.content)
                         || HasErrorIndicator(resp.content))
  {
    match resp
    case Failed => None
    case Response(status, finalPath, content) =>
      if status != 200 then None
      else if GofileRejects(link, content) then None
      else if MediafireRejects(link, finalPath, content) then None
      else if HasErrorIndicator(content) then None
      else Some(link)
  }

  /** An error marker rejects a page whatever host the link names and
      whatever case the page writes it in. */
  lemma IndicatorRejectsAnyHost(link: string, path: string, content: string, i: nat)
    requires i < |ErrorIndicators| && ContainsLower(content, ErrorIndicators[i])
    ensures Classify(link, Response(200, path, content)) == None
  {
  }

  /** The Gofile marker is matched case-sensitively: a page that spells it
      only in lower case is rejected. */
  lemma GofileMarkerCaseSensitive(link: string, path: string, content: string)
    requires ContainsLower(link, GofileDomain)
    requires Contains(content, "contentid") && !Contains(content, GofileMarker)
    ensures Classify(link, Response(200, path, content)) == None
  {
  }

  /** Two markers are implied by shorter ones on the list, so the list
      rejects exactly what its eight remaining entries reject. */
  const CoreIndicators: seq<string> := [
    "file could not be found",
    "unavailable",
    "torrent",
    "magnet:",
    "file has been deleted",
    "file does not exist",
    "error-page-premium",
    "file has been removed"
  ]

  lemma IndicatorsReduce(content: string)
    ensures HasErrorIndicator(content)
        <==> exists i | 0 <= i < |CoreIndicators| :: ContainsLower(content, CoreIndicators[i])
  {
    var low := Lower(content);
    ContainsWitness("unavailable for legal reasons", "unavailable", 0);
    ContainsWitness(".torrent", "torrent", 1);
    if HasErrorIndicator(content) {
      var j :| 0 <= j < |ErrorIndicators| && ContainsLower(content, ErrorIndicators[j]);
      if j == 1 {
        ContainsTrans(low, "unavailable for legal reasons", "unavailable");
        assert ContainsLower(content, CoreIndicators[1]);
      } else if j == 5 {
        ContainsTrans(low, ".torrent", "torrent");
        assert ContainsLower(content, CoreIndicators[2]);
      } else {
        var i := if j == 0 then 0 else if j <= 4 then j - 1 else j - 2;
        assert ErrorIndicators[j] == CoreIndicators[i];
        assert ContainsLower(content, CoreIndicators[i]);
      }
    }
    if exists i | 0 <= i < |CoreIndicators| :: ContainsLower(content, CoreIndicators[i]) {
      var i :| 0 <= i < |CoreIndicators| && ContainsLower(content, CoreIndicators[i]);
      var j := if i == 0 then 0 else if i <= 3 then i + 1 else i + 2;
      assert CoreIndicators[i] == ErrorIndicators[j];
      assert ContainsLower(content, ErrorIndicators[j]);
    }
  }

  // ------------------------------------------------------- per-game links

  /** The link passes when its fetched page is classified as live. */
  function PassPred(respond: string -> Response): string -> bool
  {
    link => Classify(link, respond(link)).Some?
  }

  /** `[uri for uri in results if uri is not None]` over the gathered
      results, one per link in order. */
  function Survivors(uris: seq<string>, respond: string -> Response): seq<string>
    decreases |uris|
  {
    if |uris| == 0 then []
    else match Classify(uris[0], respond(uris[0]))
      case Some(l) => [l] + Survivors(uris[1..], respond)
      case None => Survivors(uris[1..], respond)
  }

  /** The surviving links are the order-preserving sublist of the links
      that pass. */
  lemma {:induction false} SurvivorsFilter(uris: seq<string>, respond: string -> Response)
    ensures Survivors(uris, respond) == Filter(uris, PassPred(respond))
    decreases |uris|
  {
    if |uris| > 0 {
      SurvivorsFilter(uris[1..], respond);
    }
  }

  /** The entry with its links replaced by the survivors. */
  function Rewrite(g: Game, respond: string -> Response): (r: Game)
    ensures r.(uris := g.uris) == g
    ensures forall k | 0 <= k < |r.uris| :: r.uris[k] in g.uris && PassPred(respond)(r.uris[k])
    ensures forall k | 0 <= k < |g.uris| :: PassPred(respond)(g.uris[k]) ==> g.uris[k] in r.uris
  {
    SurvivorsFilter(g.uris, respond);
    FilterMembers(g.uris, PassPred(respond));
    g.(uris := Survivors(g.uris, respond))
  }

  /** `is_valid_game`. */
  predicate IsValidGame(g: Game)
  {
    if |g.uris| == 0 then false
    else if forall k | 0 <= k < |g.uris| :: Contains(g.uris[k], FichierDomain) then false
    else if forall k | 0 <= k < |g.uris| :: ContainsLower(g.uris[k], "torrent") then false
    else true
  }

  /** An entry is kept exactly when some link is not a 1fichier link and
      some link, not necessarily the same one, is not a torrent. */
  lemma IsValidGameMeaning(g: Game)
    ensures IsValidGame(g)
        <==> (exists k | 0 <= k < |g.uris| :: !Contains(g.uris[k], FichierDomain))
             && (exists k | 0 <= k < |g.uris| :: !ContainsLower(g.uris[k], "torrent"))
  {
  }

  /** The two tests are separate: one 1fichier link beside one torrent
      link keeps the entry although neither link is usable. */
  lemma FichierPlusTorrentKept(title: string, size: string, date: Option<int>, source: string)
    ensures IsValidGame(Game(title, ["https://1fichier.com/?a", "https://t.me/a.torrent"], size, date, source))
  {
    var f, t := "https://1fichier.com/?a", "https://t.me/a.torrent";
    var g := Game(title, [f, t], size, date, source);
    AbsentChar(t, FichierDomain, 0);
    assert Lower(f) == f;
    AbsentChar(Lower(f), "torrent", 5);
    assert !Contains(g.uris[1], FichierDomain) && !ContainsLower(g.uris[0], "torrent");
  }

  // ----------------------------------------------------- the whole catalog

  function Rewritten(ds: seq<Game>, respond: string -> Response): (r: seq<Game>)
    ensures |r| == |ds|
    ensures forall i | 0 <= i < |ds| :: r[i] == Rewrite(ds[i], respond)
  {
    seq(|ds|, i requires 0 <= i < |ds| => Rewrite(ds[i], respond))
  }

  /** `validate_all_links`: `downloads` is `None` when the catalog could
      not be fetched or parsed or has no `downloads` list, and then nothing
      is written; otherwise the result is the list written back. */
  function ValidateAll(downloads: Option<seq<Game>>, respond: string -> Response): Option<seq<Game>>
  {
    match downloads
    case None => None
    case Some(ds) => Some(Filter(Rewritten(ds, respond), IsValidGame))
  }

  /** What is written back: only valid entries, each an input entry with
      exactly its live links, and every input entry that is valid after the
      rewrite. */
  lemma ValidateAllFacts(downloads: Option<seq<Game>>, respond: string -> Response)
    ensures ValidateAll(downloads, respond).None? <==> downloads.None?
    ensures downloads.Some? ==>
      var out := ValidateAll(downloads, respond).value;
      && |out| <= |downloads.value|
      && (forall i | 0 <= i < |out| :: IsValidGame(out[i]))
      && (forall i | 0 <= i < |out| :: exists j | 0 <= j < |downloads.value| :: out[i] == Rewrite(downloads.value[j], respond))
      && (forall j | 0 <= j < |downloads.value| ::
            IsValidGame(Rewrite(downloads.value[j], respond)) ==> Rewrite(downloads.value[j], respond) in out)
  {
    if downloads.Some? {
      var ds := downloads.value;
      var rw := Rewritten(ds, respond);
      FilterMembers(rw, IsValidGame);
      var out := Filter(rw, IsValidGame);
      forall i | 0 <= i < |out|
        ensures exists j | 0 <= j < |ds| :: out[i] == Rewrite(ds[j], respond)
      {
        var j :| 0 <= j < |rw| && rw[j] == out[i];
        assert out[i] == Rewrite(ds[j], respond);
      }
      forall j | 0 <= j < |ds| && IsValidGame(Rewrite(ds[j], respond))
        ensures Rewrite(ds[j], respond) in out
      {
        assert rw[j] == Rewrite(ds[j], respond);
      }
    }
  }

  /** Re-validating an entry whose links all pass leaves it as it is. */
  lemma RewriteStable(g: Game, respond: string -> Response)
    requires forall k | 0 <= k < |g.uris| :: PassPred(respond)(g.uris[k])
    ensures Rewrite(g, respond) == g
  {
    SurvivorsFilter(g.uris, respond);
    FilterAll(g.uris, PassPred(respond));
  }

  /** With the same responses, a second run writes back what the first
      wrote. */
  lemma ValidateIdempotent(downloads: Option<seq<Game>>, respond: string -> Response)
    ensures ValidateAll(ValidateAll(downloads, respond), respond) == ValidateAll(downloads, respond)
  {
    if downloads.Some? {
      var out := ValidateAll(downloads, respond).value;
      ValidateAllFacts(downloads, respond);
      var rw := Rewritten(out, respond);
      forall i | 0 <= i < |out|
        ensures rw[i] == out[i]
      {
        var j :| 0 <= j < |downloads.value| && out[i] == Rewrite(downloads.value[j], respond);
        RewriteStable(out[i], respond);
      }
      assert rw == out;
      FilterAll(out, IsValidGame);
    }
  }
}

=== FILE: legacyscraper.dfy ===
/** The older top-level scraper.py: the qiwi link test, the first-link-per-
    host choice on a game page, and the replace-or-append merge of scraped
    games into `downloads` keyed by normalized title.

    Its parse_relative_date, mark_special_categories and
    normalize_special_titles are the same code as in scripts/scraper.py and
    are taken from `SiteScraper`. The title normalizer (a regex) is the
    parameter `norm`; the page fetches are the parameter `fetch`. */
module LegacyScraper {

  import opened Options
  import opened Strings
  import opened Seqs
  import opened Catalog
  import SiteScraper

  // ---------------------------------------------------------------------
  // is_valid_qiwi_link, is_deadcode_version

  /** A qiwi file link, not a folder link. */
  predicate IsValidQiwiLink(link: string)
  {
    Contains(link, QiwiDomain) && Contains(link, "/file/") && !Contains(link, "/folder/")
  }

  /** This script's is_deadcode_version knows only the "0xdeadcode"
      spelling. */
  predicate IsDeadcodeVersion(title: string)
  {
    ContainsLower(title, "0xdeadcode")
  }

  // ---------------------------------------------------------------------
  // the first-link-per-host block of fetch_game_details

  datatype Host = Fichier | QiwiHost | PixeldrainHost | MediafireHost

  /** `all_links` keeps 1fichier, pixeldrain and mediafire links, and qiwi
      links that pass the file-link test. */
  predicate Collected(href: string)
  {
    Contains(href, FichierDomain) || Contains(href, PixeldrainDomain) || Contains(href, MediafireDomain)
    || (Contains(href, QiwiDomain) && IsValidQiwiLink(href))
  }

  const HostTests: seq<(string, Host)> := [
    (FichierDomain, Fichier), (QiwiDomain, QiwiHost), (PixeldrainDomain, PixeldrainHost), (MediafireDomain, MediafireHost)]

  /** The `domain` of a collected link: the first of 1fichier, qiwi,
      pixeldrain, mediafire that it names. */
  function HostOf(link: string): Option<Host>
  {
    FirstTagged(link, HostTests)
  }

  /** Every collected link has a host. */
  lemma CollectedHasHost(link: string)
    requires Collected(link)
    ensures HostOf(link).Some?
  {
    var k := if Contains(link, FichierDomain) then 0
      else if Contains(link, QiwiDomain) then 1
      else if Contains(link, PixeldrainDomain) then 2
      else 3;
    FirstTaggedSome(link, HostTests, k);
  }

  /** Link `i` is the first of its host among `links`. */
  predicate FirstOfHost(links: seq<string>, i: nat)
    requires i < |links|
  {
    HostOf(links[i]).Some? && forall j | 0 <= j < i :: HostOf(links[j]) != HostOf(links[i])
  }

  /** `list(filtered_links.values())` after the first `n` links: the first
      link of each host, in order of first appearance (dict insertion
      order). */
  function Firsts(links: seq<string>, n: nat): seq<string>
    requires n <= |links|
  {
    if n == 0 then [] else Firsts(links, n - 1) + (if FirstOfHost(links, n - 1) then [links[n - 1]] else [])
  }

  /** The hosts of a list of links. */
  function Hosts(r: seq<string>): seq<Option<Host>>
  {
    seq(|r|, i requires 0 <= i < |r| => HostOf(r[i]))
  }

  /** `l` is the first link of its host among the first `n`. */
  ghost predicate FirstAmong(links: seq<string>, n: nat, l: string)
    requires n <= |links|
  {
    exists k | 0 <= k < n :: links[k] == l && FirstOfHost(links, k)
  }

  /** The kept links are first-of-host links of the page, in page order,
      one per host. */
  lemma {:induction false} FirstsFrom(links: seq<string>, n: nat)
    requires n <= |links|
    ensures forall i | 0 <= i < |Firsts(links, n)| :: HostOf(Firsts(links, n)[i]).Some?
    ensures forall i | 0 <= i < |Firsts(links, n)| :: FirstAmong(links, n, Firsts(links, n)[i])
    ensures forall i, j | 0 <= i < j < |Firsts(links, n)| :: HostOf(Firsts(links, n)[i]) != HostOf(Firsts(links, n)[j])
    decreases n
  {
    if n > 0 {
      var m: nat := n - 1;
      FirstsFrom(links, m);
      var p := Firsts(links, m);
      var r := Firsts(links, n);
      forall i | 0 <= i < |p|
        ensures FirstAmong(links, n, p[i])
      {
        assert FirstAmong(links, m, p[i]);
        var k :| 0 <= k < m && links[k] == p[i] && FirstOfHost(links, k);
      }
      if FirstOfHost(links, m) {
        var l := links[m];
        assert r == p + [l];
        forall i | 0 <= i < |p|
          ensures HostOf(p[i]) != HostOf(l)
        {
          assert FirstAmong(links, m, p[i]);
          var k :| 0 <= k < m && links[k] == p[i] && FirstOfHost(links, k);
        }
        assert FirstAmong(links, n, l);
        forall i | 0 <= i < |r|
          ensures FirstAmong(links, n, r[i])
        {
          if i < |p| {
            assert r[i] == p[i];
          }
        }
        forall i, j | 0 <= i < j < |r|
          ensures HostOf(r[i]) != HostOf(r[j])
        {
          assert r[i] == p[i];
          if j < |p| {
            assert r[j] == p[j];
          }
        }
      } else {
        assert r == p;
      }
    }
  }

  /** Some link of `r` is on host `h`. */
  ghost predicate HasHost(r: seq<string>, h: Option<Host>)
  {
    exists i | 0 <= i < |r| :: HostOf(r[i]) == h
  }

  /** Every host among the first `n` links has its first link kept. */
  lemma {:induction false} FirstsCover(links: seq<string>, n: nat)
    requires n <= |links|
    ensures forall k | 0 <= k < n && HostOf(links[k]).Some? :: HasHost(Firsts(links, n), HostOf(links[k]))
    decreases n
  {
    if n > 0 {
      var m: nat := n - 1;
      FirstsCover(links, m);
      var p := Firsts(links, m);
      var r := Firsts(links, n);
      assert r[..|p|] == p;
      forall k | 0 <= k < n && HostOf(links[k]).Some?
        ensures HasHost(r, HostOf(links[k]))
      {
        if k < m {
          var i :| 0 <= i < |p| && HostOf(p[i]) == HostOf(links[k]);
          assert r[i] == p[i];
        } else if FirstOfHost(links, m) {
          assert r[|p|] == links[m];
        } else {
          var j :| 0 <= j < m && HostOf(links[j]) == HostOf(links[m]);
          var i :| 0 <= i < |p| && HostOf(p[i]) == HostOf(links[j]);
          assert r[i] == p[i];
        }
      }
    }
  }

  /** Distinct hosts: at most four of them. */
  lemma {:induction false} AtMostFourHosts(hs: seq<Option<Host>>)
    requires forall i | 0 <= i < |hs| :: hs[i].Some?
    requires forall i, j | 0 <= i < j < |hs| :: hs[i] != hs[j]
    ensures |hs| <= 4
  {
    var all := {Some(Fichier), Some(QiwiHost), Some(PixeldrainHost), Some(MediafireHost)};
    var hset := set i | 0 <= i < |hs| :: hs[i];
    assert hset <= all by {
      forall i | 0 <= i < |hs|
        ensures hs[i] in all
      {
        match hs[i].value
        case Fichier =>
        case QiwiHost =>
        case PixeldrainHost =>
        case MediafireHost =>
      }
    }
    DistinctCard(hs);
    assert |all| == 4;
    SubsetCard(hset, all);
  }

  lemma {:induction false} DistinctCard<T>(s: seq<T>)
    requires forall i, j | 0 <= i < j < |s| :: s[i] != s[j]
    ensures |set i | 0 <= i < |s| :: s[i]| == |s|
    decreases |s|
  {
    if |s| > 0 {
      var init := s[..|s| - 1];
      DistinctCard(init);
      var a := set i | 0 <= i < |init| :: init[i];
      var b := set i | 0 <= i < |s| :: s[i];
      assert b == a + {s[|s| - 1]} by {
        forall x | x in b
          ensures x in a + {s[|s| - 1]}
        {
          var i :| 0 <= i < |s| && s[i] == x;
          if i < |s| - 1 {
            assert init[i] == x;
          }
        }
      }
      assert s[|s| - 1] !in a;
    }
  }

  lemma SubsetCard<T>(a: set<T>, b: set<T>)
    requires a <= b
    ensures |a| <= |b|
  {
    assert b == a + (b - a);
  }

  /** The links fetch_game_details returns for a page's hrefs. */
  function PageLinks(hrefs: seq<string>): seq<string>
  {
    var links := Filter(hrefs, Collected);
    Firsts(links, |links|)
  }

  /** At most four links, from the page, pairwise on different hosts, each
      the first collected link of its host, every collected host present. */
  lemma PageLinksFacts(hrefs: seq<string>)
    ensures var r := PageLinks(hrefs);
      && |r| <= 4
      && (forall i | 0 <= i < |r| :: r[i] in hrefs && Collected(r[i]))
      && (forall i, j | 0 <= i < j < |r| :: HostOf(r[i]) != HostOf(r[j]))
      && (forall k | 0 <= k < |hrefs| && Collected(hrefs[k]) :: HasHost(r, HostOf(hrefs[k])))
  {
    var links := Filter(hrefs, Collected);
    var r := PageLinks(hrefs);
    FirstsFrom(links, |links|);
    FirstsCover(links, |links|);
    FilterMembers(hrefs, Collected);
    var hs := Hosts(r);
    AtMostFourHosts(hs);
    forall i | 0 <= i < |r|
      ensures r[i] in hrefs && Collected(r[i])
    {
      assert FirstAmong(links, |links|, r[i]);
      var k :| 0 <= k < |links| && links[k] == r[i] && FirstOfHost(links, k);
    }
    forall k | 0 <= k < |hrefs| && Collected(hrefs[k])
      ensures HasHost(r, HostOf(hrefs[k]))
    {
      assert hrefs[k] in links;
      var m :| 0 <= m < |links| && links[m] == hrefs[k];
      CollectedHasHost(links[m]);
    }
  }

  /** The dictionary loop: a link is stored only when its host has no link
      yet, and the values come out in insertion order. */
  method SelectFirstPerHost(hrefs: seq<string>) returns (r: seq<string>)
    ensures r == PageLinks(hrefs)
  {
    var links := Filter(hrefs, Collected);
    var seen: set<Host> := {};
    r := [];
    var i := 0;
    while i < |links|
      invariant i <= |links|
      invariant r == Firsts(links, i)
      invariant forall h: Host :: h in seen <==> exists j | 0 <= j < i :: HostOf(links[j]) == Some(h)
    {
      match HostOf(links[i]) {
        case Some(h) =>
          if h !in seen {
            r := r + [links[i]];
            seen := seen + {h};
          }
        case None =>
      }
      i := i + 1;
    }
  }

  // ---------------------------------------------------------------------
  // fetch_game_details

  /** The tuple fetch_game_details returns for a fetched page; the size
      slot is always "". */
  datatype Details = Details(title: string, links: seq<string>, date: Option<int>)

  /** fetch_game_details for `url`; `None` is the `(None, None, [], None)`
      of a failed fetch. */
  function FetchGameDetails(url: string, page: Option<SiteScraper.GamePage>, now: int, earliest: int): Option<Details>
  {
    match page
    case None => None
    case Some(p) =>
      var date := match p.dateText
        case None => None
        case Some(t) => if Strip(t) == "" then None else Some(SiteScraper.ParseRelativeDate(Strip(t), now, earliest));
      Some(Details(SiteScraper.MarkSpecialCategories(SiteScraper.BaseTitle(p), url), PageLinks(p.hrefs), date))
  }

  // ---------------------------------------------------------------------
  // find_duplicate_game, should_replace_game

  /** The duplicate key: the normalized title, lower-cased. */
  function Key(norm: string -> string, title: string): string
  {
    Lower(norm(title))
  }

  /** find_duplicate_game: the first entry with the same key. */
  function FindDuplicateGame(downloads: seq<Game>, title: string, norm: string -> string): (r: Option<nat>)
    ensures r.None? <==> forall i | 0 <= i < |downloads| :: Key(norm, downloads[i].title) != Key(norm, title)
    ensures r.Some? ==> r.value < |downloads| && Key(norm, downloads[r.value].title) == Key(norm, title)
    ensures r.Some? ==> forall i | 0 <= i < r.value :: Key(norm, downloads[i].title) != Key(norm, title)
  {
    FirstIndex(downloads, (g: Game) => Key(norm, g.title) == Key(norm, title))
  }

  /** should_replace_game, test by test. */
  predicate ShouldReplaceGame(existing: Game, newTitle: string, newDate: Option<int>)
  {
    if existing.uploadDate.None? && newDate.Some? then true
    else if existing.uploadDate.Some? && newDate.Some? && newDate.value > existing.uploadDate.value then true
    else IsDeadcodeVersion(newTitle) && !IsDeadcodeVersion(existing.title)
  }

  /** The new game wins exactly when its date is strictly later (a missing
      date being earliest) or it alone is a deadcode version; an entry never
      displaces an equal copy of itself. */
  lemma ShouldReplaceMeaning(existing: Game, newTitle: string, newDate: Option<int>)
    ensures ShouldReplaceGame(existing, newTitle, newDate)
        <==> Later(newDate, existing.uploadDate) || (IsDeadcodeVersion(newTitle) && !IsDeadcodeVersion(existing.title))
    ensures !ShouldReplaceGame(existing, existing.title, existing.uploadDate)
  {
  }

  /** The deadcode preference only ever sees a title already rewritten by
      normalize_special_titles, so it fires only for a spelling that is not
      all lower-case: where the lower-cased title reads "0xdeadcode", the
      title itself has an upper-case letter. */
  lemma DeadcodeOnlyOtherCase(title: string)
    ensures var n := SiteScraper.NormalizeSpecialTitles(title);
      IsDeadcodeVersion(n) ==>
        exists i | 0 <= i <= |n| - 10 ::
          && OccursAt(Lower(n), "0xdeadcode", i)
          && exists j | i <= j < i + 10 :: 'A' <= n[j] <= 'Z'
  {
    var n := SiteScraper.NormalizeSpecialTitles(title);
    if IsDeadcodeVersion(n) {
      SiteScraper.NoDeadcodeLeft(title);
      var i :| 0 <= i <= |Lower(n)| - 10 && OccursAt(Lower(n), "0xdeadcode", i);
      assert !OccursAt(n, "0xdeadcode", i);
      var j :| i <= j < i + 10 && n[j] != "0xdeadcode"[j - i];
      assert LowerChar(n[j]) == "0xdeadcode"[j - i];
    }
  }

  // ---------------------------------------------------------------------
  // process_page

  const MaxGames: nat := 9999999

  /** `data["downloads"]` and `processed_games_count`. */
  datatype LegacyState = LegacyState(downloads: seq<Game>, count: nat)

  datatype LegacyOutcome = LimitReached | Done(state: LegacyState)

  /** The entry process_page writes: no size and no source page. */
  function Entry(title: string, d: Details): Game
  {
    Game(title, d.links, "", d.date, "")
  }

  /** One fetched game in the result loop: skipped without title or links
      or with a cracked title; otherwise a duplicate by key is replaced in
      place or left alone, and a new key is appended and counted. */
  function Merge(st: LegacyState, d: Details, norm: string -> string): LegacyState
  {
    if d.title == "" then st
    else
      var t := SiteScraper.NormalizeSpecialTitles(d.title);
      if |d.links| == 0 then st
      else if SiteScraper.Cracked(d.title) then st
      else match FindDuplicateGame(st.downloads, t, norm)
        case Some(i) =>
          if ShouldReplaceGame(st.downloads[i], t, d.date)
          then st.(downloads := st.downloads[i := Entry(t, d)])
          else st
        case None => LegacyState(st.downloads + [Entry(t, d)], st.count + 1)
  }

  function Step(st: LegacyState, r: Option<Details>, norm: string -> string): LegacyState
  {
    match r
    case None => st
    case Some(d) => if st.count >= MaxGames then st else Merge(st, d, norm)
  }

  function Absorb(st: LegacyState, results: seq<Option<Details>>, norm: string -> string): LegacyState
    decreases |results|
  {
    if |results| == 0 then st else Absorb(Step(st, results[0], norm), results[1..], norm)
  }

  /** process_page: the first `remaining` listed games are fetched (known
      ones included) and merged in order. */
  function RunPage(st: LegacyState, listing: Option<seq<string>>, fetch: string -> Option<Details>,
                   norm: string -> string): LegacyOutcome
  {
    if st.count >= MaxGames then LimitReached
    else match listing
      case None => Done(st)
      case Some(links) =>
        var n := if |links| <= MaxGames - st.count then |links| else MaxGames - st.count;
        var tasks := links[..n];
        Done(Absorb(st, seq(|tasks|, i requires 0 <= i < |tasks| => fetch(tasks[i])), norm))
  }

  /** The keys of `downloads` are pairwise different. */
  ghost predicate UniqueKeys(downloads: seq<Game>, norm: string -> string)
  {
    forall i, j | 0 <= i < j < |downloads| :: Key(norm, downloads[i].title) != Key(norm, downloads[j].title)
  }

  /** A merge keeps the keys unique: a replacement keeps the key of the
      slot it overwrites, and an append brings a key not yet present. */
  lemma MergeUnique(st: LegacyState, d: Details, norm: string -> string)
    requires UniqueKeys(st.downloads, norm)
    ensures UniqueKeys(Merge(st, d, norm).downloads, norm)
  {
    if d.title != "" && |d.links| > 0 && !SiteScraper.Cracked(d.title) {
      var t := SiteScraper.NormalizeSpecialTitles(d.title);
      var e := Entry(t, d);
      var r := Merge(st, d, norm).downloads;
      match FindDuplicateGame(st.downloads, t, norm)
      case Some(i) =>
        if ShouldReplaceGame(st.downloads[i], t, d.date) {
          assert r == st.downloads[i := e];
          assert Key(norm, e.title) == Key(norm, st.downloads[i].title);
          forall a, b | 0 <= a < b < |r|
            ensures Key(norm, r[a].title) != Key(norm, r[b].title)
          {
            assert Key(norm, r[a].title) == Key(norm, st.downloads[a].title);
            assert Key(norm, r[b].title) == Key(norm, st.downloads[b].title);
          }
        }
      case None =>
        assert r == st.downloads + [e];
    }
  }

  /** A merge changes at most one slot or appends one entry, and counts
      exactly the appends. */
  lemma MergeShape(st: LegacyState, d: Details, norm: string -> string)
    ensures var r := Merge(st, d, norm);
      || r == st
      || (r.count == st.count && |r.downloads| == |st.downloads|
          && exists i | 0 <= i < |st.downloads| ::
               r.downloads == st.downloads[i := r.downloads[i]]
               && Key(norm, r.downloads[i].title) == Key(norm, st.downloads[i].title))
      || (r.count == st.count + 1 && r.downloads == st.downloads + [r.downloads[|st.downloads|]]
          && forall i | 0 <= i < |st.downloads| ::
               Key(norm, st.downloads[i].title) != Key(norm, r.downloads[|st.downloads|].title))
  {
    if d.title != "" && |d.links| > 0 && !SiteScraper.Cracked(d.title) {
      var t := SiteScraper.NormalizeSpecialTitles(d.title);
      var r := Merge(st, d, norm);
      match FindDuplicateGame(st.downloads, t, norm)
      case Some(i) =>
        if ShouldReplaceGame(st.downloads[i], t, d.date) {
          assert r.downloads[i] == Entry(t, d);
        }
      case None =>
        assert r.downloads[|st.downloads|] == Entry(t, d);
    }
  }

  lemma {:induction false} AbsorbUnique(st: LegacyState, results: seq<Option<Details>>, norm: string -> string)
    requires UniqueKeys(st.downloads, norm)
    ensures UniqueKeys(Absorb(st, results, norm).downloads, norm)
    decreases |results|
  {
    if |results| > 0 {
      if results[0].Some? && st.count < MaxGames {
        MergeUnique(st, results[0].value, norm);
      }
      AbsorbUnique(Step(st, results[0], norm), results[1..], norm);
    }
  }

  /** Unique keys in `downloads` stay unique across a page. */
  lemma RunPageUnique(st: LegacyState, listing: Option<seq<string>>, fetch: string -> Option<Details>,
                      norm: string -> string)
    requires UniqueKeys(st.downloads, norm)
    ensures RunPage(st, listing, fetch, norm).Done? ==> UniqueKeys(RunPage(st, listing, fetch, norm).state.downloads, norm)
  {
    if st.count < MaxGames && listing.Some? {
      var links := listing.value;
      var n := if |links| <= MaxGames - st.count then |links| else MaxGames - st.count;
      var tasks := links[..n];
      AbsorbUnique(st, seq(|tasks|, i requires 0 <= i < |tasks| => fetch(tasks[i])), norm);
    }
  }

  /** The count never passes the limit and only grows. */
  lemma {:induction false} AbsorbCount(st: LegacyState, results: seq<Option<Details>>, norm: string -> string)
    requires st.count <= MaxGames
    ensures st.count <= Absorb(st, results, norm).count <= MaxGames
    ensures Absorb(st, results, norm).count - st.count == |Absorb(st, results, norm).downloads| - |st.downloads|
    decreases |results|
  {
    if |results| > 0 {
      if results[0].Some? && st.count < MaxGames {
        MergeShape(st, results[0].value, norm);
      }
      AbsorbCount(Step(st, results[0], norm), results[1..], norm);
    }
  }

  /** The result loop of process_page, with its early `break`. */
  method AbsorbResults(st: LegacyState, results: seq<Option<Details>>, norm: string -> string) returns (out: LegacyState)
    ensures out == Absorb(st, results, norm)
  {
    out := st;
    var i := 0;
    while i < |results|
      invariant i <= |results|
      invariant Absorb(out, results[i..], norm) == Absorb(st, results, norm)
    {
      assert results[i..][1..] == results[i + 1..];
      match results[i] {
        case None =>
        case Some(d) =>
          if out.count >= MaxGames {
            AbsorbSaturated(out, results[i..], norm);
            return;
          }
          out := Merge(out, d, norm);
      }
      i := i + 1;
    }
    assert results[i..] == [];
  }

  lemma {:induction false} AbsorbSaturated(st: LegacyState, results: seq<Option<Details>>, norm: string -> string)
    requires st.count >= MaxGames
    ensures Absorb(st, results, norm) == st
    decreases |results|
  {
    if |results| > 0 {
      AbsorbSaturated(st, results[1..], norm);
    }
  }
}

=== FILE: linkvalidator.dfy ===
/** The link validator of scripts/validate_links.py: per-game link
    filtering against provider checkers, the blacklist test, grouping by
    normalized title, and the choice of one surviving entry per group.

    The provider checkers (HTTP and browser probes) are a parameter
    `check(provider, link)`, the title normalizer (a regular expression) a
    parameter `norm`. */
module LinkValidator {

  import opened Options
  import opened Strings
  import opened Seqs
  import opened Catalog

  // ---------------------------------------------------------------------
  // Link dispatch

  /** Position of a provider in the dispatch chain of validate_links. */
  function Rank(p: Provider): nat
  {
    match p
    case Qiwi => 0
    case Datanodes => 1
    case Pixeldrain => 2
    case Mediafire => 3
    case Gofile => 4
  }

  /** What validate_links does with a link that is not cached as invalid. */
  datatype Route = Check(provider: Provider) | DirectAccept | Drop

  /** `is_valid_link`: the link mentions one of the six known hosts. */
  predicate IsKnownLink(link: string)
  {
    Contains(link, FichierDomain) || Contains(link, GofileDomain)
    || Contains(link, PixeldrainDomain) || Contains(link, MediafireDomain)
    || Contains(link, DatanodesDomain) || Contains(link, QiwiDomain)
  }

  /** The `if/elif` chain of validate_links: the first provider whose
      domain occurs in the link gets it; a known link that reaches the end
      of the chain is accepted without a check; any other link is dropped. */
  function RouteOf(link: string): Route
  {
    if Contains(link, QiwiDomain) then Check(Qiwi)
    else if Contains(link, DatanodesDomain) then Check(Datanodes)
    else if Contains(link, PixeldrainDomain) then Check(Pixeldrain)
    else if Contains(link, MediafireDomain) then Check(Mediafire)
    else if Contains(link, GofileDomain) then Check(Gofile)
    else if IsKnownLink(link) then DirectAccept
    else Drop
  }

  /** A checked link goes to the earliest provider in the chain whose
      domain it mentions; only a 1fichier link that mentions no checked
      domain is accepted directly; exactly the unknown links are dropped. */
  lemma RouteOfFacts(link: string)
    ensures RouteOf(link).Check? ==> Contains(link, DomainOf(RouteOf(link).provider))
    ensures RouteOf(link).Check? ==>
      forall q: Provider | Rank(q) < Rank(RouteOf(link).provider) :: !Contains(link, DomainOf(q))
    ensures RouteOf(link).DirectAccept? <==>
      Contains(link, FichierDomain) && forall q: Provider :: !Contains(link, DomainOf(q))
    ensures RouteOf(link).Drop? <==> !IsKnownLink(link)
  {
  }

  // ---------------------------------------------------------------------
  // validate_links

  /** A link the checker confirms. */
  predicate Passes(check: (Provider, string) -> bool, link: string)
  {
    RouteOf(link).Check? && check(RouteOf(link).provider, link)
  }

  function PendingPred(invalid: set<string>): string -> bool
  {
    link => link !in invalid && RouteOf(link).Check?
  }

  function DirectPred(invalid: set<string>): string -> bool
  {
    link => link !in invalid && RouteOf(link).DirectAccept?
  }

  function PassPred(check: (Provider, string) -> bool): string -> bool
  {
    link => Passes(check, link)
  }

  /** The links handed to a checker, in task order. */
  function Dispatched(uris: seq<string>, invalid: set<string>): seq<string>
  {
    Filter(uris, PendingPred(invalid))
  }

  /** The links kept: the directly accepted ones in input order, then the
      confirmed ones in task order. */
  function KeptLinks(uris: seq<string>, invalid: set<string>, check: (Provider, string) -> bool): seq<string>
  {
    Filter(uris, DirectPred(invalid)) + Filter(Dispatched(uris, invalid), PassPred(check))
  }

  /** The set of checked links that failed. */
  function FailedLinks(tasks: seq<string>, check: (Provider, string) -> bool): set<string>
    decreases |tasks|
  {
    if |tasks| == 0 then {}
    else
      var last := tasks[|tasks| - 1];
      FailedLinks(tasks[..|tasks| - 1], check) + (if Passes(check, last) then {} else {last})
  }

  /** The failed links are exactly the checked links the checker rejects. */
  lemma {:induction false} FailedLinksMembers(tasks: seq<string>, check: (Provider, string) -> bool)
    ensures forall link :: link in FailedLinks(tasks, check) <==> link in tasks && !Passes(check, link)
    decreases |tasks|
  {
    if |tasks| > 0 {
      var init := tasks[..|tasks| - 1];
      assert tasks == init + [tasks[|tasks| - 1]];
      FailedLinksMembers(init, check);
    }
  }

  /** The game validate_links returns. */
  function Validate(game: Game, invalid: set<string>, check: (Provider, string) -> bool): Game
  {
    if |game.uris| == 0 then game else game.(uris := KeptLinks(game.uris, invalid, check))
  }

  /** The set of new invalid links validate_links returns. */
  function NewInvalid(game: Game, invalid: set<string>, check: (Provider, string) -> bool): set<string>
  {
    FailedLinks(Dispatched(game.uris, invalid), check)
  }

  /** validate_links: a first pass dispatches every link not cached as
      invalid, a second pass reads the checker results in task order. */
  method ValidateLinks(game: Game, invalid: set<string>, check: (Provider, string) -> bool)
    returns (validated: Game, newInvalid: set<string>)
    ensures validated == Validate(game, invalid, check)
    ensures newInvalid == NewInvalid(game, invalid, check)
  {
    var uris := game.uris;
    if |uris| == 0 {
      return game, {};
    }
    var valid: seq<string> := [];
    var tasks: seq<string> := [];
    var i := 0;
    while i < |uris|
      invariant 0 <= i <= |uris|
      invariant valid == Filter(uris[..i], DirectPred(invalid))
      invariant tasks == Filter(uris[..i], PendingPred(invalid))
    {
      var link := uris[i];
      assert uris[..i + 1] == uris[..i] + [link];
      FilterSnoc(uris[..i], link, DirectPred(invalid));
      FilterSnoc(uris[..i], link, PendingPred(invalid));
      if link !in invalid {
        match RouteOf(link)
        case Check(_) =>
          tasks := tasks + [link];
        case DirectAccept =>
          valid := valid + [link];
        case Drop =>
      }
      i := i + 1;
    }
    assert uris[..i] == uris;
    ghost var direct := valid;
    newInvalid := {};
    var j := 0;
    while j < |tasks|
      invariant 0 <= j <= |tasks|
      invariant valid == direct + Filter(tasks[..j], PassPred(check))
      invariant newInvalid == FailedLinks(tasks[..j], check)
    {
      var link := tasks[j];
      assert tasks[..j + 1] == tasks[..j] + [link];
      assert tasks[..j + 1][..j] == tasks[..j];
      FilterSnoc(tasks[..j], link, PassPred(check));
      var route := RouteOf(link);
      if route.Check? && check(route.provider, link) {
        valid := valid + [link];
      } else {
        newInvalid := newInvalid + {link};
      }
      j := j + 1;
    }
    assert tasks[..j] == tasks;
    validated := game.(uris := valid);
  }

  /** What validate_links promises about the links it keeps and the links
      it reports as invalid. */
  lemma ValidateLinksSound(game: Game, invalid: set<string>, check: (Provider, string) -> bool)
    ensures |game.uris| == 0 ==> Validate(game, invalid, check) == game && NewInvalid(game, invalid, check) == {}
    ensures Validate(game, invalid, check) == game.(uris := Validate(game, invalid, check).uris)
    ensures forall link | link in Validate(game, invalid, check).uris ::
      link in game.uris && link !in invalid && IsKnownLink(link) && link !in NewInvalid(game, invalid, check)
    ensures forall link | link in NewInvalid(game, invalid, check) ::
      link in game.uris && link !in invalid && RouteOf(link).Check?
    ensures forall link | link in Validate(game, invalid, check).uris && RouteOf(link).DirectAccept? ::
      Contains(link, FichierDomain)
    ensures forall link | link in game.uris && link !in invalid && RouteOf(link).DirectAccept? ::
      link in Validate(game, invalid, check).uris
    ensures forall link | link in game.uris && link !in invalid && Passes(check, link) ::
      link in Validate(game, invalid, check).uris
  {
    var kept := Validate(game, invalid, check).uris;
    var direct := Filter(game.uris, DirectPred(invalid));
    var pending := Dispatched(game.uris, invalid);
    var passed := Filter(pending, PassPred(check));
    FilterMembers(game.uris, DirectPred(invalid));
    FilterMembers(game.uris, PendingPred(invalid));
    FilterMembers(pending, PassPred(check));
    FailedLinksMembers(pending, check);
    forall link | link in NewInvalid(game, invalid, check)
      ensures link in game.uris && link !in invalid && RouteOf(link).Check?
    {
      var m :| 0 <= m < |pending| && pending[m] == link;
      assert PendingPred(invalid)(pending[m]);
    }
    forall link | link in kept
      ensures link in game.uris && link !in invalid && IsKnownLink(link)
      ensures link !in NewInvalid(game, invalid, check)
    {
      RouteOfFacts(link);
      if link in direct {
        var k :| 0 <= k < |direct| && direct[k] == link;
        assert DirectPred(invalid)(direct[k]);
      } else {
        assert link in passed;
        var k :| 0 <= k < |passed| && passed[k] == link;
        assert PassPred(check)(passed[k]);
        var m :| 0 <= m < |pending| && pending[m] == link;
        assert PendingPred(invalid)(pending[m]);
      }
    }
    forall link | link in kept && RouteOf(link).DirectAccept?
      ensures Contains(link, FichierDomain)
    {
      RouteOfFacts(link);
    }
    forall link | link in game.uris && link !in invalid && (RouteOf(link).DirectAccept? || Passes(check, link))
      ensures link in kept
    {
      var m :| 0 <= m < |game.uris| && game.uris[m] == link;
      if RouteOf(link).DirectAccept? {
        assert DirectPred(invalid)(game.uris[m]);
        assert link in direct;
      } else {
        assert PendingPred(invalid)(game.uris[m]);
        var q :| 0 <= q < |pending| && pending[q] == link;
        assert PassPred(check)(pending[q]);
        assert link in passed;
      }
    }
  }

  // ---------------------------------------------------------------------
  // extract_mediafire_key

  /** `re.sub(r'/file/?$', '', url)`: one trailing "/file" or "/file/" is
      removed; `$` also matches just before a final newline. */
  function StripTrailingFile(url: string): (r: string)
    ensures EndsWith(url, "/file/") ==> r + "/file/" == url
    ensures !EndsWith(url, "/file/") && EndsWith(url, "/file") ==> r + "/file" == url
    ensures !EndsWith(url, "/file/") && !EndsWith(url, "/file") && EndsWith(url, "/file/\n") ==>
      |r| > 0 && r[|r| - 1] == '\n' && r[..|r| - 1] + "/file/\n" == url
    ensures !EndsWith(url, "/file/") && !EndsWith(url, "/file") && !EndsWith(url, "/file/\n") && EndsWith(url, "/file\n") ==>
      |r| > 0 && r[|r| - 1] == '\n' && r[..|r| - 1] + "/file\n" == url
    ensures !EndsWith(url, "/file/") && !EndsWith(url, "/file") && !EndsWith(url, "/file/\n") && !EndsWith(url, "/file\n") ==>
      r == url
    ensures |r| <= |url|
  {
    if EndsWith(url, "/file/") then url[..|url| - 6]
    else if EndsWith(url, "/file") then url[..|url| - 5]
    else if EndsWith(url, "/file/\n") then url[..|url| - 7] + "\n"
    else if EndsWith(url, "/file\n") then url[..|url| - 6] + "\n"
    else url
  }

  /** extract_mediafire_key: after the trailing "/file" is dropped, the
      text between the first "/file/" and the next '/' (possibly empty);
      none when no "/file/" is left. */
  function ExtractMediafireKey(url: string): (r: Option<string>)
    ensures r.None? <==> !Contains(StripTrailingFile(url), "/file/")
    ensures r.Some? ==> '/' !in r.value
    ensures r.Some? ==> exists i | 0 <= i <= |StripTrailingFile(url)| - 6 ::
      && OccursAt(StripTrailingFile(url), "/file/", i)
      && (forall j | 0 <= j < i :: !OccursAt(StripTrailingFile(url), "/file/", j))
      && StartsWith(StripTrailingFile(url)[i + 6..], r.value)
  {
    KeyAfterFile(StripTrailingFile(url))
  }

  // ---------------------------------------------------------------------
  // is_blacklisted

  /** is_blacklisted: the game has a non-empty source page equal to the
      source page of some blacklist entry. */
  function IsBlacklisted(game: Game, blacklist: seq<Game>): bool
    decreases |blacklist|
  {
    if |blacklist| == 0 then false
    else (game.source != "" && game.source == blacklist[0].source) || IsBlacklisted(game, blacklist[1..])
  }

  lemma {:induction false} IsBlacklistedMeaning(game: Game, blacklist: seq<Game>)
    ensures IsBlacklisted(game, blacklist) <==>
      game.source != "" && exists i | 0 <= i < |blacklist| :: blacklist[i].source == game.source
    decreases |blacklist|
  {
    if |blacklist| > 0 {
      IsBlacklistedMeaning(game, blacklist[1..]);
      if game.source != "" && exists i | 0 <= i < |blacklist| :: blacklist[i].source == game.source {
        var i :| 0 <= i < |blacklist| && blacklist[i].source == game.source;
        if i > 0 {
          assert blacklist[1..][i - 1].source == game.source;
        }
      }
    }
  }

  function NotBlacklistedPred(blacklist: seq<Game>): Game -> bool
  {
    g => !IsBlacklisted(g, blacklist)
  }

  /** The blacklist update at the end of main: the removed games not
      already blacklisted are appended. */
  function MergeBlacklist(blacklist: seq<Game>, removed: seq<Game>): seq<Game>
  {
    blacklist + Filter(removed, NotBlacklistedPred(blacklist))
  }

  /** The old blacklist is kept as a prefix, every removed game with a
      source page ends up blacklisted, and only removed games that were not
      blacklisted are added. */
  lemma MergeBlacklistFacts(blacklist: seq<Game>, removed: seq<Game>)
    ensures var r := MergeBlacklist(blacklist, removed);
      |r| >= |blacklist| && r[..|blacklist|] == blacklist
    ensures forall i | 0 <= i < |removed| && removed[i].source != "" ::
      IsBlacklisted(removed[i], MergeBlacklist(blacklist, removed))
    ensures var r := MergeBlacklist(blacklist, removed);
      forall i | |blacklist| <= i < |r| :: r[i] in removed && !IsBlacklisted(r[i], blacklist)
  {
    var added := Filter(removed, NotBlacklistedPred(blacklist));
    var r := MergeBlacklist(blacklist, removed);
    FilterMembers(removed, NotBlacklistedPred(blacklist));
    forall i | 0 <= i < |removed| && removed[i].source != ""
      ensures IsBlacklisted(removed[i], r)
    {
      IsBlacklistedMeaning(removed[i], blacklist);
      IsBlacklistedMeaning(removed[i], r);
      if IsBlacklisted(removed[i], blacklist) {
        var k :| 0 <= k < |blacklist| && blacklist[k].source == removed[i].source;
        assert r[k] == blacklist[k];
      } else {
        assert NotBlacklistedPred(blacklist)(removed[i]);
        var k :| 0 <= k < |added| && added[k] == removed[i];
        assert r[|blacklist| + k] == removed[i];
      }
    }
    forall i | |blacklist| <= i < |r|
      ensures r[i] in removed && !IsBlacklisted(r[i], blacklist)
    {
      assert r[i] == added[i - |blacklist|];
      assert NotBlacklistedPred(blacklist)(added[i - |blacklist|]);
    }
  }

  // ---------------------------------------------------------------------
  // Grouping in process_duplicates

  /** A game that enters a group: not blacklisted and with a title. */
  predicate Eligible(game: Game, blacklist: seq<Game>)
  {
    !IsBlacklisted(game, blacklist) && game.title != ""
  }

  function InGroup(blacklist: seq<Game>, norm: string -> string, key: string): Game -> bool
  {
    g => Eligible(g, blacklist) && norm(g.title) == key
  }

  /** The group keys of the eligible games, with repetitions, in input order. */
  function EligibleKeys(games: seq<Game>, blacklist: seq<Game>, norm: string -> string): seq<string>
    decreases |games|
  {
    if |games| == 0 then []
    else
      var init := games[..|games| - 1];
      var last := games[|games| - 1];
      EligibleKeys(init, blacklist, norm) + (if Eligible(last, blacklist) then [norm(last.title)] else [])
  }

  /** Every eligible game contributes its key. */
  lemma {:induction false} EligibleKeysCover(games: seq<Game>, blacklist: seq<Game>, norm: string -> string)
    ensures forall j | 0 <= j < |games| && Eligible(games[j], blacklist) :: norm(games[j].title) in EligibleKeys(games, blacklist, norm)
    decreases |games|
  {
    if |games| > 0 {
      var init := games[..|games| - 1];
      EligibleKeysCover(init, blacklist, norm);
      forall j | 0 <= j < |games| - 1
        ensures games[j] == init[j]
      {
      }
    }
  }

  /** `keys` and `groups` are the grouping of `prefix`. */
  ghost predicate IsGrouping(prefix: seq<Game>, blacklist: seq<Game>, norm: string -> string,
                       keys: seq<string>, groups: map<string, seq<Game>>)
  {
    && keys == Dedup(EligibleKeys(prefix, blacklist, norm))
    && (forall k :: k in groups <==> k in keys)
    && forall k | k in groups :: groups[k] == Filter(prefix, InGroup(blacklist, norm, k))
  }

  /** Every grouped game is an eligible game of `games` under its key. */
  ghost predicate GroupedFrom(groups: map<string, seq<Game>>, games: seq<Game>, blacklist: seq<Game>,
                              norm: string -> string)
  {
    forall k, g | k in groups && g in groups[k] :: g in games && Eligible(g, blacklist) && norm(g.title) == k
  }

  /** Every eligible game of `games` is in the group of its key. */
  ghost predicate GroupsCover(groups: map<string, seq<Game>>, games: seq<Game>, blacklist: seq<Game>,
                              norm: string -> string)
  {
    forall g | g in games && Eligible(g, blacklist) :: norm(g.title) in groups && g in groups[norm(g.title)]
  }

  /** One iteration of the grouping loop. */
  function AddToGroups(keys: seq<string>, groups: map<string, seq<Game>>, g: Game,
                       blacklist: seq<Game>, norm: string -> string): (seq<string>, map<string, seq<Game>>)
  {
    if !Eligible(g, blacklist) then (keys, groups)
    else
      var key := norm(g.title);
      if key in groups then (keys, groups[key := groups[key] + [g]])
      else (keys + [key], groups[key := [g]])
  }

  lemma AddToGroupsStep(prefix: seq<Game>, g: Game, blacklist: seq<Game>, norm: string -> string,
                        keys: seq<string>, groups: map<string, seq<Game>>)
    requires IsGrouping(prefix, blacklist, norm, keys, groups)
    ensures var next := AddToGroups(keys, groups, g, blacklist, norm);
      IsGrouping(prefix + [g], blacklist, norm, next.0, next.1)
  {
    var next := AddToGroups(keys, groups, g, blacklist, norm);
    var ek := EligibleKeys(prefix, blacklist, norm);
    assert (prefix + [g])[..|prefix|] == prefix;
    assert EligibleKeys(prefix + [g], blacklist, norm) == ek + (if Eligible(g, blacklist) then [norm(g.title)] else []);
    DedupSnoc(ek, norm(g.title));
    if !Eligible(g, blacklist) {
      assert ek + [] == ek;
      forall k | k in groups
        ensures groups[k] == Filter(prefix + [g], InGroup(blacklist, norm, k))
      {
        FilterSnoc(prefix, g, InGroup(blacklist, norm, k));
      }
    } else if norm(g.title) in groups {
      AddToExistingGroup(prefix, g, blacklist, norm, groups);
    } else {
      AddNewGroup(prefix, g, blacklist, norm, keys, groups);
    }
  }

  lemma AddToExistingGroup(prefix: seq<Game>, g: Game, blacklist: seq<Game>, norm: string -> string,
                           groups: map<string, seq<Game>>)
    requires Eligible(g, blacklist) && norm(g.title) in groups
    requires forall k | k in groups :: groups[k] == Filter(prefix, InGroup(blacklist, norm, k))
    ensures var next := groups[norm(g.title) := groups[norm(g.title)] + [g]];
      forall k | k in next :: next[k] == Filter(prefix + [g], InGroup(blacklist, norm, k))
  {
    var next := groups[norm(g.title) := groups[norm(g.title)] + [g]];
    forall k | k in next
      ensures next[k] == Filter(prefix + [g], InGroup(blacklist, norm, k))
    {
      FilterSnoc(prefix, g, InGroup(blacklist, norm, k));
    }
  }

  lemma AddNewGroup(prefix: seq<Game>, g: Game, blacklist: seq<Game>, norm: string -> string,
                    keys: seq<string>, groups: map<string, seq<Game>>)
    requires Eligible(g, blacklist) && norm(g.title) !in groups
    requires IsGrouping(prefix, blacklist, norm, keys, groups)
    ensures var next := groups[norm(g.title) := [g]];
      forall k | k in next :: next[k] == Filter(prefix + [g], InGroup(blacklist, norm, k))
  {
    var key := norm(g.title);
    var next := groups[key := [g]];
    var ek := EligibleKeys(prefix, blacklist, norm);
    DedupFacts(ek);
    EligibleKeysCover(prefix, blacklist, norm);
    assert key !in ek;
    forall j | 0 <= j < |prefix|
      ensures !InGroup(blacklist, norm, key)(prefix[j])
    {
      assert Eligible(prefix[j], blacklist) ==> norm(prefix[j].title) in ek;
    }
    FilterNone(prefix, InGroup(blacklist, norm, key));
    forall k | k in next
      ensures next[k] == Filter(prefix + [g], InGroup(blacklist, norm, k))
    {
      FilterSnoc(prefix, g, InGroup(blacklist, norm, k));
    }
  }

  /** The grouping loop of process_duplicates: keys in order of first
      appearance, each group the eligible games with that key in input
      order; blacklisted and untitled games are in no group. */
  method GroupGames(games: seq<Game>, blacklist: seq<Game>, norm: string -> string)
    returns (keys: seq<string>, groups: map<string, seq<Game>>)
    ensures keys == Dedup(EligibleKeys(games, blacklist, norm))
    ensures Distinct(keys)
    ensures forall k :: k in groups <==> k in keys
    ensures forall k | k in groups :: groups[k] == Filter(games, InGroup(blacklist, norm, k))
    ensures GroupedFrom(groups, games, blacklist, norm)
    ensures GroupsCover(groups, games, blacklist, norm)
  {
    keys := [];
    groups := map[];
    var i := 0;
    while i < |games|
      invariant 0 <= i <= |games|
      invariant IsGrouping(games[..i], blacklist, norm, keys, groups)
    {
      AddToGroupsStep(games[..i], games[i], blacklist, norm, keys, groups);
      assert games[..i + 1] == games[..i] + [games[i]];
      keys, groups := AddToGroups(keys, groups, games[i], blacklist, norm).0, AddToGroups(keys, groups, games[i], blacklist, norm).1;
      i := i + 1;
    }
    assert games[..i] == games;
    DedupFacts(EligibleKeys(games, blacklist, norm));
    GroupingMembers(games, blacklist, norm, keys, groups);
  }

  lemma GroupMemberFacts(games: seq<Game>, blacklist: seq<Game>, norm: string -> string,
                         k: string, group: seq<Game>, g: Game)
    requires group == Filter(games, InGroup(blacklist, norm, k)) && g in group
    ensures g in games && Eligible(g, blacklist) && norm(g.title) == k
  {
    FilterMembers(games, InGroup(blacklist, norm, k));
    var m :| 0 <= m < |group| && group[m] == g;
    assert InGroup(blacklist, norm, k)(group[m]);
  }

  lemma GroupCoverFacts(games: seq<Game>, blacklist: seq<Game>, norm: string -> string,
                        keys: seq<string>, groups: map<string, seq<Game>>, j: nat)
    requires IsGrouping(games, blacklist, norm, keys, groups)
    requires j < |games| && Eligible(games[j], blacklist)
    ensures norm(games[j].title) in groups && games[j] in groups[norm(games[j].title)]
  {
    var k := norm(games[j].title);
    EligibleKeysCover(games, blacklist, norm);
    DedupFacts(EligibleKeys(games, blacklist, norm));
    var ek := EligibleKeys(games, blacklist, norm);
    var m :| 0 <= m < |ek| && ek[m] == k;
    assert k in keys;
    FilterMembers(games, InGroup(blacklist, norm, k));
    assert InGroup(blacklist, norm, k)(games[j]);
  }

  /** The grouping holds each eligible game, and only those, under its key. */
  lemma GroupingMembers(games: seq<Game>, blacklist: seq<Game>, norm: string -> string,
                        keys: seq<string>, groups: map<string, seq<Game>>)
    requires IsGrouping(games, blacklist, norm, keys, groups)
    ensures GroupedFrom(groups, games, blacklist, norm)
    ensures GroupsCover(groups, games, blacklist, norm)
  {
    forall k, g | k in groups && g in groups[k]
      ensures g in games && Eligible(g, blacklist) && norm(g.title) == k
    {
      GroupMemberFacts(games, blacklist, norm, k, groups[k], g);
    }
    forall g | g in games && Eligible(g, blacklist)
      ensures norm(g.title) in groups && g in groups[norm(g.title)]
    {
      var j :| 0 <= j < |games| && games[j] == g;
      GroupCoverFacts(games, blacklist, norm, keys, groups, j);
    }
  }

  // ---------------------------------------------------------------------
  // Candidate order in process_game_group

  /** Position `i` of `group` sorts before position `j` in `sorted(...,
      reverse=True)` by upload date: a later date first, a missing date
      last, and equal dates in input order (the sort is stable). */
  predicate Before(group: seq<Game>, i: nat, j: nat)
  {
    i < |group| && j < |group|
    && (Later(group[i].uploadDate, group[j].uploadDate)
        || (!Later(group[j].uploadDate, group[i].uploadDate) && i < j))
  }

  predicate SortedBy(group: seq<Game>, s: seq<nat>)
  {
    forall a, b | 0 <= a < b < |s| :: Before(group, s[a], s[b])
  }

  lemma SortedDistinct(group: seq<Game>, s: seq<nat>)
    requires SortedBy(group, s)
    ensures forall a, b | 0 <= a < |s| && 0 <= b < |s| && a != b :: s[a] != s[b]
  {
    forall a, b | 0 <= a < |s| && 0 <= b < |s| && a != b
      ensures s[a] != s[b]
    {
      if a < b {
        assert Before(group, s[a], s[b]);
      } else {
        assert Before(group, s[b], s[a]);
      }
    }
  }

  function Insert(group: seq<Game>, x: nat, s: seq<nat>): (r: seq<nat>)
    ensures |r| == |s| + 1
    ensures forall y :: y in r <==> y == x || y in s
    decreases |s|
  {
    if |s| == 0 then [x]
    else if Before(group, x, s[0]) then [x] + s
    else
      assert s == [s[0]] + s[1..];
      [s[0]] + Insert(group, x, s[1..])
  }

  lemma {:induction false} InsertSorted(group: seq<Game>, x: nat, s: seq<nat>)
    requires x < |group|
    requires forall k | 0 <= k < |s| :: s[k] < |group| && s[k] != x
    requires SortedBy(group, s)
    ensures SortedBy(group, Insert(group, x, s))
    decreases |s|
  {
    if |s| > 0 && !Before(group, x, s[0]) {
      var rest := Insert(group, x, s[1..]);
      InsertSorted(group, x, s[1..]);
      assert Before(group, s[0], x);
      forall b | 0 <= b < |rest|
        ensures Before(group, s[0], rest[b])
      {
        assert rest[b] in rest;
        if rest[b] != x {
          var m :| 0 <= m < |s[1..]| && s[1..][m] == rest[b];
          assert s[m + 1] == rest[b];
        }
      }
      var r := [s[0]] + rest;
      forall a, b | 0 <= a < b < |r|
        ensures Before(group, r[a], r[b])
      {
        if a > 0 {
          assert r[a] == rest[a - 1] && r[b] == rest[b - 1];
        } else {
          assert r[b] == rest[b - 1];
        }
      }
    }
  }

  /** The positions `0 .. n-1` of `group` in candidate order. */
  function SortPrefix(group: seq<Game>, n: nat): seq<nat>
    requires n <= |group|
  {
    if n == 0 then [] else Insert(group, n - 1, SortPrefix(group, n - 1))
  }

  lemma {:induction false} SortPrefixSorted(group: seq<Game>, n: nat)
    requires n <= |group|
    ensures |SortPrefix(group, n)| == n
    ensures forall k | 0 <= k < n :: SortPrefix(group, n)[k] < n
    ensures forall k: nat | k < n :: k in SortPrefix(group, n)
    ensures SortedBy(group, SortPrefix(group, n))
  {
    if n > 0 {
      var s := SortPrefix(group, n - 1);
      SortPrefixSorted(group, n - 1);
      InsertSorted(group, n - 1, s);
      var r := Insert(group, n - 1, s);
      forall k | 0 <= k < n
        ensures r[k] < n
      {
        assert r[k] in r;
        if r[k] != n - 1 {
          var m :| 0 <= m < |s| && s[m] == r[k];
        }
      }
    }
  }

  /** The group sorted by upload date, newest first. */
  function SortByDate(group: seq<Game>): seq<nat>
  {
    SortPrefix(group, |group|)
  }

  function OnlinePred(group: seq<Game>): nat -> bool
  {
    i => 0 <= i < |group| && IsOnlineTitle(group[i].title)
  }

  /** The candidates of process_game_group: the online entries in date
      order if there are any, otherwise the whole group in date order. */
  function Candidates(group: seq<Game>): seq<nat>
  {
    var order := SortByDate(group);
    var online := Filter(order, OnlinePred(group));
    if |online| > 0 then online else order
  }

  predicate HasOnline(group: seq<Game>)
  {
    exists i | 0 <= i < |group| :: IsOnlineTitle(group[i].title)
  }

  lemma {:induction false} FilterKeepsOrder(group: seq<Game>, s: seq<nat>, p: nat -> bool)
    requires SortedBy(group, s)
    ensures SortedBy(group, Filter(s, p))
    decreases |s|
  {
    if |s| > 0 {
      FilterKeepsOrder(group, s[1..], p);
      var rest := Filter(s[1..], p);
      if p(s[0]) {
        var r := [s[0]] + rest;
        forall a, b | 0 <= a < b < |r|
          ensures Before(group, r[a], r[b])
        {
          assert r[b] == rest[b - 1];
          if a > 0 {
            assert r[a] == rest[a - 1];
          } else {
            FilterMembers(s[1..], p);
            assert rest[b - 1] in s[1..];
            var m :| 0 <= m < |s[1..]| && s[1..][m] == rest[b - 1];
            assert s[m + 1] == r[b];
          }
        }
      }
    }
  }

  /** The candidates are distinct positions of the group in date order;
      they are exactly the online entries when there are any, and the
      whole group otherwise. */
  lemma CandidatesFacts(group: seq<Game>)
    ensures SortedBy(group, Candidates(group))
    ensures forall k | 0 <= k < |Candidates(group)| :: Candidates(group)[k] < |group|
    ensures |group| > 0 ==> |Candidates(group)| > 0
    ensures HasOnline(group) ==>
      (forall k | 0 <= k < |Candidates(group)| :: IsOnlineTitle(group[Candidates(group)[k]].title))
      && (forall i: nat | i < |group| && IsOnlineTitle(group[i].title) :: i in Candidates(group))
    ensures !HasOnline(group) ==> forall i: nat | i < |group| :: i in Candidates(group)
  {
    var order := SortByDate(group);
    SortPrefixSorted(group, |group|);
    var online := Filter(order, OnlinePred(group));
    FilterKeepsOrder(group, order, OnlinePred(group));
    FilterMembers(order, OnlinePred(group));
    if HasOnline(group) {
      var i :| 0 <= i < |group| && IsOnlineTitle(group[i].title);
      assert i in order;
      var m :| 0 <= m < |order| && order[m] == i;
      assert OnlinePred(group)(order[m]);
      forall k | 0 <= k < |online|
        ensures IsOnlineTitle(group[online[k]].title)
      {
        assert OnlinePred(group)(online[k]);
      }
      forall i: nat | i < |group| && IsOnlineTitle(group[i].title)
        ensures i in online
      {
        assert i in order;
        var m :| 0 <= m < |order| && order[m] == i;
        assert OnlinePred(group)(order[m]);
      }
    } else {
      FilterNone(order, OnlinePred(group));
    }
  }

  // ---------------------------------------------------------------------
  // process_game_group

  /** The survival rule: the validated links are non-empty and are not a
      single 1fichier link. */
  predicate Acceptable(game: Game)
  {
    |game.uris| > 0 && !(|game.uris| == 1 && Contains(game.uris[0], FichierDomain))
  }

  function AcceptPred(group: seq<Game>, invalid: set<string>, check: (Provider, string) -> bool): nat -> bool
  {
    c => 0 <= c < |group| && Acceptable(Validate(group[c], invalid, check))
  }

  /** The position in the candidate list of the first candidate that
      survives validation. */
  function WinnerPos(group: seq<Game>, invalid: set<string>, check: (Provider, string) -> bool): Option<nat>
  {
    FirstIndex(Candidates(group), AcceptPred(group, invalid, check))
  }

  /** The result of one group: the survivor (none or one), the removed
      entries, and the links found invalid while trying. */
  datatype GroupOutcome = GroupOutcome(valid: seq<Game>, removed: seq<Game>, newInvalid: set<string>)

  /** `group` with the entries at the tried positions replaced by their
      validated version (validate_links rewrites the dict in place). */
  function TriedState(group: seq<Game>, tried: seq<nat>, invalid: set<string>, check: (Provider, string) -> bool): (r: seq<Game>)
    ensures |r| == |group|
    ensures forall i | 0 <= i < |group| :: r[i] == if i in tried then Validate(group[i], invalid, check) else group[i]
  {
    seq(|group|, i requires 0 <= i < |group| => if i in tried then Validate(group[i], invalid, check) else group[i])
  }

  function Differs(v: Game): Game -> bool
  {
    g => g != v
  }

  predicate ValidCandidates(group: seq<Game>, cands: seq<nat>)
  {
    forall k | 0 <= k < |cands| :: cands[k] < |group|
  }

  /** The candidate loop of process_game_group as written, from candidate
      `k` on: a rejected candidate is appended to the removed list inside
      the loop, and the final `extend` appends the (rewritten) group again. */
  function RunAsWritten(group: seq<Game>, cands: seq<nat>, k: nat, current: seq<Game>, removed: seq<Game>,
                        inv: set<string>, invalid: set<string>, check: (Provider, string) -> bool): GroupOutcome
    requires k <= |cands| && |current| == |group| && ValidCandidates(group, cands)
    decreases |cands| - k
  {
    if k == |cands| then GroupOutcome([], removed + current, inv)
    else
      var c := cands[k];
      var v := Validate(current[c], invalid, check);
      var next := current[c := v];
      var inv' := inv + NewInvalid(current[c], invalid, check);
      if Acceptable(v) then GroupOutcome([v], removed + Filter(next, Differs(v)), inv')
      else RunAsWritten(group, cands, k + 1, next, removed + [v], inv', invalid, check)
  }

  function ProcessGameGroupAsWritten(group: seq<Game>, invalid: set<string>, check: (Provider, string) -> bool): GroupOutcome
  {
    CandidatesFacts(group);
    RunAsWritten(group, Candidates(group), 0, group, [], {}, invalid, check)
  }

  /** When no candidate survives, the as-written loop removes every
      candidate twice: once inside the loop and once in the final extend. */
  lemma {:induction false} RunAsWrittenRemovedCount(group: seq<Game>, cands: seq<nat>, k: nat, current: seq<Game>, removed: seq<Game>,
                                                    inv: set<string>, invalid: set<string>, check: (Provider, string) -> bool)
    requires k <= |cands| && |current| == |group| && ValidCandidates(group, cands)
    requires RunAsWritten(group, cands, k, current, removed, inv, invalid, check).valid == []
    ensures |RunAsWritten(group, cands, k, current, removed, inv, invalid, check).removed| == |removed| + (|cands| - k) + |group|
    decreases |cands| - k
  {
    if k < |cands| {
      var c := cands[k];
      var v := Validate(current[c], invalid, check);
      if !Acceptable(v) {
        RunAsWrittenRemovedCount(group, cands, k + 1, current[c := v], removed + [v],
                                 inv + NewInvalid(current[c], invalid, check), invalid, check);
      }
    }
  }

  /** The discrepancy: a one-entry group whose entry fails validation ends
      up twice in the removed list, so the blacklist receives it twice. */
  lemma AsWrittenRemovesTwice(group: seq<Game>, invalid: set<string>, check: (Provider, string) -> bool)
    requires |group| > 0
    requires ProcessGameGroupAsWritten(group, invalid, check).valid == []
    ensures |ProcessGameGroupAsWritten(group, invalid, check).removed| == |group| + |Candidates(group)|
    ensures |ProcessGameGroupAsWritten(group, invalid, check).removed| > |group|
  {
    CandidatesFacts(group);
    RunAsWrittenRemovedCount(group, Candidates(group), 0, group, [], {}, invalid, check);
  }

  /** The loop with the duplicate append removed: every entry other than
      the survivor is recorded once, in group order. */
  function RunFixed(group: seq<Game>, cands: seq<nat>, k: nat, current: seq<Game>,
                    inv: set<string>, invalid: set<string>, check: (Provider, string) -> bool): GroupOutcome
    requires k <= |cands| && |current| == |group| && ValidCandidates(group, cands)
    decreases |cands| - k
  {
    if k == |cands| then GroupOutcome([], current, inv)
    else
      var c := cands[k];
      var v := Validate(current[c], invalid, check);
      var next := current[c := v];
      var inv' := inv + NewInvalid(current[c], invalid, check);
      if Acceptable(v) then GroupOutcome([v], next[..c] + next[c + 1..], inv')
      else RunFixed(group, cands, k + 1, next, inv', invalid, check)
  }

  function ProcessGameGroup(group: seq<Game>, invalid: set<string>, check: (Provider, string) -> bool): GroupOutcome
  {
    CandidatesFacts(group);
    RunFixed(group, Candidates(group), 0, group, {}, invalid, check)
  }

  /** Every new invalid link comes from some entry of the group and was not
      cached as invalid. */
  predicate InvalidFromGroup(group: seq<Game>, inv: set<string>, invalid: set<string>)
  {
    forall link | link in inv :: link !in invalid && exists i | 0 <= i < |group| :: link in group[i].uris
  }

  /** Every entry of the group ends up either as the survivor or in the
      removed list. */
  lemma {:induction false} RunFixedCount(group: seq<Game>, cands: seq<nat>, k: nat, current: seq<Game>,
                                         inv: set<string>, invalid: set<string>, check: (Provider, string) -> bool)
    requires k <= |cands| && |current| == |group| && ValidCandidates(group, cands)
    ensures var o := RunFixed(group, cands, k, current, inv, invalid, check);
      |o.valid| + |o.removed| == |group| && |o.valid| <= 1
    decreases |cands| - k
  {
    if k < |cands| {
      var c := cands[k];
      var v := Validate(current[c], invalid, check);
      if !Acceptable(v) {
        RunFixedCount(group, cands, k + 1, current[c := v], inv + NewInvalid(current[c], invalid, check), invalid, check);
      }
    }
  }

  /** The links of `current` are links of the original entries. */
  ghost predicate LinksFromGroup(group: seq<Game>, current: seq<Game>)
  {
    |current| == |group| && forall i, link | 0 <= i < |group| && link in current[i].uris :: link in group[i].uris
  }

  lemma {:induction false} RunFixedInvalid(group: seq<Game>, cands: seq<nat>, k: nat, current: seq<Game>,
                                           inv: set<string>, invalid: set<string>, check: (Provider, string) -> bool)
    requires k <= |cands| && ValidCandidates(group, cands)
    requires LinksFromGroup(group, current) && InvalidFromGroup(group, inv, invalid)
    ensures InvalidFromGroup(group, RunFixed(group, cands, k, current, inv, invalid, check).newInvalid, invalid)
    decreases |cands| - k
  {
    if k < |cands| {
      var c := cands[k];
      var v := Validate(current[c], invalid, check);
      var inv' := inv + NewInvalid(current[c], invalid, check);
      ValidateLinksSound(current[c], invalid, check);
      assert InvalidFromGroup(group, inv', invalid) by {
        forall link | link in inv'
          ensures link !in invalid && exists i | 0 <= i < |group| :: link in group[i].uris
        {
          if link !in inv {
            assert link in group[c].uris;
          }
        }
      }
      var next := current[c := v];
      assert LinksFromGroup(group, next) by {
        forall i, link | 0 <= i < |group| && link in next[i].uris
          ensures link in group[i].uris
        {
          if i == c {
            assert link in current[c].uris;
          } else {
            assert next[i] == current[i];
          }
        }
      }
      if !Acceptable(v) {
        RunFixedInvalid(group, cands, k + 1, next, inv', invalid, check);
      }
    }
  }

  /** Started from the state where the candidates before `k` have been
      tried and rejected, the loop returns the first surviving candidate
      from `k` on; without one, the group as the tries rewrote it is
      removed. */
  lemma {:induction false} RunFixedWinner(group: seq<Game>, cands: seq<nat>, k: nat, current: seq<Game>,
                                          inv: set<string>, invalid: set<string>, check: (Provider, string) -> bool)
    requires k <= |cands| && ValidCandidates(group, cands)
    requires forall a, b | 0 <= a < |cands| && 0 <= b < |cands| && a != b :: cands[a] != cands[b]
    requires current == TriedState(group, cands[..k], invalid, check)
    requires forall q | 0 <= q < k :: !AcceptPred(group, invalid, check)(cands[q])
    ensures var o := RunFixed(group, cands, k, current, inv, invalid, check);
      var first := FirstIndex(cands, AcceptPred(group, invalid, check));
      && (first.None? ==> o.valid == [] && o.removed == TriedState(group, cands, invalid, check))
      && (first.Some? ==> o.valid == [Validate(group[cands[first.value]], invalid, check)])
    decreases |cands| - k
  {
    var pred := AcceptPred(group, invalid, check);
    if k == |cands| {
      assert cands[..k] == cands;
      assert forall q | 0 <= q < |cands| :: !pred(cands[q]);
    } else {
      var c := cands[k];
      RunFixedNext(group, cands, k, current, invalid, check);
      var v := Validate(group[c], invalid, check);
      var next := current[c := v];
      if pred(c) {
        var first := FirstIndex(cands, pred);
        assert first.Some? && first.value <= k;
      } else {
        RunFixedWinner(group, cands, k + 1, next, inv + NewInvalid(current[c], invalid, check), invalid, check);
      }
    }
  }

  /** One try rewrites exactly the tried candidate's slot. */
  lemma RunFixedNext(group: seq<Game>, cands: seq<nat>, k: nat, current: seq<Game>,
                     invalid: set<string>, check: (Provider, string) -> bool)
    requires k < |cands| && ValidCandidates(group, cands)
    requires forall a, b | 0 <= a < |cands| && 0 <= b < |cands| && a != b :: cands[a] != cands[b]
    requires current == TriedState(group, cands[..k], invalid, check)
    ensures cands[k] < |current| && current[cands[k]] == group[cands[k]]
    ensures current[cands[k] := Validate(group[cands[k]], invalid, check)]
      == TriedState(group, cands[..k + 1], invalid, check)
  {
    var c := cands[k];
    assert c !in cands[..k] by {
      forall q | 0 <= q < k
        ensures cands[q] != c
      {
        assert q != k;
      }
    }
    assert cands[..k + 1] == cands[..k] + [c];
  }

  /** The try that finds the survivor removes the rest of the group as the
      tries so far rewrote it. */
  lemma RunFixedHit(group: seq<Game>, cands: seq<nat>, k: nat, current: seq<Game>,
                    inv: set<string>, invalid: set<string>, check: (Provider, string) -> bool)
    requires k < |cands| && ValidCandidates(group, cands)
    requires forall a, b | 0 <= a < |cands| && 0 <= b < |cands| && a != b :: cands[a] != cands[b]
    requires current == TriedState(group, cands[..k], invalid, check)
    requires forall q | 0 <= q < k :: !AcceptPred(group, invalid, check)(cands[q])
    requires AcceptPred(group, invalid, check)(cands[k])
    ensures var first := FirstIndex(cands, AcceptPred(group, invalid, check));
      && first == Some(k)
      && RunFixed(group, cands, k, current, inv, invalid, check).removed
           == RemoveAt(TriedState(group, cands[..k + 1], invalid, check), cands[k])
  {
    var pred := AcceptPred(group, invalid, check);
    RunFixedNext(group, cands, k, current, invalid, check);
    var first := FirstIndex(cands, pred);
    assert first.Some? && first.value <= k;
  }

  /** With a survivor, the group as the tries up to the survivor rewrote it
      is removed, in group order, with the survivor's own slot taken out. */
  lemma {:induction false} RunFixedRemoved(group: seq<Game>, cands: seq<nat>, k: nat, current: seq<Game>,
                                           inv: set<string>, invalid: set<string>, check: (Provider, string) -> bool)
    requires k <= |cands| && ValidCandidates(group, cands)
    requires forall a, b | 0 <= a < |cands| && 0 <= b < |cands| && a != b :: cands[a] != cands[b]
    requires current == TriedState(group, cands[..k], invalid, check)
    requires forall q | 0 <= q < k :: !AcceptPred(group, invalid, check)(cands[q])
    ensures var o := RunFixed(group, cands, k, current, inv, invalid, check);
      var first := FirstIndex(cands, AcceptPred(group, invalid, check));
      first.Some? ==>
        o.removed == RemoveAt(TriedState(group, cands[..first.value + 1], invalid, check), cands[first.value])
    decreases |cands| - k
  {
    var pred := AcceptPred(group, invalid, check);
    if k < |cands| {
      var c := cands[k];
      RunFixedNext(group, cands, k, current, invalid, check);
      var v := Validate(group[c], invalid, check);
      var next := current[c := v];
      if pred(c) {
        RunFixedHit(group, cands, k, current, inv, invalid, check);
      } else {
        RunFixedRemoved(group, cands, k + 1, next, inv + NewInvalid(current[c], invalid, check), invalid, check);
      }
    } else {
      assert forall q | 0 <= q < |cands| :: !pred(cands[q]);
    }
  }

  /** The survivor of a group: the validated version of the first
      candidate, in the loop's order, that passes the survival rule; none
      exactly when no candidate passes it. */
  function WinnerOf(group: seq<Game>, invalid: set<string>, check: (Provider, string) -> bool): (r: Option<Game>)
    ensures r.None? <==>
      forall q | 0 <= q < |Candidates(group)| :: !AcceptPred(group, invalid, check)(Candidates(group)[q])
  {
    CandidatesFacts(group);
    match WinnerPos(group, invalid, check)
    case None => None
    case Some(p) => Some(Validate(group[Candidates(group)[p]], invalid, check))
  }

  /** process_game_group: the first candidate that survives validation, in
      date order and among the online entries when there are any, is the
      only valid entry. Without a survivor the whole group, as the tries
      rewrote it, is removed; with one, the other entries are removed once
      each, in group order, those tried before the survivor in their
      validated version. */
  lemma ProcessGameGroupFacts(group: seq<Game>, invalid: set<string>, check: (Provider, string) -> bool)
    ensures var o := ProcessGameGroup(group, invalid, check);
      && |o.valid| + |o.removed| == |group|
      && |o.valid| <= 1
      && InvalidFromGroup(group, o.newInvalid, invalid)
      && o.valid == (if WinnerOf(group, invalid, check).Some? then [WinnerOf(group, invalid, check).value] else [])
      && (WinnerPos(group, invalid, check).None? ==>
            o.valid == [] && o.removed == TriedState(group, Candidates(group), invalid, check))
      && (WinnerPos(group, invalid, check).Some? ==>
            var w := Candidates(group)[WinnerPos(group, invalid, check).value];
            w < |group| && o.valid == [Validate(group[w], invalid, check)])
      && (WinnerPos(group, invalid, check).Some? ==>
            var p := WinnerPos(group, invalid, check).value;
            o.removed == RemoveAt(TriedState(group, Candidates(group)[..p + 1], invalid, check), Candidates(group)[p]))
  {
    GroupCountFacts(group, invalid, check);
    GroupValidFacts(group, invalid, check);
    GroupRemovedAt(group, invalid, check);
  }

  /** A group call keeps or removes each entry once, keeps at most one,
      and reports only the group's uncached links as invalid. */
  lemma GroupCountFacts(group: seq<Game>, invalid: set<string>, check: (Provider, string) -> bool)
    ensures var o := ProcessGameGroup(group, invalid, check);
      && |o.valid| + |o.removed| == |group|
      && |o.valid| <= 1
      && InvalidFromGroup(group, o.newInvalid, invalid)
  {
    RunFixedStart(group, invalid, check);
    RunFixedCount(group, Candidates(group), 0, group, {}, invalid, check);
    RunFixedInvalid(group, Candidates(group), 0, group, {}, invalid, check);
  }

  /** A group call keeps exactly the group's winner; without one it removes
      the whole group as the tries rewrote it. */
  lemma GroupValidFacts(group: seq<Game>, invalid: set<string>, check: (Provider, string) -> bool)
    ensures var o := ProcessGameGroup(group, invalid, check);
      && o.valid == (if WinnerOf(group, invalid, check).Some? then [WinnerOf(group, invalid, check).value] else [])
      && (WinnerPos(group, invalid, check).None? ==>
            o.valid == [] && o.removed == TriedState(group, Candidates(group), invalid, check))
      && (WinnerPos(group, invalid, check).Some? ==>
            var w := Candidates(group)[WinnerPos(group, invalid, check).value];
            w < |group| && o.valid == [Validate(group[w], invalid, check)])
  {
    var cands := Candidates(group);
    RunFixedStart(group, invalid, check);
    RunFixedWinner(group, cands, 0, group, {}, invalid, check);
    match WinnerPos(group, invalid, check)
    case None =>
    case Some(p) =>
      assert WinnerOf(group, invalid, check) == Some(Validate(group[cands[p]], invalid, check));
  }

  /** With a winner, a group call removes the group as the tries up to the
      winner rewrote it, with the winner's own slot taken out. */
  lemma GroupRemovedAt(group: seq<Game>, invalid: set<string>, check: (Provider, string) -> bool)
    ensures var o := ProcessGameGroup(group, invalid, check);
      WinnerPos(group, invalid, check).Some? ==>
        var p := WinnerPos(group, invalid, check).value;
        o.removed == RemoveAt(TriedState(group, Candidates(group)[..p + 1], invalid, check), Candidates(group)[p])
  {
    var cands := Candidates(group);
    RunFixedStart(group, invalid, check);
    var o := RunFixed(group, cands, 0, group, {}, invalid, check);
    assert ProcessGameGroup(group, invalid, check) == o;
    var first := FirstIndex(cands, AcceptPred(group, invalid, check));
    assert WinnerPos(group, invalid, check) == first;
    if first.Some? {
      RunFixedRemoved(group, cands, 0, group, {}, invalid, check);
      assert o.removed == RemoveAt(TriedState(group, cands[..first.value + 1], invalid, check), cands[first.value]);
    }
  }

  /** The loop of a group starts on valid, distinct candidates with nothing
      tried yet. */
  lemma RunFixedStart(group: seq<Game>, invalid: set<string>, check: (Provider, string) -> bool)
    ensures ValidCandidates(group, Candidates(group))
    ensures forall a, b | 0 <= a < |Candidates(group)| && 0 <= b < |Candidates(group)| && a != b ::
      Candidates(group)[a] != Candidates(group)[b]
    ensures group == TriedState(group, Candidates(group)[..0], invalid, check)
    ensures LinksFromGroup(group, group) && InvalidFromGroup(group, {}, invalid)
  {
    CandidatesFacts(group);
    SortedDistinct(group, Candidates(group));
    assert Candidates(group)[..0] == [];
  }

  /** The survivor is a validated entry of the group that passes the
      survival rule; it is online whenever some entry is; and no candidate
      that would survive has a strictly later upload date. Without a
      survivor, no candidate passes the rule. */
  lemma SurvivorIsNewestAcceptable(group: seq<Game>, invalid: set<string>, check: (Provider, string) -> bool)
    ensures var o := ProcessGameGroup(group, invalid, check);
      |o.valid| == 1 ==>
        exists w | 0 <= w < |group| ::
          && o.valid[0] == Validate(group[w], invalid, check)
          && Acceptable(o.valid[0])
          && o.valid[0].title == group[w].title
          && o.valid[0].uploadDate == group[w].uploadDate
          && (HasOnline(group) ==> IsOnlineTitle(group[w].title))
          && forall c | c in Candidates(group) && c < |group| && Acceptable(Validate(group[c], invalid, check)) ::
               !Later(group[c].uploadDate, group[w].uploadDate)
    ensures var o := ProcessGameGroup(group, invalid, check);
      o.valid == [] ==> forall c | c in Candidates(group) && c < |group| :: !Acceptable(Validate(group[c], invalid, check))
  {
    var o := ProcessGameGroup(group, invalid, check);
    var cands := Candidates(group);
    assert && (WinnerPos(group, invalid, check).None? ==> o.valid == [])
           && (WinnerPos(group, invalid, check).Some? ==>
                 o.valid == [Validate(group[cands[WinnerPos(group, invalid, check).value]], invalid, check)]) by {
      ProcessGameGroupFacts(group, invalid, check);
    }
    match WinnerPos(group, invalid, check)
    case None =>
      NoWinnerNoneAcceptable(group, invalid, check);
    case Some(p) =>
      WinnerNewest(group, invalid, check, p);
      var w := cands[p];
      assert o.valid[0] == Validate(group[w], invalid, check);
  }

  /** Without a first acceptable candidate, no candidate passes the
      survival rule. */
  lemma NoWinnerNoneAcceptable(group: seq<Game>, invalid: set<string>, check: (Provider, string) -> bool)
    requires WinnerPos(group, invalid, check).None?
    ensures forall c | c in Candidates(group) && c < |group| :: !Acceptable(Validate(group[c], invalid, check))
  {
    var cands := Candidates(group);
    var pred := AcceptPred(group, invalid, check);
    forall c | c in cands && c < |group|
      ensures !Acceptable(Validate(group[c], invalid, check))
    {
      var q :| 0 <= q < |cands| && cands[q] == c;
      assert !pred(cands[q]);
    }
  }

  /** The first acceptable candidate is an entry of the group that passes
      the survival rule, online whenever some entry is, with no acceptable
      candidate strictly newer. */
  lemma WinnerNewest(group: seq<Game>, invalid: set<string>, check: (Provider, string) -> bool, p: nat)
    requires WinnerPos(group, invalid, check) == Some(p)
    ensures p < |Candidates(group)| && Candidates(group)[p] < |group|
    ensures var w := Candidates(group)[p];
      && Acceptable(Validate(group[w], invalid, check))
      && (HasOnline(group) ==> IsOnlineTitle(group[w].title))
      && forall c | c in Candidates(group) && c < |group| && Acceptable(Validate(group[c], invalid, check)) ::
           !Later(group[c].uploadDate, group[w].uploadDate)
  {
    CandidatesFacts(group);
    var cands := Candidates(group);
    var pred := AcceptPred(group, invalid, check);
    var w := cands[p];
    assert pred(w);
    if HasOnline(group) {
      assert w in cands;
    }
    forall c | c in cands && c < |group| && Acceptable(Validate(group[c], invalid, check))
      ensures !Later(group[c].uploadDate, group[w].uploadDate)
    {
      var q :| 0 <= q < |cands| && cands[q] == c;
      assert pred(cands[q]);
      if q > p {
        assert Before(group, cands[p], cands[q]);
      }
    }
  }

  /** `x` is `g` as the tries of the group loop left it: untouched, or
      rewritten by validate_links. */
  predicate VersionOf(x: Game, g: Game, invalid: set<string>, check: (Provider, string) -> bool)
  {
    x == g || x == Validate(g, invalid, check)
  }

  /** A removed list that is, slot by slot, a version of each entry of
      `group` with slot `c` taken out, next to a survivor list that holds
      the validated entry `c` when there is one, loses and invents
      nothing. */
  lemma RemoveAtVersions(group: seq<Game>, t: seq<Game>, c: nat, valid: seq<Game>, removed: seq<Game>,
                         invalid: set<string>, check: (Provider, string) -> bool)
    requires |t| == |group|
    requires forall i | 0 <= i < |t| :: VersionOf(t[i], group[i], invalid, check)
    requires removed == RemoveAt(t, c)
    requires c < |group| ==> valid == [Validate(group[c], invalid, check)]
    ensures forall x | x in removed :: exists i | 0 <= i < |group| :: VersionOf(x, group[i], invalid, check)
    ensures forall i | 0 <= i < |group| ::
      || valid == [Validate(group[i], invalid, check)]
      || group[i] in removed
      || Validate(group[i], invalid, check) in removed
  {
    RemoveAtMembers(t, c);
    forall x | x in removed
      ensures exists i | 0 <= i < |group| :: VersionOf(x, group[i], invalid, check)
    {
      var j :| 0 <= j < |t| && t[j] == x;
      assert VersionOf(t[j], group[j], invalid, check);
    }
    forall i | 0 <= i < |group| && i != c
      ensures group[i] in removed || Validate(group[i], invalid, check) in removed
    {
      assert t[i] in removed;
      assert VersionOf(t[i], group[i], invalid, check);
    }
  }

  /** Nothing lost and nothing invented: every removed entry is a version
      of an entry of the group, and every entry of the group is either the
      source of the survivor or removed in one of its versions. */
  lemma GroupRemovedFacts(group: seq<Game>, invalid: set<string>, check: (Provider, string) -> bool)
    ensures var o := ProcessGameGroup(group, invalid, check);
      forall x | x in o.removed :: exists i | 0 <= i < |group| :: VersionOf(x, group[i], invalid, check)
    ensures var o := ProcessGameGroup(group, invalid, check);
      forall i | 0 <= i < |group| ::
        || o.valid == [Validate(group[i], invalid, check)]
        || group[i] in o.removed
        || Validate(group[i], invalid, check) in o.removed
  {
    var o := ProcessGameGroup(group, invalid, check);
    var cands := Candidates(group);
    match WinnerPos(group, invalid, check)
    case None =>
      var t := TriedState(group, cands, invalid, check);
      assert o.removed == t by {
        GroupValidFacts(group, invalid, check);
      }
      RemoveAtVersions(group, t, |group|, o.valid, o.removed, invalid, check);
    case Some(p) =>
      var t := TriedState(group, cands[..p + 1], invalid, check);
      assert o.removed == RemoveAt(t, cands[p]) by {
        GroupRemovedAt(group, invalid, check);
      }
      assert cands[p] < |group| && o.valid == [Validate(group[cands[p]], invalid, check)] by {
        GroupValidFacts(group, invalid, check);
      }
      RemoveAtVersions(group, t, cands[p], o.valid, o.removed, invalid, check);
  }

  // ---------------------------------------------------------------------
  // process_duplicates

  /** Every link of every game. */
  ghost function AllLinks(games: seq<Game>): set<string>
  {
    set g, link | g in games && link in g.uris :: link
  }

  lemma AllLinksSub(sub: seq<Game>, games: seq<Game>)
    requires forall g | g in sub :: g in games
    ensures AllLinks(sub) <= AllLinks(games)
  {
    forall link | link in AllLinks(sub)
      ensures link in AllLinks(games)
    {
      var g :| g in sub && link in g.uris;
      assert g in games;
    }
  }

  /** One call of process_game_group (corrected) as process_duplicates
      makes it: the survivor, when there is one, is the validated first
      candidate that passes the survival rule; the removed entries are
      versions of entries of the group, and each entry of the group is the
      survivor's source or removed; new invalid links are taken from the
      group's entries. */
  method ProcessGroup(group: seq<Game>, invalid: set<string>, check: (Provider, string) -> bool)
    returns (o: GroupOutcome)
    ensures o == ProcessGameGroup(group, invalid, check)
    ensures |o.valid| <= 1 && |o.valid| + |o.removed| == |group|
    ensures o.valid == (if WinnerOf(group, invalid, check).Some? then [WinnerOf(group, invalid, check).value] else [])
    ensures |o.valid| == 1 ==> exists w | 0 <= w < |group| ::
      o.valid[0] == Validate(group[w], invalid, check) && Acceptable(o.valid[0])
    ensures forall x | x in o.removed :: exists i | 0 <= i < |group| :: VersionOf(x, group[i], invalid, check)
    ensures forall i | 0 <= i < |group| ::
      || o.valid == [Validate(group[i], invalid, check)]
      || group[i] in o.removed
      || Validate(group[i], invalid, check) in o.removed
    ensures o.newInvalid <= AllLinks(group) - invalid
  {
    o := ProcessGameGroup(group, invalid, check);
    ProcessGameGroupFacts(group, invalid, check);
    GroupRemovedFacts(group, invalid, check);
    GroupStepFacts(group, invalid, check);
  }

  /** What one group step contributes to the loop state of
      process_duplicates. */
  lemma GroupStepFacts(group: seq<Game>, invalid: set<string>, check: (Provider, string) -> bool)
    ensures var o := ProcessGameGroup(group, invalid, check);
      && |o.valid| <= 1
      && (|o.valid| == 1 ==> exists w | 0 <= w < |group| ::
            o.valid[0] == Validate(group[w], invalid, check) && Acceptable(o.valid[0]))
      && o.newInvalid <= AllLinks(group) - invalid
  {
    var o := ProcessGameGroup(group, invalid, check);
    ProcessGameGroupFacts(group, invalid, check);
    SurvivorIsNewestAcceptable(group, invalid, check);
    forall link | link in o.newInvalid
      ensures link in AllLinks(group) - invalid
    {
      var j :| 0 <= j < |group| && link in group[j].uris;
      assert group[j] in group;
    }
  }

  /** `v` is the validated version of an eligible game of `games`. */
  ghost predicate SurvivorOf(v: Game, games: seq<Game>, blacklist: seq<Game>, invalid: set<string>,
                             check: (Provider, string) -> bool)
  {
    exists g | g in games :: Eligible(g, blacklist) && v == Validate(g, invalid, check)
  }

  /** The state of the process_duplicates loop after the first `i` groups:
      each survivor is the validated version of an eligible input game and
      passes the survival rule; `pos` records the group each came from, in
      increasing order; new invalid links come from the input. */
  ghost predicate SurvivorInv(games: seq<Game>, blacklist: seq<Game>, invalid: set<string>,
                              check: (Provider, string) -> bool, norm: string -> string, keys: seq<string>,
                              i: nat, valid: seq<Game>, origin: seq<Game>, pos: seq<nat>, newInvalid: set<string>)
  {
    && i <= |keys| && |valid| <= i && |origin| == |valid| && |pos| == |valid|
    && (forall a | 0 <= a < |valid| ::
          && origin[a] in games && Eligible(origin[a], blacklist)
          && valid[a] == Validate(origin[a], invalid, check) && Acceptable(valid[a]))
    && (forall a | 0 <= a < |valid| :: pos[a] < i && norm(valid[a].title) == keys[pos[a]])
    && (forall a, b | 0 <= a < b < |valid| :: pos[a] < pos[b])
    && newInvalid <= AllLinks(games) - invalid
  }

  lemma SurvivorStep(games: seq<Game>, blacklist: seq<Game>, invalid: set<string>,
                     check: (Provider, string) -> bool, norm: string -> string, keys: seq<string>,
                     group: seq<Game>, i: nat, valid: seq<Game>, origin: seq<Game>, pos: seq<nat>,
                     newInvalid: set<string>, o: GroupOutcome, w: nat)
    requires i < |keys|
    requires SurvivorInv(games, blacklist, invalid, check, norm, keys, i, valid, origin, pos, newInvalid)
    requires forall g | g in group :: g in games && Eligible(g, blacklist) && norm(g.title) == keys[i]
    requires |o.valid| <= 1
    requires |o.valid| == 1 ==>
      w < |group| && o.valid[0] == Validate(group[w], invalid, check) && Acceptable(o.valid[0])
    requires o.newInvalid <= AllLinks(games) - invalid
    ensures var one := |o.valid| == 1;
      SurvivorInv(games, blacklist, invalid, check, norm, keys, i + 1, valid + o.valid,
                  origin + (if one then [group[w]] else []), pos + (if one then [i] else []),
                  newInvalid + o.newInvalid)
  {
    if |o.valid| == 1 {
      assert group[w] in group;
    } else {
      assert o.valid == [];
      assert valid + [] == valid && origin + [] == origin && pos + [] == pos;
    }
  }

  lemma SurvivorFinal(games: seq<Game>, blacklist: seq<Game>, invalid: set<string>,
                      check: (Provider, string) -> bool, norm: string -> string, keys: seq<string>,
                      valid: seq<Game>, origin: seq<Game>, pos: seq<nat>, newInvalid: set<string>)
    requires Distinct(keys)
    requires SurvivorInv(games, blacklist, invalid, check, norm, keys, |keys|, valid, origin, pos, newInvalid)
    ensures forall a, b | 0 <= a < b < |valid| :: norm(valid[a].title) != norm(valid[b].title)
    ensures forall a | 0 <= a < |valid| ::
      Acceptable(valid[a]) && SurvivorOf(valid[a], games, blacklist, invalid, check)
  {
    forall a, b | 0 <= a < b < |valid|
      ensures norm(valid[a].title) != norm(valid[b].title)
    {
      assert pos[a] < pos[b];
    }
    forall a | 0 <= a < |valid|
      ensures Acceptable(valid[a])
      ensures SurvivorOf(valid[a], games, blacklist, invalid, check)
    {
      assert origin[a] in games && Eligible(origin[a], blacklist);
    }
  }

  /** The loop of process_duplicates over the groups of `keys`, in order,
      with group step `step`. */
  function FoldGroups(groups: map<string, seq<Game>>, keys: seq<string>,
                      step: seq<Game> -> GroupOutcome): GroupOutcome
    requires forall i | 0 <= i < |keys| :: keys[i] in groups
    decreases |keys|
  {
    if |keys| == 0 then GroupOutcome([], [], {})
    else
      var r := FoldGroups(groups, keys[..|keys| - 1], step);
      var o := step(groups[keys[|keys| - 1]]);
      GroupOutcome(r.valid + o.valid, r.removed + o.removed, r.newInvalid + o.newInvalid)
  }

  /** The corrected group step. */
  function GroupStep(invalid: set<string>, check: (Provider, string) -> bool): seq<Game> -> GroupOutcome
  {
    group => ProcessGameGroup(group, invalid, check)
  }

  function WinnerFn(invalid: set<string>, check: (Provider, string) -> bool): seq<Game> -> Option<Game>
  {
    group => WinnerOf(group, invalid, check)
  }

  /** The keys whose group has a survivor under `win`. */
  function WinKey(groups: map<string, seq<Game>>, win: seq<Game> -> Option<Game>): string -> bool
  {
    k => k in groups && win(groups[k]).Some?
  }

  /** `step` keeps exactly `win(group)` and removes the rest of `group`. */
  ghost predicate StepPicks(step: seq<Game> -> GroupOutcome, win: seq<Game> -> Option<Game>, group: seq<Game>)
  {
    && step(group).valid == (if win(group).Some? then [win(group).value] else [])
    && |step(group).valid| + |step(group).removed| == |group|
  }

  /** `step` removes only versions of entries of `group`, and each entry of
      `group` is its survivor's source or removed. */
  ghost predicate StepKeeps(step: seq<Game> -> GroupOutcome, group: seq<Game>, invalid: set<string>,
                            check: (Provider, string) -> bool)
  {
    && (forall x | x in step(group).removed :: exists i | 0 <= i < |group| :: VersionOf(x, group[i], invalid, check))
    && (forall i | 0 <= i < |group| ::
          || step(group).valid == [Validate(group[i], invalid, check)]
          || group[i] in step(group).removed
          || Validate(group[i], invalid, check) in step(group).removed)
  }

  lemma GroupStepPicks(group: seq<Game>, invalid: set<string>, check: (Provider, string) -> bool)
    ensures StepPicks(GroupStep(invalid, check), WinnerFn(invalid, check), group)
  {
    ProcessGameGroupFacts(group, invalid, check);
  }

  lemma GroupStepKeeps(group: seq<Game>, invalid: set<string>, check: (Provider, string) -> bool)
    ensures StepKeeps(GroupStep(invalid, check), group, invalid, check)
  {
    GroupRemovedFacts(group, invalid, check);
  }

  /** One more group of the loop. */
  lemma FoldGroupsStep(groups: map<string, seq<Game>>, keys: seq<string>, i: nat, step: seq<Game> -> GroupOutcome,
                       r: GroupOutcome, o: GroupOutcome)
    requires i < |keys| && forall k | k in keys :: k in groups
    requires r == FoldGroups(groups, keys[..i], step)
    requires o == step(groups[keys[i]])
    ensures FoldGroups(groups, keys[..i + 1], step)
      == GroupOutcome(r.valid + o.valid, r.removed + o.removed, r.newInvalid + o.newInvalid)
  {
    assert keys[..i + 1][..i] == keys[..i];
  }

  /** The summed size of the groups of `keys`. */
  function GroupSizes(groups: map<string, seq<Game>>, keys: seq<string>): nat
    requires forall i | 0 <= i < |keys| :: keys[i] in groups
    decreases |keys|
  {
    if |keys| == 0 then 0 else GroupSizes(groups, keys[..|keys| - 1]) + |groups[keys[|keys| - 1]]|
  }

  /** With a step that keeps exactly its group's `win`: one survivor for
      each key whose group has one, in key order, and no other. */
  lemma {:induction false} FoldSurvivors(groups: map<string, seq<Game>>, keys: seq<string>,
                                         step: seq<Game> -> GroupOutcome, win: seq<Game> -> Option<Game>)
    requires forall i | 0 <= i < |keys| :: keys[i] in groups
    requires forall k | k in groups :: StepPicks(step, win, groups[k])
    ensures var r := FoldGroups(groups, keys, step);
      var ws := Filter(keys, WinKey(groups, win));
      && |r.valid| == |ws|
      && (forall a | 0 <= a < |ws| :: ws[a] in groups && win(groups[ws[a]]) == Some(r.valid[a]))
    decreases |keys|
  {
    if |keys| > 0 {
      var init := keys[..|keys| - 1];
      var k := keys[|keys| - 1];
      var wk := WinKey(groups, win);
      FoldSurvivors(groups, init, step, win);
      var r0 := FoldGroups(groups, init, step);
      var o := step(groups[k]);
      var r := FoldGroups(groups, keys, step);
      assert StepPicks(step, win, groups[k]);
      assert r.valid == r0.valid + o.valid;
      assert keys == init + [k];
      FilterSnoc(init, k, wk);
      SurvivorsSnoc(groups, win, Filter(init, wk), r0.valid, k, o.valid);
    }
  }

  /** Appending a key's survivors (its `win`, if any) keeps the survivors
      in step with the keys that have one. */
  lemma SurvivorsSnoc(groups: map<string, seq<Game>>, win: seq<Game> -> Option<Game>,
                      ws0: seq<string>, v0: seq<Game>, k: string, ov: seq<Game>)
    requires k in groups
    requires |v0| == |ws0|
    requires forall a | 0 <= a < |ws0| :: ws0[a] in groups && win(groups[ws0[a]]) == Some(v0[a])
    requires ov == (if win(groups[k]).Some? then [win(groups[k]).value] else [])
    ensures var ws := ws0 + (if WinKey(groups, win)(k) then [k] else []);
      && |v0 + ov| == |ws|
      && forall a | 0 <= a < |ws| :: ws[a] in groups && win(groups[ws[a]]) == Some((v0 + ov)[a])
  {
    var ws := ws0 + (if WinKey(groups, win)(k) then [k] else []);
    forall a | 0 <= a < |ws|
      ensures ws[a] in groups && win(groups[ws[a]]) == Some((v0 + ov)[a])
    {
      if a < |ws0| {
        assert ws[a] == ws0[a] && (v0 + ov)[a] == v0[a];
      } else {
        assert ws[a] == k && (v0 + ov)[a] == ov[0];
      }
    }
  }

  /** `x` is a version of an entry of the group of one of `keys`. */
  ghost predicate FromGroups(x: Game, groups: map<string, seq<Game>>, keys: seq<string>, invalid: set<string>,
                             check: (Provider, string) -> bool)
  {
    exists k, i | k in keys && k in groups && 0 <= i < |groups[k]| :: VersionOf(x, groups[k][i], invalid, check)
  }

  /** With a step that keeps or removes each entry of its group once,
      survivors and removed entries together are as many as the groups'
      entries. */
  lemma {:induction false} FoldCount(groups: map<string, seq<Game>>, keys: seq<string>,
                                     step: seq<Game> -> GroupOutcome, win: seq<Game> -> Option<Game>)
    requires forall i | 0 <= i < |keys| :: keys[i] in groups
    requires forall k | k in groups :: StepPicks(step, win, groups[k])
    ensures var r := FoldGroups(groups, keys, step);
      |r.valid| + |r.removed| == GroupSizes(groups, keys)
    decreases |keys|
  {
    if |keys| > 0 {
      var init := keys[..|keys| - 1];
      var k := keys[|keys| - 1];
      FoldCount(groups, init, step, win);
      assert StepPicks(step, win, groups[k]);
    }
  }

  /** With a step that removes only versions of its group's entries: every
      removed entry is a version of an entry of some group. */
  lemma {:induction false} FoldNoneInvented(groups: map<string, seq<Game>>, keys: seq<string>,
                                            step: seq<Game> -> GroupOutcome, invalid: set<string>,
                                            check: (Provider, string) -> bool)
    requires forall i | 0 <= i < |keys| :: keys[i] in groups
    requires forall k | k in groups :: StepKeeps(step, groups[k], invalid, check)
    ensures var r := FoldGroups(groups, keys, step);
      forall x | x in r.removed :: FromGroups(x, groups, keys, invalid, check)
    decreases |keys|
  {
    if |keys| > 0 {
      var init := keys[..|keys| - 1];
      var k := keys[|keys| - 1];
      FoldNoneInvented(groups, init, step, invalid, check);
      var r0 := FoldGroups(groups, init, step);
      var o := step(groups[k]);
      var r := FoldGroups(groups, keys, step);
      assert StepKeeps(step, groups[k], invalid, check);
      assert r.removed == r0.removed + o.removed;
      forall x | x in r.removed
        ensures FromGroups(x, groups, keys, invalid, check)
      {
        if x in r0.removed {
          assert FromGroups(x, groups, init, invalid, check);
          var k', i :| k' in init && k' in groups && 0 <= i < |groups[k']| && VersionOf(x, groups[k'][i], invalid, check);
          var j :| 0 <= j < |init| && init[j] == k';
          assert keys[j] == k';
        } else {
          assert x in o.removed;
          var i :| 0 <= i < |groups[k]| && VersionOf(x, groups[k][i], invalid, check);
          assert keys[|keys| - 1] == k;
        }
      }
    }
  }

  /** With a step that loses no entry of its group: every entry of every
      group is a survivor's source or removed in one of its versions. */
  lemma {:induction false} FoldNoneLost(groups: map<string, seq<Game>>, keys: seq<string>,
                                        step: seq<Game> -> GroupOutcome, invalid: set<string>,
                                        check: (Provider, string) -> bool)
    requires forall i | 0 <= i < |keys| :: keys[i] in groups
    requires forall k | k in groups :: StepKeeps(step, groups[k], invalid, check)
    ensures var r := FoldGroups(groups, keys, step);
      forall k, i | k in keys && k in groups && 0 <= i < |groups[k]| ::
        || Validate(groups[k][i], invalid, check) in r.valid
        || groups[k][i] in r.removed
        || Validate(groups[k][i], invalid, check) in r.removed
    decreases |keys|
  {
    if |keys| > 0 {
      var init := keys[..|keys| - 1];
      var k := keys[|keys| - 1];
      FoldNoneLost(groups, init, step, invalid, check);
      var r0 := FoldGroups(groups, init, step);
      var o := step(groups[k]);
      var r := FoldGroups(groups, keys, step);
      assert StepKeeps(step, groups[k], invalid, check);
      forall k', i | k' in keys && k' in groups && 0 <= i < |groups[k']|
        ensures || Validate(groups[k'][i], invalid, check) in r.valid
                || groups[k'][i] in r.removed
                || Validate(groups[k'][i], invalid, check) in r.removed
      {
        if k' != k {
          var j :| 0 <= j < |keys| && keys[j] == k';
          assert init[j] == k';
        }
      }
    }
  }

  /** One iteration of the group loop keeps both loop invariants; the
      ghost bookkeeping of the survivors' sources is returned. */
  lemma GroupsLoopStep(games: seq<Game>, blacklist: seq<Game>, invalid: set<string>,
                       norm: string -> string, check: (Provider, string) -> bool,
                       keys: seq<string>, groups: map<string, seq<Game>>, i: nat,
                       valid: seq<Game>, removed: seq<Game>, newInvalid: set<string>,
                       origin: seq<Game>, pos: seq<nat>)
    returns (origin': seq<Game>, pos': seq<nat>)
    requires i < |keys|
    requires forall k | k in keys :: k in groups
    requires GroupedFrom(groups, games, blacklist, norm)
    requires SurvivorInv(games, blacklist, invalid, check, norm, keys, i, valid, origin, pos, newInvalid)
    requires GroupOutcome(valid, removed, newInvalid) == FoldGroups(groups, keys[..i], GroupStep(invalid, check))
    ensures var o := ProcessGameGroup(groups[keys[i]], invalid, check);
      && SurvivorInv(games, blacklist, invalid, check, norm, keys, i + 1, valid + o.valid, origin', pos',
                     newInvalid + o.newInvalid)
      && GroupOutcome(valid + o.valid, removed + o.removed, newInvalid + o.newInvalid)
           == FoldGroups(groups, keys[..i + 1], GroupStep(invalid, check))
  {
    var group := groups[keys[i]];
    var o := ProcessGameGroup(group, invalid, check);
    GroupStepFacts(group, invalid, check);
    assert forall g | g in group :: g in games;
    AllLinksSub(group, games);
    var w: nat := 0;
    if |o.valid| == 1 {
      w :| w < |group| && o.valid[0] == Validate(group[w], invalid, check) && Acceptable(o.valid[0]);
    }
    SurvivorStep(games, blacklist, invalid, check, norm, keys, group, i, valid, origin, pos, newInvalid, o, w);
    if |o.valid| == 1 {
      origin', pos' := origin + [group[w]], pos + [i];
    } else {
      origin', pos' := origin, pos;
    }
    assert o == GroupStep(invalid, check)(group);
    FoldGroupsStep(groups, keys, i, GroupStep(invalid, check), GroupOutcome(valid, removed, newInvalid), o);
  }

  /** The loop of process_duplicates over the groups, in key order, with
      the corrected group step. */
  method ProcessGroups(games: seq<Game>, blacklist: seq<Game>, invalid: set<string>,
                       norm: string -> string, check: (Provider, string) -> bool,
                       keys: seq<string>, groups: map<string, seq<Game>>)
    returns (valid: seq<Game>, removed: seq<Game>, newInvalid: set<string>)
    requires Distinct(keys)
    requires forall k | k in keys :: k in groups
    requires GroupedFrom(groups, games, blacklist, norm)
    ensures GroupOutcome(valid, removed, newInvalid) == FoldGroups(groups, keys, GroupStep(invalid, check))
    ensures |valid| <= |keys|
    ensures forall a, b | 0 <= a < b < |valid| :: norm(valid[a].title) != norm(valid[b].title)
    ensures forall a | 0 <= a < |valid| ::
      Acceptable(valid[a]) && SurvivorOf(valid[a], games, blacklist, invalid, check)
    ensures newInvalid <= AllLinks(games) - invalid
  {
    valid := [];
    removed := [];
    ghost var origin: seq<Game> := [];
    ghost var pos: seq<nat> := [];
    newInvalid := {};
    var i := 0;
    while i < |keys|
      invariant SurvivorInv(games, blacklist, invalid, check, norm, keys, i, valid, origin, pos, newInvalid)
      invariant GroupOutcome(valid, removed, newInvalid) == FoldGroups(groups, keys[..i], GroupStep(invalid, check))
    {
      var group := groups[keys[i]];
      var o := ProcessGameGroup(group, invalid, check);
      origin, pos := GroupsLoopStep(games, blacklist, invalid, norm, check, keys, groups, i,
                                    valid, removed, newInvalid, origin, pos);
      valid := valid + o.valid;
      removed := removed + o.removed;
      newInvalid := newInvalid + o.newInvalid;
      i := i + 1;
    }
    assert keys[..i] == keys;
    SurvivorFinal(games, blacklist, invalid, check, norm, keys, valid, origin, pos, newInvalid);
  }

  function EligiblePred(blacklist: seq<Game>): Game -> bool
  {
    g => Eligible(g, blacklist)
  }

  /** The summed size of the groups that the eligible games of `games`
      form under `keys`. */
  function KeyedSizes(games: seq<Game>, blacklist: seq<Game>, norm: string -> string, keys: seq<string>): nat
    decreases |keys|
  {
    if |keys| == 0 then 0
    else KeyedSizes(games, blacklist, norm, keys[..|keys| - 1])
         + |Filter(games, InGroup(blacklist, norm, keys[|keys| - 1]))|
  }

  /** The number of keys of `keys` whose group `g` enters. */
  function Hits(g: Game, blacklist: seq<Game>, norm: string -> string, keys: seq<string>): nat
    decreases |keys|
  {
    if |keys| == 0 then 0
    else Hits(g, blacklist, norm, keys[..|keys| - 1]) + (if InGroup(blacklist, norm, keys[|keys| - 1])(g) then 1 else 0)
  }

  lemma {:induction false} GroupSizesKeyed(games: seq<Game>, blacklist: seq<Game>, norm: string -> string,
                                           groups: map<string, seq<Game>>, keys: seq<string>)
    requires forall i | 0 <= i < |keys| :: keys[i] in groups
    requires forall k | k in groups :: groups[k] == Filter(games, InGroup(blacklist, norm, k))
    ensures GroupSizes(groups, keys) == KeyedSizes(games, blacklist, norm, keys)
    decreases |keys|
  {
    if |keys| > 0 {
      GroupSizesKeyed(games, blacklist, norm, groups, keys[..|keys| - 1]);
    }
  }

  lemma {:induction false} KeyedSizesEmpty(blacklist: seq<Game>, norm: string -> string, keys: seq<string>)
    ensures KeyedSizes([], blacklist, norm, keys) == 0
    decreases |keys|
  {
    if |keys| > 0 {
      KeyedSizesEmpty(blacklist, norm, keys[..|keys| - 1]);
    }
  }

  /** Adding a game in front adds one to each group it enters. */
  lemma {:induction false} KeyedSizesCons(g: Game, rest: seq<Game>, blacklist: seq<Game>, norm: string -> string,
                                          keys: seq<string>)
    ensures KeyedSizes([g] + rest, blacklist, norm, keys)
      == KeyedSizes(rest, blacklist, norm, keys) + Hits(g, blacklist, norm, keys)
    decreases |keys|
  {
    if |keys| > 0 {
      KeyedSizesCons(g, rest, blacklist, norm, keys[..|keys| - 1]);
      var p := InGroup(blacklist, norm, keys[|keys| - 1]);
      assert ([g] + rest)[0] == g && ([g] + rest)[1..] == rest;
      assert |Filter([g] + rest, p)| == |Filter(rest, p)| + (if p(g) then 1 else 0);
    }
  }

  lemma {:induction false} HitsAbsent(g: Game, blacklist: seq<Game>, norm: string -> string, keys: seq<string>)
    requires !Eligible(g, blacklist) || norm(g.title) !in keys
    ensures Hits(g, blacklist, norm, keys) == 0
    decreases |keys|
  {
    if |keys| > 0 {
      var init := keys[..|keys| - 1];
      assert forall k | k in init :: k in keys;
      HitsAbsent(g, blacklist, norm, init);
    }
  }

  /** With distinct keys, an eligible game whose key is listed enters
      exactly one group, and any other game none. */
  lemma {:induction false} HitsOnce(g: Game, blacklist: seq<Game>, norm: string -> string, keys: seq<string>)
    requires Distinct(keys)
    requires Eligible(g, blacklist) ==> norm(g.title) in keys
    ensures Hits(g, blacklist, norm, keys) == if Eligible(g, blacklist) then 1 else 0
    decreases |keys|
  {
    if !Eligible(g, blacklist) {
      HitsAbsent(g, blacklist, norm, keys);
    } else {
      var init := keys[..|keys| - 1];
      var last := keys[|keys| - 1];
      assert keys == init + [last];
      if last == norm(g.title) {
        assert norm(g.title) !in init;
        HitsAbsent(g, blacklist, norm, init);
      } else {
        assert norm(g.title) in init;
        HitsOnce(g, blacklist, norm, init);
      }
    }
  }

  /** With distinct keys covering every eligible game, the groups
      partition the eligible games. */
  lemma {:induction false} KeyedSizesPartition(games: seq<Game>, blacklist: seq<Game>, norm: string -> string,
                                               keys: seq<string>)
    requires Distinct(keys)
    requires forall g | g in games && Eligible(g, blacklist) :: norm(g.title) in keys
    ensures KeyedSizes(games, blacklist, norm, keys) == |Filter(games, EligiblePred(blacklist))|
    decreases |games|
  {
    if |games| == 0 {
      KeyedSizesEmpty(blacklist, norm, keys);
      assert games == [];
    } else {
      var g := games[0];
      var rest := games[1..];
      assert games == [g] + rest;
      assert forall h | h in rest :: h in games;
      KeyedSizesPartition(rest, blacklist, norm, keys);
      KeyedSizesCons(g, rest, blacklist, norm, keys);
      HitsOnce(g, blacklist, norm, keys);
    }
  }

  /** The keys whose group, among the eligible games of `games`, has a
      survivor. */
  function HasGroupWinner(games: seq<Game>, blacklist: seq<Game>, norm: string -> string, invalid: set<string>,
                          check: (Provider, string) -> bool): string -> bool
  {
    k => WinnerOf(Filter(games, InGroup(blacklist, norm, k)), invalid, check).Some?
  }

  /** Every group step picks the group's winner and keeps every entry. */
  lemma GroupStepsHold(groups: map<string, seq<Game>>, invalid: set<string>, check: (Provider, string) -> bool)
    ensures forall k | k in groups :: StepPicks(GroupStep(invalid, check), WinnerFn(invalid, check), groups[k])
    ensures forall k | k in groups :: StepKeeps(GroupStep(invalid, check), groups[k], invalid, check)
  {
    forall k | k in groups
      ensures StepPicks(GroupStep(invalid, check), WinnerFn(invalid, check), groups[k])
      ensures StepKeeps(GroupStep(invalid, check), groups[k], invalid, check)
    {
      GroupStepPicks(groups[k], invalid, check);
      GroupStepKeeps(groups[k], invalid, check);
    }
  }

  /** The survivors of the group loop, stated over the input games: one
      per key whose group has a winner, in key order. */
  lemma DuplicatesSurvivors(games: seq<Game>, blacklist: seq<Game>, norm: string -> string, invalid: set<string>,
        check: (Provider, string) -> bool, keys: seq<string>, groups: map<string, seq<Game>>)
    requires keys == Dedup(EligibleKeys(games, blacklist, norm))
    requires forall k :: k in groups <==> k in keys
    requires forall k | k in groups :: groups[k] == Filter(games, InGroup(blacklist, norm, k))
    requires GroupedFrom(groups, games, blacklist, norm)
    requires GroupsCover(groups, games, blacklist, norm)
    ensures var r := FoldGroups(groups, keys, GroupStep(invalid, check));
      var ws := Filter(keys, HasGroupWinner(games, blacklist, norm, invalid, check));
      && |r.valid| == |ws|
      && forall a | 0 <= a < |ws| :: WinnerOf(Filter(games, InGroup(blacklist, norm, ws[a])), invalid, check) == Some(r.valid[a])
  {
    GroupStepsHold(groups, invalid, check);
    FoldSurvivors(groups, keys, GroupStep(invalid, check), WinnerFn(invalid, check));
    FilterSame(keys, WinKey(groups, WinnerFn(invalid, check)), HasGroupWinner(games, blacklist, norm, invalid, check));
  }

  /** Survivors and removed entries of the group loop are together as many
      as the eligible games. */
  lemma DuplicatesCount(games: seq<Game>, blacklist: seq<Game>, norm: string -> string, invalid: set<string>,
        check: (Provider, string) -> bool, keys: seq<string>, groups: map<string, seq<Game>>)
    requires keys == Dedup(EligibleKeys(games, blacklist, norm))
    requires forall k :: k in groups <==> k in keys
    requires forall k | k in groups :: groups[k] == Filter(games, InGroup(blacklist, norm, k))
    requires GroupedFrom(groups, games, blacklist, norm)
    requires GroupsCover(groups, games, blacklist, norm)
    ensures var r := FoldGroups(groups, keys, GroupStep(invalid, check));
      |r.valid| + |r.removed| == |Filter(games, EligiblePred(blacklist))|
  {
    GroupStepsHold(groups, invalid, check);
    FoldCount(groups, keys, GroupStep(invalid, check), WinnerFn(invalid, check));
    DedupFacts(EligibleKeys(games, blacklist, norm));
    GroupSizesKeyed(games, blacklist, norm, groups, keys);
    KeyedSizesPartition(games, blacklist, norm, keys);
  }

  /** The group loop, stated over the input games, invents no entry and
      loses none. */
  lemma DuplicatesMembers(games: seq<Game>, blacklist: seq<Game>, norm: string -> string, invalid: set<string>,
        check: (Provider, string) -> bool, keys: seq<string>, groups: map<string, seq<Game>>)
    requires keys == Dedup(EligibleKeys(games, blacklist, norm))
    requires forall k :: k in groups <==> k in keys
    requires forall k | k in groups :: groups[k] == Filter(games, InGroup(blacklist, norm, k))
    requires GroupedFrom(groups, games, blacklist, norm)
    requires GroupsCover(groups, games, blacklist, norm)
    ensures var r := FoldGroups(groups, keys, GroupStep(invalid, check));
      forall x | x in r.removed :: exists g | g in games && Eligible(g, blacklist) :: VersionOf(x, g, invalid, check)
    ensures var r := FoldGroups(groups, keys, GroupStep(invalid, check));
      forall g | g in games && Eligible(g, blacklist) ::
        Validate(g, invalid, check) in r.valid || g in r.removed || Validate(g, invalid, check) in r.removed
  {
    var r := FoldGroups(groups, keys, GroupStep(invalid, check));
    GroupStepsHold(groups, invalid, check);
    FoldNoneInvented(groups, keys, GroupStep(invalid, check), invalid, check);
    FoldNoneLost(groups, keys, GroupStep(invalid, check), invalid, check);
    DedupFacts(EligibleKeys(games, blacklist, norm));
    EligibleKeysCover(games, blacklist, norm);
    forall g | g in games && Eligible(g, blacklist)
      ensures norm(g.title) in keys
    {
      var j :| 0 <= j < |games| && games[j] == g;
    }
    forall x | x in r.removed
      ensures exists g | g in games && Eligible(g, blacklist) :: VersionOf(x, g, invalid, check)
    {
      assert FromGroups(x, groups, keys, invalid, check);
      var k, i :| k in keys && k in groups && 0 <= i < |groups[k]| && VersionOf(x, groups[k][i], invalid, check);
      assert groups[k][i] in groups[k];
    }
    forall g | g in games && Eligible(g, blacklist)
      ensures Validate(g, invalid, check) in r.valid || g in r.removed || Validate(g, invalid, check) in r.removed
    {
      var k := norm(g.title);
      var i :| 0 <= i < |groups[k]| && groups[k][i] == g;
    }
  }

  /** process_duplicates (with the corrected group step): exactly one
      survivor for each key, in order of first appearance, whose group has
      a candidate that passes the survival rule, namely that group's
      validated first such candidate; the survivors have pairwise distinct
      normalized titles. The removed entries are the eligible games less
      each survivor's source: nothing lost, nothing invented, and
      survivors and removed entries together as many as the eligible
      games. */
  method ProcessDuplicates(games: seq<Game>, blacklist: seq<Game>, invalid: set<string>,
                           norm: string -> string, check: (Provider, string) -> bool)
    returns (valid: seq<Game>, removed: seq<Game>, invalidOut: set<string>)
    ensures forall a, b | 0 <= a < b < |valid| :: norm(valid[a].title) != norm(valid[b].title)
    ensures forall a | 0 <= a < |valid| ::
      Acceptable(valid[a]) && SurvivorOf(valid[a], games, blacklist, invalid, check)
    ensures |valid| <= |Dedup(EligibleKeys(games, blacklist, norm))|
    ensures var ws := Filter(Dedup(EligibleKeys(games, blacklist, norm)), HasGroupWinner(games, blacklist, norm, invalid, check));
      && |valid| == |ws|
      && forall a | 0 <= a < |ws| :: WinnerOf(Filter(games, InGroup(blacklist, norm, ws[a])), invalid, check) == Some(valid[a])
    ensures |valid| + |removed| == |Filter(games, EligiblePred(blacklist))|
    ensures forall x | x in removed :: exists g | g in games && Eligible(g, blacklist) :: VersionOf(x, g, invalid, check)
    ensures forall g | g in games && Eligible(g, blacklist) ::
      Validate(g, invalid, check) in valid || g in removed || Validate(g, invalid, check) in removed
    ensures invalid <= invalidOut
    ensures invalidOut - invalid <= AllLinks(games)
  {
    var keys, groups := GroupGames(games, blacklist, norm);
    var newInvalid;
    valid, removed, newInvalid := ProcessGroups(games, blacklist, invalid, norm, check, keys, groups);
    DuplicatesSurvivors(games, blacklist, norm, invalid, check, keys, groups);
    DuplicatesCount(games, blacklist, norm, invalid, check, keys, groups);
    DuplicatesMembers(games, blacklist, norm, invalid, check, keys, groups);
    invalidOut := invalid + newInvalid;
  }
}

=== FILE: rework.dfy ===
/** The catalog rebuild of rework_scraper.py: title normalization, the
    five-host link test, per-game link validation with the size label, the
    pairwise duplicate decision and the one-entry-per-title pass.

    The host probes are parameters, gathered in `Probes`: the file-size
    label a qiwi, datanodes or pixeldrain probe reports for a live link, the
    WebDriver page check of a MediaFire link, the MediaFire `get_info`
    reply for a quick key, and the two-decimal text of a size in a unit. */
module Rework {

  import opened Options
  import opened Strings
  import opened Seqs
  import opened Catalog

  // ---------------------------------------------------------------------
  // normalize_title

  /** The end of the run of white space that starts at position `i`. */
  function SpaceRun(s: string, i: nat): (n: nat)
    requires i <= |s|
    ensures i <= n <= |s|
    decreases |s| - i
  {
    if i < |s| && IsSpace(s[i]) then SpaceRun(s, i + 1) else i
  }

  /** The run is maximal: white space up to its end, none at it. */
  lemma {:induction false} SpaceRunSpaces(s: string, i: nat)
    requires i <= |s|
    ensures forall j | i <= j < SpaceRun(s, i) :: IsSpace(s[j])
    ensures SpaceRun(s, i) < |s| ==> !IsSpace(s[SpaceRun(s, i)])
    decreases |s| - i
  {
    if i < |s| && IsSpace(s[i]) {
      SpaceRunSpaces(s, i + 1);
    }
  }

  lemma {:induction false} SpaceRunTo(s: string, i: nat, e: nat)
    requires i <= e < |s|
    requires forall j | i <= j < e :: IsSpace(s[j])
    requires !IsSpace(s[e])
    ensures SpaceRun(s, i) == e
    decreases e - i
  {
    if i < e {
      SpaceRunTo(s, i + 1, e);
    }
  }

  /** Where the lazy `.*?` of the pattern stops when it starts at `i`: the
      first `)` from there on, provided no line break (which `.` does not
      match) comes first. */
  function CloseAt(s: string, i: nat): (r: Option<nat>)
    requires i <= |s|
    ensures r.Some? ==> i <= r.value < |s| && s[r.value] == ')'
    decreases |s| - i
  {
    if i == |s| || s[i] == '\n' then None
    else if s[i] == ')' then Some(i)
    else CloseAt(s, i + 1)
  }

  /** CloseAt finds the first `)` exactly when no line break precedes it. */
  lemma {:induction false} CloseAtFirst(s: string, i: nat)
    requires i <= |s|
    ensures CloseAt(s, i).Some? ==> forall j | i <= j < CloseAt(s, i).value :: s[j] != ')' && s[j] != '\n'
    ensures CloseAt(s, i).None? ==> forall j | i <= j < |s| && s[j] == ')' :: exists l :: i <= l < j && s[l] == '\n'
    decreases |s| - i
  {
    if i < |s| && s[i] != '\n' && s[i] != ')' {
      CloseAtFirst(s, i + 1);
    }
  }

  lemma {:induction false} CloseAtNone(s: string, i: nat)
    requires i <= |s|
    requires forall j | i <= j < |s| :: s[j] != ')'
    ensures CloseAt(s, i) == None
    decreases |s| - i
  {
    if i < |s| {
      CloseAtNone(s, i + 1);
    }
  }

  /** The lazy `.*?` runs to a final `)` when nothing before it closes or
      breaks the line. */
  lemma {:induction false} CloseAtEnd(s: string, i: nat)
    requires i < |s| && s[|s| - 1] == ')'
    requires forall j | i <= j < |s| - 1 :: s[j] != ')' && s[j] != '\n'
    ensures CloseAt(s, i) == Some(|s| - 1)
    decreases |s| - i
  {
    if i < |s| - 1 {
      CloseAtEnd(s, i + 1);
    }
  }

  /** The end of the match of `\s*\(.*?\)` that starts at `i`, if any.
      Giving back white space to the `\s*` cannot help: the `(` would then
      face a white-space character. */
  function GroupMatch(s: string, i: nat): (r: Option<nat>)
    requires i <= |s|
    ensures r.Some? ==> i + 2 <= r.value <= |s|
  {
    var n := SpaceRun(s, i);
    if n < |s| && s[n] == '(' then
      match CloseAt(s, n + 1)
      case None => None
      case Some(k) => Some(k + 1)
    else None
  }

  /** `re.sub(r"\s*\(.*?\)", "", s[i..])`: scanning from the left, each
      match is dropped and every other character copied. */
  function DropFrom(s: string, i: nat): (r: string)
    requires i <= |s|
    ensures |r| <= |s| - i
    decreases |s| - i
  {
    if i == |s| then ""
    else match GroupMatch(s, i)
      case Some(m) => DropFrom(s, m)
      case None => [s[i]] + DropFrom(s, i + 1)
  }

  /** normalize_title: groups removed, then `strip()`, then `lower()`. */
  function NormalizeTitle(title: string): string
  {
    Lower(Strip(DropFrom(title, 0)))
  }

  /** A normalized title has no upper-case letter and no white space at
      either end, so normalizing twice changes nothing in case or margins. */
  lemma NormalizeShape(title: string)
    ensures forall i | 0 <= i < |NormalizeTitle(title)| :: !('A' <= NormalizeTitle(title)[i] <= 'Z')
    ensures |NormalizeTitle(title)| > 0 ==>
      !IsSpace(NormalizeTitle(title)[0]) && !IsSpace(NormalizeTitle(title)[|NormalizeTitle(title)| - 1])
  {
    LowerShape(Strip(DropFrom(title, 0)));
  }

  /** Without a `)` there is nothing to match. */
  lemma {:induction false} DropFromPlain(s: string, i: nat)
    requires i <= |s|
    requires forall j | i <= j < |s| :: s[j] != ')'
    ensures DropFrom(s, i) == s[i..]
    decreases |s| - i
  {
    if i < |s| {
      var n := SpaceRun(s, i);
      if n < |s| && s[n] == '(' {
        CloseAtNone(s, n + 1);
      }
      DropFromPlain(s, i + 1);
      assert s[i..] == [s[i]] + s[i + 1..];
    }
  }

  /** When the text from `p` on is dropped entirely and the text from `i`
      to `p` has no `(` and does not end in white space, the substitution
      keeps exactly the text from `i` to `p`. */
  lemma {:induction false} DropTail(s: string, i: nat, p: nat)
    requires i <= p <= |s|
    requires forall j | i <= j < p :: s[j] != '('
    requires i == p || !IsSpace(s[p - 1])
    requires DropFrom(s, p) == ""
    ensures DropFrom(s, i) == s[i..p]
    decreases p - i
  {
    if i < p {
      SpaceRunSpaces(s, i);
      var n := SpaceRun(s, i);
      assert n < p;
      assert s[n] != '(';
      DropTail(s, i + 1, p);
      assert s[i..p] == [s[i]] + s[i + 1..p];
    }
  }

  /** A title with a "(...)" suffix falls in the group of the bare title. */
  lemma SuffixSameGroup(b: string, w: string, x: string)
    requires '(' !in b && ')' !in b
    requires |b| == 0 || !IsSpace(b[|b| - 1])
    requires forall i | 0 <= i < |w| :: IsSpace(w[i])
    requires ')' !in x && '\n' !in x
    ensures NormalizeTitle(b + w + "(" + x + ")") == NormalizeTitle(b)
  {
    var s := b + w + "(" + x + ")";
    var o := |b| + |w|;
    assert |s| == o + |x| + 2;
    forall j | 0 <= j < |b|
      ensures s[j] == b[j]
    {
    }
    forall j | |b| <= j < o
      ensures IsSpace(s[j])
    {
      assert s[j] == w[j - |b|];
    }
    assert s[o] == '(';
    forall j | o + 1 <= j < |s| - 1
      ensures s[j] != ')' && s[j] != '\n'
    {
      assert s[j] == x[j - o - 1];
    }
    assert s[|s| - 1] == ')';
    SpaceRunTo(s, |b|, o);
    CloseAtEnd(s, o + 1);
    assert GroupMatch(s, |b|) == Some(|s|);
    assert DropFrom(s, |b|) == "";
    DropTail(s, 0, |b|);
    assert s[0..|b|] == b;
    DropFromPlain(b, 0);
    assert b[0..] == b;
  }

  // ---------------------------------------------------------------------
  // is_valid_link

  /** is_valid_link of this script: five hosts; gofile is not one of them. */
  predicate IsValidLink(link: string)
  {
    Contains(link, FichierDomain) || Contains(link, PixeldrainDomain)
    || Contains(link, MediafireDomain) || Contains(link, DatanodesDomain)
    || Contains(link, QiwiDomain)
  }

  // ---------------------------------------------------------------------
  // format_size

  /** format_size as written: its GB branch has the format specification
      `::.2f`, which Python rejects with a ValueError, so a size of 1024^3
      bytes or more yields no text at all. */
  function FormatSizeAsWritten(bytes: int): (r: Option<SizeUnit>)
    ensures r.None? <==> bytes >= 1024 * 1024 * 1024
    ensures r.Some? ==> r.value == SizeUnitOf(bytes)
  {
    if bytes < 1024 * 1024 then Some(KB)
    else if bytes < 1024 * 1024 * 1024 then Some(MB)
    else None
  }

  /** format_size as evidently intended (`:.2f` in the GB branch too). */
  function FormatSize(bytes: int): (r: Option<SizeUnit>)
    ensures r.Some?
    ensures r.value != KB ==> Divisor(r.value) <= bytes
    ensures r.value != GB ==> bytes < 1024 * Divisor(r.value)
  {
    Some(SizeUnitOf(bytes))
  }

  // ---------------------------------------------------------------------
  // validate_mediafire_link and the probes

  /** The parts of a successful MediaFire `get_info` reply that are read. */
  datatype MediafireInfo = MediafireInfo(size: int, filename: string)

  /** The outcomes of the network probes. `probe(p, link)` is the size label
      reported for a live qiwi, datanodes or pixeldrain link (`None` for a
      dead link, a torrent, a missing size or any exception);
      `browserOk(link)` is the WebDriver check of a MediaFire page;
      `api(key)` the `get_info` reply (`None` for a non-200 status, a result
      other than "Success" or an exception); `sizeText(bytes, unit)` the
      two-decimal size text. */
  datatype Probes = Probes(
    probe: (Provider, string) -> Option<string>,
    browserOk: string -> bool,
    api: string -> Option<MediafireInfo>,
    sizeText: (int, SizeUnit) -> string)

  /** validate_mediafire_link with a given size formatter: the page check,
      a non-empty quick key, a successful reply whose file name has no
      ".torrent", and a formatted size. */
  function MediafireCheck(link: string, c: Probes, format: int -> Option<SizeUnit>): (r: Option<string>)
    ensures r.Some? ==> c.browserOk(link)
    ensures r.Some? ==> exists key :: KeyAfterFile(link) == Some(key) && key != "" && c.api(key).Some?
  {
    if !c.browserOk(link) then None
    else match KeyAfterFile(link)
      case None => None
      case Some(key) =>
        if key == "" then None
        else match c.api(key)
          case None => None
          case Some(info) =>
            if Contains(Lower(info.filename), ".torrent") then None
            else match format(info.size)
              case None => None
              case Some(u) => Some(c.sizeText(info.size, u))
  }

  /** The MediaFire check as written rejects every file of 1024^3 bytes or
      more that the intended check accepts. */
  lemma LargeMediafireRejected(link: string, c: Probes, key: string, info: MediafireInfo)
    requires c.browserOk(link) && KeyAfterFile(link) == Some(key) && key != ""
    requires c.api(key) == Some(info) && !Contains(Lower(info.filename), ".torrent")
    requires info.size >= 1024 * 1024 * 1024
    ensures MediafireCheck(link, c, FormatSizeAsWritten) == None
    ensures MediafireCheck(link, c, FormatSize) == Some(c.sizeText(info.size, GB))
  {
  }

  /** The first of qiwi, datanodes, pixeldrain, mediafire the link mentions:
      the hosts validate_links sends to a probe. */
  function Dispatch(link: string): Option<Provider>
  {
    if Contains(link, QiwiDomain) then Some(Qiwi)
    else if Contains(link, DatanodesDomain) then Some(Datanodes)
    else if Contains(link, PixeldrainDomain) then Some(Pixeldrain)
    else if Contains(link, MediafireDomain) then Some(Mediafire)
    else None
  }

  /** A dispatched link goes to a probing host it names, never gofile; a
      link is left undispatched exactly when it names none of the four. */
  lemma DispatchFacts(link: string)
    ensures Dispatch(link).Some? ==> Dispatch(link).value != Gofile && Contains(link, DomainOf(Dispatch(link).value))
    ensures Dispatch(link).None? <==> !Contains(link, QiwiDomain) && !Contains(link, DatanodesDomain)
                                      && !Contains(link, PixeldrainDomain) && !Contains(link, MediafireDomain)
  {
  }

  /** The size label the probe of a dispatched link reports, `None` when it
      rejects the link (the MediaFire check with the intended formatter). */
  function Probe(link: string, c: Probes): Option<string>
  {
    match Dispatch(link)
    case None => None
    case Some(p) => if p == Mediafire then MediafireCheck(link, c, FormatSize) else c.probe(p, link)
  }

  // ---------------------------------------------------------------------
  // validate_links

  function TaskPred(): string -> bool
  {
    link => Dispatch(link).Some?
  }

  function DirectPred(): string -> bool
  {
    link => Dispatch(link).None? && IsValidLink(link)
  }

  function PassPred(c: Probes): string -> bool
  {
    link => Probe(link, c).Some?
  }

  /** The game validate_links returns: the directly accepted links, then
      the probed links that passed, each group in input order; the size
      label of the last passing probe; no links at all when a single
      1fichier link is left. */
  function Validated(game: Game, c: Probes): Game
  {
    var tasks := Filter(game.uris, TaskPred());
    var results := ProbeAll(tasks, c);
    var kept := Filter(game.uris, DirectPred()) + Passing(tasks, results);
    var g := game.(uris := kept, fileSize := LastSize(results, game.fileSize));
    if |kept| == 1 && Contains(kept[0], FichierDomain) then g.(uris := []) else g
  }

  /** The dispatch loop of validate_links: links sent to a probe, and
      links accepted on their host alone. */
  method SplitLinks(uris: seq<string>) returns (direct: seq<string>, tasks: seq<string>)
    ensures direct == Filter(uris, DirectPred())
    ensures tasks == Filter(uris, TaskPred())
  {
    direct := [];
    tasks := [];
    var i := 0;
    while i < |uris|
      invariant i <= |uris|
      invariant direct == Filter(uris[..i], DirectPred())
      invariant tasks == Filter(uris[..i], TaskPred())
    {
      var link := uris[i];
      assert uris[..i + 1] == uris[..i] + [link];
      FilterSnoc(uris[..i], link, DirectPred());
      FilterSnoc(uris[..i], link, TaskPred());
      if Dispatch(link).Some? {
        tasks := tasks + [link];
      } else if IsValidLink(link) {
        direct := direct + [link];
      }
      i := i + 1;
    }
    assert uris[..i] == uris;
  }

  /** What `asyncio.gather` hands back: the probe outcome of every task,
      in task order. */
  function ProbeAll(tasks: seq<string>, c: Probes): (r: seq<Option<string>>)
    ensures |r| == |tasks|
    ensures forall j | 0 <= j < |tasks| :: r[j] == Probe(tasks[j], c)
  {
    seq(|tasks|, j requires 0 <= j < |tasks| => Probe(tasks[j], c))
  }

  /** The tasks whose outcome is a success, in task order. */
  function Passing(tasks: seq<string>, results: seq<Option<string>>): seq<string>
    requires |results| == |tasks|
    decreases |tasks|
  {
    if |tasks| == 0 then []
    else
      var n := |tasks| - 1;
      Passing(tasks[..n], results[..n]) + (if results[n].Some? then [tasks[n]] else [])
  }

  /** The label of the last success among the outcomes, `init` when none. */
  function LastSize(results: seq<Option<string>>, init: string): string
    decreases |results|
  {
    if |results| == 0 then init
    else match results[|results| - 1]
      case Some(size) => size
      case None => LastSize(results[..|results| - 1], init)
  }

  /** The result loop of validate_links: the passing links in task order,
      each overwriting the size label. */
  method ReadResults(tasks: seq<string>, results: seq<Option<string>>, init: string)
    returns (passed: seq<string>, size: string)
    requires |results| == |tasks|
    ensures passed == Passing(tasks, results)
    ensures size == LastSize(results, init)
  {
    passed := [];
    size := init;
    var j := 0;
    while j < |tasks|
      invariant j <= |tasks|
      invariant passed == Passing(tasks[..j], results[..j])
      invariant size == LastSize(results[..j], init)
    {
      assert tasks[..j + 1][..j] == tasks[..j];
      assert results[..j + 1][..j] == results[..j];
      if results[j].Some? {
        size := results[j].value;
        passed := passed + [tasks[j]];
      }
      j := j + 1;
    }
    assert tasks[..j] == tasks;
    assert results[..j] == results;
  }

  /** Reading the gathered outcomes is filtering the tasks by their probe. */
  lemma {:induction false} PassingIsFilter(tasks: seq<string>, c: Probes)
    ensures Passing(tasks, ProbeAll(tasks, c)) == Filter(tasks, PassPred(c))
    decreases |tasks|
  {
    if |tasks| > 0 {
      var n := |tasks| - 1;
      assert ProbeAll(tasks, c)[..n] == ProbeAll(tasks[..n], c);
      PassingIsFilter(tasks[..n], c);
      assert tasks == tasks[..n] + [tasks[n]];
      FilterSnoc(tasks[..n], tasks[n], PassPred(c));
    }
  }

  /** validate_links. */
  method ValidateLinks(game: Game, c: Probes) returns (r: Game)
    ensures r == Validated(game, c)
  {
    var direct, tasks := SplitLinks(game.uris);
    var results := ProbeAll(tasks, c);
    var passed, size := ReadResults(tasks, results, game.fileSize);
    var valid := direct + passed;
    r := game.(uris := valid, fileSize := size);
    if |valid| == 1 && Contains(valid[0], FichierDomain) {
      r := r.(uris := []);
    }
  }

  /** The size label is the label of the last success, or the old one when
      nothing succeeded. */
  lemma {:induction false} LastSizeLast(results: seq<Option<string>>, init: string)
    ensures (forall j | 0 <= j < |results| :: results[j].None?) ==> LastSize(results, init) == init
    ensures forall j | 0 <= j < |results| && results[j].Some?
                       && (forall k | j < k < |results| :: results[k].None?) ::
      LastSize(results, init) == results[j].value
    decreases |results|
  {
    if |results| > 0 {
      var front := results[..|results| - 1];
      LastSizeLast(front, init);
      forall j | 0 <= j < |results| - 1
        ensures results[j] == front[j]
      {
      }
    }
  }

  /** What validate_links keeps: only title-independent fields change, every
      kept link is an input link on one of the five hosts (so a gofile link
      is never kept), only 1fichier links bypass the probes, and a single
      1fichier link is never left on its own. */
  lemma ValidatedSound(game: Game, c: Probes)
    ensures var r := Validated(game, c);
      && r.title == game.title && r.uploadDate == game.uploadDate && r.source == game.source
      && (forall i | 0 <= i < |r.uris| :: r.uris[i] in game.uris && IsValidLink(r.uris[i]))
      && (forall i | 0 <= i < |r.uris| :: Dispatch(r.uris[i]).None? ==> Contains(r.uris[i], FichierDomain))
      && (forall i | 0 <= i < |r.uris| :: Dispatch(r.uris[i]).Some? ==> Probe(r.uris[i], c).Some?)
      && !(|r.uris| == 1 && Contains(r.uris[0], FichierDomain))
  {
    var tasks := Filter(game.uris, TaskPred());
    var direct := Filter(game.uris, DirectPred());
    var passed := Filter(tasks, PassPred(c));
    PassingIsFilter(tasks, c);
    FilterMembers(game.uris, TaskPred());
    FilterMembers(game.uris, DirectPred());
    FilterMembers(tasks, PassPred(c));
    var kept := direct + passed;
    forall i | 0 <= i < |kept|
      ensures kept[i] in game.uris && IsValidLink(kept[i])
      ensures Dispatch(kept[i]).None? ==> Contains(kept[i], FichierDomain)
      ensures Dispatch(kept[i]).Some? ==> Probe(kept[i], c).Some?
    {
      if i < |direct| {
        assert kept[i] == direct[i];
        assert DirectPred()(direct[i]);
        DispatchFacts(kept[i]);
      } else {
        assert kept[i] == passed[i - |direct|];
        assert PassPred(c)(passed[i - |direct|]);
        assert passed[i - |direct|] in tasks;
      }
    }
  }

  /** validate_links keeps every link accepted on its host alone and every
      probed link whose probe succeeds; the only exception is the lone
      1fichier link the last rule drops, which leaves no link at all. */
  lemma ValidatedComplete(game: Game, c: Probes)
    ensures var r := Validated(game, c);
      forall link | link in game.uris && (DirectPred()(link) || (TaskPred()(link) && PassPred(c)(link))) ::
        link in r.uris || (r.uris == [] && Contains(link, FichierDomain))
  {
    var kept := Filter(game.uris, DirectPred()) + Filter(Filter(game.uris, TaskPred()), PassPred(c));
    KeptComplete(game.uris, c);
    PassingIsFilter(Filter(game.uris, TaskPred()), c);
    var r := Validated(game, c);
    assert r.uris == kept || (|kept| == 1 && Contains(kept[0], FichierDomain) && r.uris == []);
    forall link | link in kept && link !in r.uris
      ensures r.uris == [] && Contains(link, FichierDomain)
    {
      assert link == kept[0];
    }
  }

  /** Before the 1fichier rule, the kept links are the direct ones followed
      by the probed ones that pass, so every such input link is kept. */
  lemma KeptComplete(uris: seq<string>, c: Probes)
    ensures forall link | link in uris && (DirectPred()(link) || (TaskPred()(link) && PassPred(c)(link))) ::
      link in Filter(uris, DirectPred()) + Filter(Filter(uris, TaskPred()), PassPred(c))
  {
    var tasks := Filter(uris, TaskPred());
    var direct := Filter(uris, DirectPred());
    var passed := Filter(tasks, PassPred(c));
    FilterMembers(uris, TaskPred());
    FilterMembers(uris, DirectPred());
    FilterMembers(tasks, PassPred(c));
    forall link | link in uris && (DirectPred()(link) || (TaskPred()(link) && PassPred(c)(link)))
      ensures link in direct + passed
    {
      var m :| 0 <= m < |uris| && uris[m] == link;
      if DirectPred()(link) {
        assert DirectPred()(uris[m]);
        assert link in direct;
      } else {
        assert TaskPred()(uris[m]);
        var q :| 0 <= q < |tasks| && tasks[q] == link;
        assert PassPred(c)(tasks[q]);
        assert link in passed;
      }
    }
  }

  // ---------------------------------------------------------------------
  // decide_game_to_keep

  function KnownPred(): string -> bool
  {
    link => IsValidLink(link)
  }

  /** decide_game_to_keep's choice of the new game over the existing one:
      known-host links first, then an online title, then a strictly later
      date when both are dated; otherwise the existing game stays. */
  predicate KeepsNew(existing: Game, newGame: Game)
  {
    var el := |Filter(existing.uris, KnownPred())| > 0;
    var nl := |Filter(newGame.uris, KnownPred())| > 0;
    if !nl && el then false
    else if !el && nl then true
    else
      var eo := IsOnlineTitle(existing.title);
      var no := IsOnlineTitle(newGame.title);
      if eo && !no then false
      else if no && !eo then true
      else if existing.uploadDate.Some? && newGame.uploadDate.Some? then
        newGame.uploadDate.value > existing.uploadDate.value
      else false
  }

  /** decide_game_to_keep: always one of its two arguments. */
  function DecideGameToKeep(existing: Game, newGame: Game): (r: Game)
    ensures r == existing || r == newGame
  {
    if KeepsNew(existing, newGame) then newGame else existing
  }

  /** The game has a link on one of the five hosts. */
  predicate HasKnownLink(g: Game)
  {
    exists i | 0 <= i < |g.uris| :: IsValidLink(g.uris[i])
  }

  /** The first two criteria as one number: 2 for known-host links, 1 for
      an online title. */
  function Standing(g: Game): nat
  {
    (if HasKnownLink(g) then 2 else 0) + (if IsOnlineTitle(g.title) then 1 else 0)
  }

  /** `n` beats `e` lexicographically: a higher standing, or the same
      standing and a strictly later date with both dated. */
  predicate Outranks(n: Game, e: Game)
  {
    Standing(n) > Standing(e)
    || (Standing(n) == Standing(e) && n.uploadDate.Some? && e.uploadDate.Some?
        && n.uploadDate.value > e.uploadDate.value)
  }

  lemma KnownLinksNonEmpty(g: Game)
    ensures |Filter(g.uris, KnownPred())| > 0 <==> HasKnownLink(g)
  {
    FilterMembers(g.uris, KnownPred());
    if HasKnownLink(g) {
      var i :| 0 <= i < |g.uris| && IsValidLink(g.uris[i]);
      assert KnownPred()(g.uris[i]);
    }
    if |Filter(g.uris, KnownPred())| > 0 {
      var l := Filter(g.uris, KnownPred())[0];
      assert KnownPred()(l);
      var i :| 0 <= i < |g.uris| && g.uris[i] == l;
    }
  }

  /** The if-chain of decide_game_to_keep is the lexicographic order on
      (standing, date); so ties and a missing date keep the existing game. */
  lemma DecidePrecedence(existing: Game, newGame: Game)
    ensures KeepsNew(existing, newGame) <==> Outranks(newGame, existing)
    ensures Standing(newGame) == Standing(existing)
            && (existing.uploadDate.None? || newGame.uploadDate.None?) ==>
            DecideGameToKeep(existing, newGame) == existing
  {
    KnownLinksNonEmpty(existing);
    KnownLinksNonEmpty(newGame);
  }

  // ---------------------------------------------------------------------
  // process_duplicates
  //
  // The grouping is stated for any key function `norm` and any validator
  // `validate`; process_duplicates uses NormalizeTitle and Validated.

  /** The key of every game, in input order. */
  function TitleKeys(games: seq<Game>, norm: string -> string): (r: seq<string>)
    ensures |r| == |games|
    ensures forall i | 0 <= i < |games| :: r[i] == norm(games[i].title)
  {
    seq(|games|, i requires 0 <= i < |games| => norm(games[i].title))
  }

  /** The keys of `grouped_games` in insertion order. */
  function GroupKeys(games: seq<Game>, norm: string -> string): seq<string>
  {
    Dedup(TitleKeys(games, norm))
  }

  function SameTitle(norm: string -> string, key: string): Game -> bool
  {
    (g: Game) => norm(g.title) == key
  }

  /** `grouped_games[key]`: the games with that key, in input order. */
  function Group(games: seq<Game>, norm: string -> string, key: string): seq<Game>
  {
    Filter(games, SameTitle(norm, key))
  }

  lemma KeyHasGroup(games: seq<Game>, norm: string -> string, key: string)
    requires key in TitleKeys(games, norm)
    ensures |Group(games, norm, key)| > 0
  {
    var i :| 0 <= i < |games| && TitleKeys(games, norm)[i] == key;
    FilterMembers(games, SameTitle(norm, key));
    assert SameTitle(norm, key)(games[i]);
  }

  /** Position of `best_game` after `best = decide_game_to_keep(best, g)`
      over the group from its first element on. */
  function BestIndex(group: seq<Game>): (b: nat)
    requires |group| > 0
    ensures b < |group|
    decreases |group|
  {
    if |group| == 1 then 0
    else
      var n := |group| - 1;
      var b := BestIndex(group[..n]);
      if KeepsNew(group[b], group[n]) then n else b
  }

  /** The fold never ends on a game of lower standing than another member:
      a group with a known-host link is won by a game with one, and among
      those an online title wins. */
  lemma {:induction false} BestTopStanding(group: seq<Game>)
    requires |group| > 0
    ensures forall i | 0 <= i < |group| :: Standing(group[i]) <= Standing(group[BestIndex(group)])
    decreases |group|
  {
    if |group| > 1 {
      var n := |group| - 1;
      var front := group[..n];
      var b := BestIndex(front);
      BestTopStanding(front);
      DecidePrecedence(group[b], group[n]);
      forall i | 0 <= i < n
        ensures group[i] == front[i]
      {
      }
    }
  }

  /** The games kept and the games sent to the blacklist. */
  datatype Outcome = Outcome(valid: seq<Game>, removed: seq<Game>)

  function Unlike(v: Game): Game -> bool
  {
    (g: Game) => g != v
  }

  /** What one group contributes: the validated best game, and the other
      members that differ from it. The best game is validated in place, so
      its own slot compares equal to the validated copy. */
  function GroupOutcome(group: seq<Game>, validate: Game -> Game): Outcome
    requires |group| > 0
  {
    if |group| == 1 then Outcome([validate(group[0])], [])
    else
      var b := BestIndex(group);
      var v := validate(group[b]);
      Outcome([v], Filter(group[..b] + group[b + 1..], Unlike(v)))
  }

  /** The groups of `keys`, in order, each resolved by GroupOutcome. */
  function Resolve(games: seq<Game>, norm: string -> string, keys: seq<string>, validate: Game -> Game): (r: Outcome)
    requires forall i | 0 <= i < |keys| :: keys[i] in TitleKeys(games, norm)
    ensures |r.valid| == |keys|
    decreases |keys|
  {
    if |keys| == 0 then Outcome([], [])
    else
      var n := |keys| - 1;
      var r := Resolve(games, norm, keys[..n], validate);
      KeyHasGroup(games, norm, keys[n]);
      var o := GroupOutcome(Group(games, norm, keys[n]), validate);
      Outcome(r.valid + o.valid, r.removed + o.removed)
  }

  lemma GroupKeysFromGames(games: seq<Game>, norm: string -> string)
    ensures Distinct(GroupKeys(games, norm))
    ensures forall i | 0 <= i < |GroupKeys(games, norm)| :: GroupKeys(games, norm)[i] in TitleKeys(games, norm)
    ensures forall i | 0 <= i < |games| :: norm(games[i].title) in GroupKeys(games, norm)
  {
    DedupFacts(TitleKeys(games, norm));
  }

  function ValidateWith(c: Probes): Game -> Game
  {
    (g: Game) => Validated(g, c)
  }

  /** Every group of `games` resolved, in order of first appearance. */
  function ResolveAll(games: seq<Game>, norm: string -> string, validate: Game -> Game): Outcome
  {
    GroupKeysFromGames(games, norm);
    Resolve(games, norm, GroupKeys(games, norm), validate)
  }

  /** process_duplicates. */
  function Deduplicated(games: seq<Game>, c: Probes): Outcome
  {
    ResolveAll(games, NormalizeTitle, ValidateWith(c))
  }

  /** No game of the `key` group exceeds `g` in standing. */
  ghost predicate TopOf(g: Game, games: seq<Game>, norm: string -> string, key: string)
  {
    forall h | h in games && norm(h.title) == key :: Standing(h) <= Standing(g)
  }

  /** `v` is the validated form of a top-standing game of the `key` group. */
  ghost predicate SurvivorOf(v: Game, games: seq<Game>, norm: string -> string, key: string, validate: Game -> Game)
  {
    exists g | g in games && norm(g.title) == key :: v == validate(g) && TopOf(g, games, norm, key)
  }

  /** The members of a group are exactly the games with its key. */
  lemma GroupMembers(games: seq<Game>, norm: string -> string, key: string)
    ensures forall g | g in Group(games, norm, key) :: g in games && norm(g.title) == key
    ensures forall g | g in games && norm(g.title) == key :: g in Group(games, norm, key)
  {
    var group := Group(games, norm, key);
    FilterMembers(games, SameTitle(norm, key));
    forall g | g in group
      ensures g in games && norm(g.title) == key
    {
      var m :| 0 <= m < |group| && group[m] == g;
      assert SameTitle(norm, key)(group[m]);
    }
    forall g | g in games && norm(g.title) == key
      ensures g in group
    {
      var i :| 0 <= i < |games| && games[i] == g;
      assert SameTitle(norm, key)(games[i]);
    }
  }

  /** The group's best game is a member no other member outranks in standing. */
  lemma BestIsTop(games: seq<Game>, norm: string -> string, key: string)
    requires |Group(games, norm, key)| > 0
    ensures var group := Group(games, norm, key);
      var g := group[BestIndex(group)];
      g in games && norm(g.title) == key && TopOf(g, games, norm, key)
  {
    var group := Group(games, norm, key);
    var b := BestIndex(group);
    GroupMembers(games, norm, key);
    BestTopStanding(group);
    assert group[b] in group;
    forall h | h in games && norm(h.title) == key
      ensures Standing(h) <= Standing(group[b])
    {
      var m :| 0 <= m < |group| && group[m] == h;
    }
  }

  /** The games a group removes are its other members unlike the survivor. */
  lemma RemovedFacts(group: seq<Game>, b: nat, v: Game)
    requires b < |group|
    ensures forall x | x in Filter(group[..b] + group[b + 1..], Unlike(v)) :: x in group && x != v
    ensures forall i | 0 <= i < |group| && i != b && group[i] != v ::
      group[i] in Filter(group[..b] + group[b + 1..], Unlike(v))
  {
    var rest := group[..b] + group[b + 1..];
    FilterMembers(rest, Unlike(v));
    forall x | x in Filter(rest, Unlike(v))
      ensures x in group && x != v
    {
      var m :| 0 <= m < |Filter(rest, Unlike(v))| && Filter(rest, Unlike(v))[m] == x;
      assert Unlike(v)(x);
      var l :| 0 <= l < |rest| && rest[l] == x;
      assert x == group[if l < b then l else l + 1];
    }
    forall i | 0 <= i < |group| && i != b && group[i] != v
      ensures group[i] in Filter(rest, Unlike(v))
    {
      var l := if i < b then i else i - 1;
      assert rest[l] == group[i];
      assert Unlike(v)(rest[l]);
    }
  }

  /** One group yields one survivor, the validated form of a top-standing
      member; the removed games are other members of the group unlike the
      survivor; every member is removed, kept, or kept in validated form. */
  lemma GroupOutcomeFacts(games: seq<Game>, norm: string -> string, key: string, validate: Game -> Game)
    requires |Group(games, norm, key)| > 0
    ensures var o := GroupOutcome(Group(games, norm, key), validate);
      && |o.valid| == 1
      && SurvivorOf(o.valid[0], games, norm, key, validate)
      && (forall x | x in o.removed :: x in games && norm(x.title) == key && x != o.valid[0])
      && (forall g | g in games && norm(g.title) == key ::
            g in o.removed || g == o.valid[0] || validate(g) == o.valid[0])
  {
    var group := Group(games, norm, key);
    var b := BestIndex(group);
    var v := validate(group[b]);
    var o := GroupOutcome(group, validate);
    assert o.valid == [v];
    assert |group| > 1 ==> o.removed == Filter(group[..b] + group[b + 1..], Unlike(v));
    assert |group| == 1 ==> o.removed == [];
    BestIsTop(games, norm, key);
    GroupMembers(games, norm, key);
    RemovedFacts(group, b, v);
    forall g | g in games && norm(g.title) == key
      ensures g in o.removed || g == v || validate(g) == v
    {
      var m :| 0 <= m < |group| && group[m] == g;
      if m != b && g != v {
        assert group[m] in Filter(group[..b] + group[b + 1..], Unlike(v));
      }
    }
  }

  /** The outcome of resolving `keys`: one survivor per key in key order. */
  ghost predicate ResolvedBy(r: Outcome, games: seq<Game>, norm: string -> string, keys: seq<string>, validate: Game -> Game)
  {
    && |r.valid| == |keys|
    && (forall i | 0 <= i < |keys| :: SurvivorOf(r.valid[i], games, norm, keys[i], validate))
    && (forall x | x in r.removed :: x in games && exists i | 0 <= i < |keys| ::
          norm(x.title) == keys[i] && x != r.valid[i])
    && (forall g, i | g in games && 0 <= i < |keys| && norm(g.title) == keys[i] ::
          g in r.removed || g == r.valid[i] || validate(g) == r.valid[i])
  }

  /** Adding the outcome of one more group keeps ResolvedBy. */
  lemma ResolvedStep(r0: Outcome, o: Outcome, games: seq<Game>, norm: string -> string,
                     keys: seq<string>, key: string, validate: Game -> Game)
    requires ResolvedBy(r0, games, norm, keys, validate)
    requires |o.valid| == 1
    requires SurvivorOf(o.valid[0], games, norm, key, validate)
    requires forall x | x in o.removed :: x in games && norm(x.title) == key && x != o.valid[0]
    requires forall g | g in games && norm(g.title) == key ::
      g in o.removed || g == o.valid[0] || validate(g) == o.valid[0]
    ensures ResolvedBy(Outcome(r0.valid + o.valid, r0.removed + o.removed), games, norm, keys + [key], validate)
  {
    var r := Outcome(r0.valid + o.valid, r0.removed + o.removed);
    var ks := keys + [key];
    var n := |keys|;
    assert forall i | 0 <= i < n :: r.valid[i] == r0.valid[i] && ks[i] == keys[i];
    assert r.valid[n] == o.valid[0] && ks[n] == key;
    forall x | x in r.removed
      ensures x in games && exists i | 0 <= i < |ks| :: norm(x.title) == ks[i] && x != r.valid[i]
    {
      if x in r0.removed {
        var i :| 0 <= i < n && norm(x.title) == keys[i] && x != r0.valid[i];
        assert norm(x.title) == ks[i] && x != r.valid[i];
      } else {
        assert x in o.removed;
        assert norm(x.title) == ks[n] && x != r.valid[n];
      }
    }
    forall g, i | g in games && 0 <= i < |ks| && norm(g.title) == ks[i]
      ensures g in r.removed || g == r.valid[i] || validate(g) == r.valid[i]
    {
      if i < n {
        assert g in r0.removed || g == r0.valid[i] || validate(g) == r0.valid[i];
      }
    }
  }

  lemma {:induction false} ResolveFacts(games: seq<Game>, norm: string -> string, keys: seq<string>, validate: Game -> Game)
    requires forall i | 0 <= i < |keys| :: keys[i] in TitleKeys(games, norm)
    ensures ResolvedBy(Resolve(games, norm, keys, validate), games, norm, keys, validate)
    decreases |keys|
  {
    if |keys| > 0 {
      var n := |keys| - 1;
      var front := keys[..n];
      assert keys == front + [keys[n]];
      ResolveFacts(games, norm, front, validate);
      KeyHasGroup(games, norm, keys[n]);
      GroupOutcomeFacts(games, norm, keys[n], validate);
      ResolvedStep(Resolve(games, norm, front, validate), GroupOutcome(Group(games, norm, keys[n]), validate),
                   games, norm, front, keys[n], validate);
    }
  }

  /** validate_links leaves the title alone. */
  lemma ValidatedKeepsTitle(c: Probes)
    ensures forall g :: ValidateWith(c)(g).title == g.title
  {
  }

  /** A survivor carries its group's key when validation keeps titles. */
  lemma SurvivorKeys(r: Outcome, games: seq<Game>, norm: string -> string, keys: seq<string>, validate: Game -> Game)
    requires forall g :: validate(g).title == g.title
    requires ResolvedBy(r, games, norm, keys, validate)
    ensures forall i | 0 <= i < |r.valid| :: norm(r.valid[i].title) == keys[i]
  {
    forall i | 0 <= i < |r.valid|
      ensures norm(r.valid[i].title) == keys[i]
    {
      assert SurvivorOf(r.valid[i], games, norm, keys[i], validate);
    }
  }

  /** With distinct keys, no removed game is kept. */
  lemma RemovedNotKept(r: Outcome, games: seq<Game>, norm: string -> string, keys: seq<string>, validate: Game -> Game)
    requires Distinct(keys)
    requires ResolvedBy(r, games, norm, keys, validate)
    requires forall i | 0 <= i < |r.valid| :: norm(r.valid[i].title) == keys[i]
    ensures forall x | x in r.removed :: x !in r.valid
  {
    forall x | x in r.removed
      ensures x !in r.valid
    {
      var i :| 0 <= i < |keys| && norm(x.title) == keys[i] && x != r.valid[i];
      forall j | 0 <= j < |r.valid|
        ensures r.valid[j] != x
      {
        if j != i {
          assert keys[j] != keys[i];
        }
      }
    }
  }

  /** When every game's key is among the keys, no game is lost. */
  lemma NothingLost(r: Outcome, games: seq<Game>, norm: string -> string, keys: seq<string>, validate: Game -> Game)
    requires ResolvedBy(r, games, norm, keys, validate)
    requires forall i | 0 <= i < |games| :: norm(games[i].title) in keys
    ensures forall g | g in games :: g in r.removed || g in r.valid || validate(g) in r.valid
  {
    forall g | g in games
      ensures g in r.removed || g in r.valid || validate(g) in r.valid
    {
      var m :| 0 <= m < |games| && games[m] == g;
      var i :| 0 <= i < |keys| && keys[i] == norm(g.title);
      assert g in r.removed || g == r.valid[i] || validate(g) == r.valid[i];
    }
  }

  /** Resolving every key of `games`, for a validator that keeps titles:
      one survivor per key in order of first appearance, so pairwise
      distinct keys; each the validated form of a top-standing member;
      the removed games are input games that are not kept; and every input
      game is removed, kept, or kept in validated form. */
  lemma ResolveAllFacts(games: seq<Game>, norm: string -> string, validate: Game -> Game)
    requires forall g :: validate(g).title == g.title
    ensures var keys := GroupKeys(games, norm);
      var r := ResolveAll(games, norm, validate);
      && |r.valid| == |keys|
      && (forall i | 0 <= i < |r.valid| :: norm(r.valid[i].title) == keys[i])
      && (forall i, j | 0 <= i < j < |r.valid| :: norm(r.valid[i].title) != norm(r.valid[j].title))
      && (forall i | 0 <= i < |r.valid| :: SurvivorOf(r.valid[i], games, norm, keys[i], validate))
      && (forall x | x in r.removed :: x in games && x !in r.valid)
      && (forall g | g in games :: g in r.removed || g in r.valid || validate(g) in r.valid)
  {
    var keys := GroupKeys(games, norm);
    GroupKeysFromGames(games, norm);
    ResolveFacts(games, norm, keys, validate);
    var r := ResolveAll(games, norm, validate);
    SurvivorKeys(r, games, norm, keys, validate);
    RemovedNotKept(r, games, norm, keys, validate);
    NothingLost(r, games, norm, keys, validate);
  }

  /** process_duplicates keeps exactly one game per normalized title, in
      order of first appearance, even one left without links; the rest is
      as ResolveAllFacts states for NormalizeTitle and Validated. */
  lemma DeduplicatedFacts(games: seq<Game>, c: Probes)
    ensures var r := Deduplicated(games, c);
      var keys := GroupKeys(games, NormalizeTitle);
      && |r.valid| == |keys|
      && (forall i, j | 0 <= i < j < |r.valid| :: NormalizeTitle(r.valid[i].title) != NormalizeTitle(r.valid[j].title))
      && (forall i | 0 <= i < |r.valid| :: SurvivorOf(r.valid[i], games, NormalizeTitle, keys[i], ValidateWith(c)))
      && (forall x | x in r.removed :: x in games && x !in r.valid)
      && (forall g | g in games :: g in r.removed || g in r.valid || Validated(g, c) in r.valid)
  {
    ValidatedKeepsTitle(c);
    ResolveAllFacts(games, NormalizeTitle, ValidateWith(c));
  }

  /** One round of the group loop: validate the best game, keep it, and
      remove the members unlike it. */
  method ResolveGroup(group: seq<Game>, c: Probes) returns (o: Outcome)
    requires |group| > 0
    ensures o == GroupOutcome(group, ValidateWith(c))
  {
    if |group| == 1 {
      var game := ValidateLinks(group[0], c);
      o := Outcome([game], []);
    } else {
      var b := BestIndex(group);
      var best := ValidateLinks(group[b], c);
      o := Outcome([best], Filter(group[..b] + group[b + 1..], Unlike(best)));
    }
  }

  lemma ResolveSnoc(games: seq<Game>, norm: string -> string, keys: seq<string>, j: nat, validate: Game -> Game)
    requires j < |keys|
    requires forall i | 0 <= i < |keys| :: keys[i] in TitleKeys(games, norm)
    ensures |Group(games, norm, keys[j])| > 0
    ensures var r := Resolve(games, norm, keys[..j], validate);
      var o := GroupOutcome(Group(games, norm, keys[j]), validate);
      Resolve(games, norm, keys[..j + 1], validate) == Outcome(r.valid + o.valid, r.removed + o.removed)
  {
    KeyHasGroup(games, norm, keys[j]);
    assert keys[..j + 1][..j] == keys[..j];
  }

  /** The group loop of process_duplicates. */
  method ProcessGroups(games: seq<Game>, norm: string -> string, keys: seq<string>, c: Probes)
    returns (valid: seq<Game>, removed: seq<Game>)
    requires forall i | 0 <= i < |keys| :: keys[i] in TitleKeys(games, norm)
    ensures Outcome(valid, removed) == Resolve(games, norm, keys, ValidateWith(c))
  {
    valid := [];
    removed := [];
    var j := 0;
    while j < |keys|
      invariant j <= |keys|
      invariant Outcome(valid, removed) == Resolve(games, norm, keys[..j], ValidateWith(c))
    {
      ResolveSnoc(games, norm, keys, j, ValidateWith(c));
      var o := ResolveGroup(Group(games, norm, keys[j]), c);
      valid := valid + o.valid;
      removed := removed + o.removed;
      j := j + 1;
    }
    assert keys[..j] == keys;
  }

  /** process_duplicates. */
  method ProcessDuplicates(games: seq<Game>, c: Probes) returns (valid: seq<Game>, removed: seq<Game>)
    ensures Outcome(valid, removed) == Deduplicated(games, c)
  {
    GroupKeysFromGames(games, NormalizeTitle);
    valid, removed := ProcessGroups(games, NormalizeTitle, GroupKeys(games, NormalizeTitle), c);
  }
}

=== FILE: seqs.dfy ===
/** Order-preserving list comprehension (`[x for x in s if p(x)]`) and the
    facts about it the scripts' filters rely on. */
module Seqs {

  import opened Options

  function Filter<T>(s: seq<T>, p: T -> bool): (r: seq<T>)
    ensures |r| <= |s|
    decreases |s|
  {
    if |s| == 0 then []
    else if p(s[0]) then [s[0]] + Filter(s[1..], p)
    else Filter(s[1..], p)
  }

  /** The kept elements are exactly the elements that satisfy `p`. */
  lemma {:induction false} FilterMembers<T>(s: seq<T>, p: T -> bool)
    ensures forall i | 0 <= i < |Filter(s, p)| :: Filter(s, p)[i] in s && p(Filter(s, p)[i])
    ensures forall i | 0 <= i < |s| :: p(s[i]) ==> s[i] in Filter(s, p)
    decreases |s|
  {
    if |s| > 0 {
      FilterMembers(s[1..], p);
      forall i | 0 <= i < |s| && p(s[i])
        ensures s[i] in Filter(s, p)
      {
        if i > 0 {
          assert s[i] == s[1..][i - 1];
        }
      }
    }
  }

  lemma FilterConcat<T>(a: seq<T>, b: seq<T>, p: T -> bool)
    ensures Filter(a + b, p) == Filter(a, p) + Filter(b, p)
    decreases |a|
  {
    if |a| == 0 {
      assert a + b == b;
    } else {
      assert (a + b)[1..] == a[1..] + b;
      FilterConcat(a[1..], b, p);
    }
  }

  lemma FilterAll<T>(s: seq<T>, p: T -> bool)
    requires forall i | 0 <= i < |s| :: p(s[i])
    ensures Filter(s, p) == s
    decreases |s|
  {
    if |s| > 0 {
      FilterAll(s[1..], p);
    }
  }

  lemma FilterNone<T>(s: seq<T>, p: T -> bool)
    requires forall i | 0 <= i < |s| :: !p(s[i])
    ensures Filter(s, p) == []
    decreases |s|
  {
    if |s| > 0 {
      FilterNone(s[1..], p);
    }
  }

  lemma FilterSnoc<T>(s: seq<T>, x: T, p: T -> bool)
    ensures Filter(s + [x], p) == Filter(s, p) + (if p(x) then [x] else [])
  {
    FilterConcat(s, [x], p);
  }

  /** Filtering twice is filtering once by the conjunction. */
  lemma FilterFilter<T>(s: seq<T>, p: T -> bool, q: T -> bool, pq: T -> bool)
    requires forall x :: pq(x) == (p(x) && q(x))
    ensures Filter(Filter(s, p), q) == Filter(s, pq)
    decreases |s|
  {
    if |s| > 0 {
      FilterFilter(s[1..], p, q, pq);
    }
  }

  /** Filtering depends only on the values the predicate takes on `s`. */
  lemma FilterSame<T>(s: seq<T>, p: T -> bool, q: T -> bool)
    requires forall i | 0 <= i < |s| :: p(s[i]) == q(s[i])
    ensures Filter(s, p) == Filter(s, q)
    decreases |s|
  {
    if |s| > 0 {
      FilterSame(s[1..], p, q);
    }
  }

  /** `s` without its element at position `i`; `s` itself when there is
      no such position. */
  function RemoveAt<T>(s: seq<T>, i: nat): (r: seq<T>)
    ensures i < |s| ==> |r| == |s| - 1
    ensures i >= |s| ==> r == s
  {
    if i < |s| then s[..i] + s[i + 1..] else s
  }

  /** Removing position `i` keeps every other element and adds none. */
  lemma RemoveAtMembers<T>(s: seq<T>, i: nat)
    ensures forall x | x in RemoveAt(s, i) :: exists j | 0 <= j < |s| :: j != i && s[j] == x
    ensures forall j | 0 <= j < |s| && j != i :: s[j] in RemoveAt(s, i)
  {
    var r := RemoveAt(s, i);
    forall x | x in r
      ensures exists j | 0 <= j < |s| :: j != i && s[j] == x
    {
      var k :| 0 <= k < |r| && r[k] == x;
      if i < |s| && k >= i {
        assert r[k] == s[k + 1];
      } else {
        assert r[k] == s[k];
      }
    }
    forall j | 0 <= j < |s| && j != i
      ensures s[j] in r
    {
      if i < |s| && j > i {
        assert s[j] == r[j - 1];
      } else {
        assert s[j] == r[j];
      }
    }
  }

  /** The elements of `s` are pairwise distinct. */
  predicate Distinct<T(==)>(s: seq<T>)
  {
    forall i, j | 0 <= i < j < |s| :: s[i] != s[j]
  }

  /** The first position of `s` whose element satisfies `p`, if any. */
  function FirstIndex<T>(s: seq<T>, p: T -> bool): (r: Option<nat>)
    ensures r.None? <==> forall i | 0 <= i < |s| :: !p(s[i])
    ensures r.Some? ==> r.value < |s| && p(s[r.value])
    ensures r.Some? ==> forall i | 0 <= i < r.value :: !p(s[i])
    decreases |s|
  {
    if |s| == 0 then None
    else if p(s[0]) then Some(0)
    else match FirstIndex(s[1..], p)
      case None => None
      case Some(i) => Some(i + 1)
  }

  /** The distinct elements of `s` in order of first appearance (the key
      order of a Python dict filled by iterating over `s`). */
  function Dedup<T(==)>(s: seq<T>): seq<T>
    decreases |s|
  {
    if |s| == 0 then []
    else
      var d := Dedup(s[..|s| - 1]);
      if s[|s| - 1] in d then d else d + [s[|s| - 1]]
  }

  /** Dedup keeps each element of `s` exactly once. */
  lemma {:induction false} DedupFacts<T>(s: seq<T>)
    ensures Distinct(Dedup(s))
    ensures forall i | 0 <= i < |Dedup(s)| :: Dedup(s)[i] in s
    ensures forall i | 0 <= i < |s| :: s[i] in Dedup(s)
    decreases |s|
  {
    if |s| > 0 {
      var init := s[..|s| - 1];
      assert s == init + [s[|s| - 1]];
      DedupFacts(init);
    }
  }

  lemma DedupSnoc<T>(s: seq<T>, x: T)
    ensures Dedup(s + [x]) == if x in Dedup(s) then Dedup(s) else Dedup(s) + [x]
  {
    assert (s + [x])[..|s|] == s;
  }
}

=== FILE: sitescraper.dfy ===
/** The repack site scraper of scripts/scraper.py: the relative-date rule,
    the category marks and special-title rewrites applied to scraped titles,
    the category of a listing URL, the per-host link choice on a game page,
    and the filtering of one listing page into new catalog entries.

    Page contents, the clock and the fetches are parameters: a game page is
    given by what the parser extracts from it, and `now` and `earliest` are
    the current time and `datetime.min` as timestamps in seconds. */
module SiteScraper {

  import opened Options
  import opened Strings
  import opened Seqs
  import opened Catalog

  // ---------------------------------------------------------------------
  // parse_relative_date

  datatype Period = Hours | Days | Weeks | Months | Years

  /** The unit of a relative date: the first keyword found, tried in the
      order hour, day, week, month, year. */
  function PeriodOf(s: string): Option<Period>
  {
    if Contains(s, "hour") then Some(Hours)
    else if Contains(s, "day") then Some(Days)
    else if Contains(s, "week") then Some(Weeks)
    else if Contains(s, "month") then Some(Months)
    else if Contains(s, "year") then Some(Years)
    else None
  }

  /** Seconds in one unit; a month is 30 days and a year 365. */
  function PeriodSeconds(p: Period): nat
  {
    match p
    case Hours => 3600
    case Days => 24 * 3600
    case Weeks => 7 * 24 * 3600
    case Months => 30 * 24 * 3600
    case Years => 365 * 24 * 3600
  }

  /** `timedelta` refuses more than 999999999 days. */
  const MaxDeltaSeconds: nat := 1000000000 * 24 * 3600

  /** parse_relative_date: `now` less `n` units, `n` the first number of
      the text; `now` itself when no keyword or no digit is found or the
      date arithmetic overflows (every exception is caught). */
  function ParseRelativeDate(s: string, now: int, earliest: int): (r: int)
    ensures r <= now
  {
    match PeriodOf(s)
    case None => now
    case Some(p) =>
      match FirstNumber(s)
      case None => now
      case Some(n) =>
        var delta := n * PeriodSeconds(p);
        if delta < MaxDeltaSeconds && now - delta >= earliest then now - delta else now
  }

  function DigitChar(d: nat): (c: char)
    requires d < 10
    ensures IsDigit(c) && DigitValue(c) == d
  {
    ('0' as int + d) as char
  }

  /** The decimal digits of `n`, most significant first. */
  function NatDigits(n: nat): (r: string)
    ensures |r| > 0
    ensures forall i | 0 <= i < |r| :: IsDigit(r[i])
    decreases n
  {
    if n < 10 then [DigitChar(n)] else NatDigits(n / 10) + [DigitChar(n % 10)]
  }

  lemma {:induction false} NatDigitsValue(n: nat)
    ensures DigitsValue(NatDigits(n)) == n
    decreases n
  {
    if n >= 10 {
      var d := NatDigits(n / 10);
      assert (d + [DigitChar(n % 10)])[..|d|] == d;
      NatDigitsValue(n / 10);
    }
  }

  lemma {:induction false} LeadingDigitsOf(d: string, t: string)
    requires forall i | 0 <= i < |d| :: IsDigit(d[i])
    requires |t| > 0 && !IsDigit(t[0])
    ensures LeadingDigits(d + t) == d
    decreases |d|
  {
    if |d| > 0 {
      assert (d + t)[1..] == d[1..] + t;
      LeadingDigitsOf(d[1..], t);
    } else {
      assert d + t == t;
    }
  }

  /** The word the site prints for a unit. */
  function PeriodWord(p: Period): string
  {
    match p
    case Hours => "hours"
    case Days => "days"
    case Weeks => "weeks"
    case Months => "months"
    case Years => "years"
  }

  /** "N units ago", the site's relative date. */
  function Phrase(n: nat, p: Period): string
  {
    NatDigits(n) + " " + PeriodWord(p) + " ago"
  }

  /** A character that is no digit and is absent from the words of the
      phrase is absent from the phrase. */
  lemma PhraseLacks(n: nat, p: Period, c: char)
    requires !IsDigit(c) && c !in " " + PeriodWord(p) + " ago"
    ensures c !in Phrase(n, p)
  {
    var d := NatDigits(n);
    assert Phrase(n, p) == d + (" " + PeriodWord(p) + " ago");
    assert c !in d;
  }

  lemma PhraseHas(n: nat, p: Period, key: string)
    requires StartsWith(PeriodWord(p), key)
    ensures Contains(Phrase(n, p), key)
  {
    var d := NatDigits(n);
    var s := Phrase(n, p);
    assert s == d + " " + PeriodWord(p) + " ago";
    assert s[|d| + 1..|d| + 1 + |key|] == PeriodWord(p)[..|key|];
    ContainsWitness(s, key, |d| + 1);
  }

  lemma PhrasePeriod(n: nat, p: Period)
    ensures PeriodOf(Phrase(n, p)) == Some(p)
  {
    var s := Phrase(n, p);
    match p {
      case Hours =>
        PhraseHas(n, p, "hour");
      case Days =>
        PhraseLacks(n, p, 'h');
        AbsentChar(s, "hour", 0);
        PhraseHas(n, p, "day");
      case Weeks =>
        PhraseLacks(n, p, 'h');
        AbsentChar(s, "hour", 0);
        PhraseLacks(n, p, 'd');
        AbsentChar(s, "day", 0);
        PhraseHas(n, p, "week");
      case Months =>
        PhraseLacks(n, p, 'u');
        AbsentChar(s, "hour", 2);
        PhraseLacks(n, p, 'd');
        AbsentChar(s, "day", 0);
        PhraseLacks(n, p, 'w');
        AbsentChar(s, "week", 0);
        PhraseHas(n, p, "month");
      case Years =>
        PhraseLacks(n, p, 'h');
        AbsentChar(s, "hour", 0);
        PhraseLacks(n, p, 'd');
        AbsentChar(s, "day", 0);
        PhraseLacks(n, p, 'w');
        AbsentChar(s, "week", 0);
        PhraseLacks(n, p, 'm');
        AbsentChar(s, "month", 0);
        PhraseHas(n, p, "year");
    }
  }

  /** Reading back the site's own phrase gives `n` units before `now`, as
      long as the date stays representable. */
  lemma PhraseRoundTrip(n: nat, p: Period, now: int, earliest: int)
    requires n * PeriodSeconds(p) < MaxDeltaSeconds
    requires now - n * PeriodSeconds(p) >= earliest
    ensures ParseRelativeDate(Phrase(n, p), now, earliest) == now - n * PeriodSeconds(p)
  {
    var d := NatDigits(n);
    var tail := " " + PeriodWord(p) + " ago";
    assert Phrase(n, p) == d + tail;
    PhrasePeriod(n, p);
    LeadingDigitsOf(d, tail);
    NatDigitsValue(n);
  }

  /** Without a keyword, or without a digit, the date is `now`. */
  lemma ParseRelativeDateDefault(s: string, now: int, earliest: int)
    requires PeriodOf(s).None? || forall i | 0 <= i < |s| :: !IsDigit(s[i])
    ensures ParseRelativeDate(s, now, earliest) == now
  {
  }

  // ---------------------------------------------------------------------
  // mark_special_categories

  /** Some marker of the list occurs in `t`. */
  predicate AnyMarker(t: string, markers: seq<string>)
  {
    exists i | 0 <= i < |markers| :: Contains(t, markers[i])
  }

  const EmulatorMarkers: seq<string> := ["emulator", "emu", "(emu)"]
  const MultiplayerMarkers: seq<string> := ["multiplayer", "multi", "(mp)"]
  const VrMarkers: seq<string> := ["vr", "(vr)", "virtual reality"]

  const EmulatorTag: string := " (Emulator)"
  const MultiplayerTag: string := " (Multiplayer)"
  const VrTag: string := " (VR)"

  /** One test of mark_special_categories: the tag is appended when the
      lower-cased URL names the category and the lower-cased title has none
      of the markers. */
  predicate NeedsTag(title: string, url: string, category: string, markers: seq<string>)
  {
    Contains(Lower(url), category) && !AnyMarker(Lower(title), markers)
  }

  function MarkStep(title: string, url: string, category: string, markers: seq<string>, tag: string): string
  {
    if NeedsTag(title, url, category, markers) then title + tag else title
  }

  /** mark_special_categories: the emulator, multiplayer and VR tests in
      turn, each on the title as the previous ones left it. */
  function MarkSpecialCategories(title: string, url: string): string
  {
    var t1 := MarkStep(title, url, "emulator-games", EmulatorMarkers, EmulatorTag);
    var t2 := MarkStep(t1, url, "multiplayer-games", MultiplayerMarkers, MultiplayerTag);
    MarkStep(t2, url, "vr-games", VrMarkers, VrTag)
  }

  /** An occurrence in `a + b` lies in `a`, in `b`, or straddles the seam. */
  lemma ContainsSplit(a: string, b: string, w: string)
    requires Contains(a + b, w)
    ensures Contains(a, w) || Contains(b, w)
            || exists k | 0 < k < |w| :: |w| - k <= |b| && b[..|w| - k] == w[k..]
  {
    var s := a + b;
    var p :| 0 <= p <= |s| - |w| && OccursAt(s, w, p);
    if p + |w| <= |a| {
      assert a[p..p + |w|] == s[p..p + |w|];
      ContainsWitness(a, w, p);
    } else if p >= |a| {
      assert b[p - |a|..p - |a| + |w|] == s[p..p + |w|];
      ContainsWitness(b, w, p - |a|);
    } else {
      var k := |a| - p;
      assert b[..|w| - k] == s[|a|..p + |w|];
      assert w[k..] == s[p..p + |w|][k..];
    }
  }

  /** No occurrence straddles the seam before `b` when `w` has `b[0]` at
      most as its first character... */
  lemma NoStraddleHead(b: string, w: string)
    requires |b| > 0 && (|w| == 0 || b[0] !in w[1..])
    ensures forall k | 0 < k < |w| :: !(|w| - k <= |b| && b[..|w| - k] == w[k..])
  {
    forall k | 0 < k < |w| && |w| - k <= |b|
      ensures b[..|w| - k] != w[k..]
    {
      assert w[k] == w[1..][k - 1];
      assert w[k..][0] == w[k];
    }
  }

  /** ... or when `b[1]` is absent from `w` and `w` does not end in `b[0]`. */
  lemma NoStraddlePair(b: string, w: string)
    requires |b| > 1 && |w| > 0 && b[1] !in w && w[|w| - 1] != b[0]
    ensures forall k | 0 < k < |w| :: !(|w| - k <= |b| && b[..|w| - k] == w[k..])
  {
    forall k | 0 < k < |w| && |w| - k <= |b|
      ensures b[..|w| - k] != w[k..]
    {
      assert w[k..][0] == w[k];
      if k < |w| - 1 {
        assert w[k..][1] == w[k + 1];
        assert w[k + 1] in w;
      }
    }
  }

  /** Appending a text that holds none of the markers and cannot complete
      one changes no marker test. */
  lemma MarkerUnchanged(t: string, tag: string, markers: seq<string>)
    requires |tag| > 0
    requires forall i | 0 <= i < |markers| :: !Contains(Lower(tag), markers[i])
    requires forall i, k | 0 <= i < |markers| && 0 < k < |markers[i]| ::
      !(|markers[i]| - k <= |tag| && Lower(tag)[..|markers[i]| - k] == markers[i][k..])
    ensures AnyMarker(Lower(t + tag), markers) <==> AnyMarker(Lower(t), markers)
  {
    LowerConcat(t, tag);
    forall i | 0 <= i < |markers|
      ensures Contains(Lower(t + tag), markers[i]) <==> Contains(Lower(t), markers[i])
    {
      if Contains(Lower(t), markers[i]) {
        ContainsInLeft(Lower(t), Lower(tag), markers[i]);
      }
      if Contains(Lower(t + tag), markers[i]) {
        ContainsSplit(Lower(t), Lower(tag), markers[i]);
      }
    }
  }

  /** The emulator tag adds no multiplayer marker... */
  lemma EmulatorTagNeutral(t: string)
    ensures AnyMarker(Lower(t + EmulatorTag), MultiplayerMarkers) <==> AnyMarker(Lower(t), MultiplayerMarkers)
  {
    var lt := Lower(EmulatorTag);
    assert lt == " (emulator)";
    AbsentChar(lt, "multiplayer", 4);
    AbsentChar(lt, "multi", 4);
    AbsentChar(lt, "(mp)", 2);
    NoStraddleHead(lt, "multiplayer");
    NoStraddleHead(lt, "multi");
    NoStraddleHead(lt, "(mp)");
    MarkerUnchanged(t, EmulatorTag, MultiplayerMarkers);
  }

  /** ... and no VR marker. */
  lemma EmulatorTagNeutralVr(t: string)
    ensures AnyMarker(Lower(t + EmulatorTag), VrMarkers) <==> AnyMarker(Lower(t), VrMarkers)
  {
    var lt := Lower(EmulatorTag);
    assert lt == " (emulator)";
    AbsentChar(lt, "vr", 0);
    AbsentChar(lt, "(vr)", 1);
    AbsentChar(lt, "virtual reality", 0);
    NoStraddleHead(lt, "vr");
    NoStraddleHead(lt, "(vr)");
    NoStraddlePair(lt, "virtual reality");
    MarkerUnchanged(t, EmulatorTag, VrMarkers);
  }

  /** The multiplayer tag adds no VR marker. */
  lemma MultiplayerTagNeutral(t: string)
    ensures AnyMarker(Lower(t + MultiplayerTag), VrMarkers) <==> AnyMarker(Lower(t), VrMarkers)
  {
    var lt := Lower(MultiplayerTag);
    assert lt == " (multiplayer)";
    AbsentChar(lt, "vr", 0);
    AbsentChar(lt, "(vr)", 1);
    AbsentChar(lt, "virtual reality", 0);
    NoStraddleHead(lt, "vr");
    NoStraddleHead(lt, "(vr)");
    NoStraddlePair(lt, "virtual reality");
    MarkerUnchanged(t, MultiplayerTag, VrMarkers);
  }

  /** The three tests all depend on the original title alone: the result is
      the title followed by the tags whose test passes, in the order
      Emulator, Multiplayer, VR. */
  lemma MarkFlat(title: string, url: string)
    ensures MarkSpecialCategories(title, url)
      == title
         + (if NeedsTag(title, url, "emulator-games", EmulatorMarkers) then EmulatorTag else "")
         + (if NeedsTag(title, url, "multiplayer-games", MultiplayerMarkers) then MultiplayerTag else "")
         + (if NeedsTag(title, url, "vr-games", VrMarkers) then VrTag else "")
  {
    var e := NeedsTag(title, url, "emulator-games", EmulatorMarkers);
    var t1 := MarkStep(title, url, "emulator-games", EmulatorMarkers, EmulatorTag);
    EmulatorTagNeutral(title);
    EmulatorTagNeutralVr(title);
    assert NeedsTag(t1, url, "multiplayer-games", MultiplayerMarkers)
       == NeedsTag(title, url, "multiplayer-games", MultiplayerMarkers);
    var m := NeedsTag(title, url, "multiplayer-games", MultiplayerMarkers);
    var t2 := MarkStep(t1, url, "multiplayer-games", MultiplayerMarkers, MultiplayerTag);
    MultiplayerTagNeutral(t1);
    assert NeedsTag(t2, url, "vr-games", VrMarkers) == NeedsTag(t1, url, "vr-games", VrMarkers);
    assert NeedsTag(t1, url, "vr-games", VrMarkers) == NeedsTag(title, url, "vr-games", VrMarkers);
    assert title + (if e then EmulatorTag else "") == t1;
  }

  /** A title keeps every marker its prefix has. */
  lemma MarkerKept(t: string, u: string, markers: seq<string>)
    requires AnyMarker(Lower(t), markers)
    ensures AnyMarker(Lower(t + u), markers)
  {
    var i :| 0 <= i < |markers| && Contains(Lower(t), markers[i]);
    LowerConcat(t, u);
    ContainsInLeft(Lower(t), Lower(u), markers[i]);
  }

  /** The tag's own lower-cased text is a marker of its category. */
  lemma TagIsMarker(t: string, tag: string, u: string, markers: seq<string>, m: nat)
    requires m < |markers| && Contains(Lower(tag), markers[m])
    ensures AnyMarker(Lower(t + tag + u), markers)
  {
    LowerConcat(t, tag);
    LowerConcat(t + tag, u);
    ContainsInRight(Lower(t), Lower(tag), markers[m]);
    ContainsInLeft(Lower(t) + Lower(tag), Lower(u), markers[m]);
  }

  /** The marked title passes none of the three tests again. */
  lemma NoEmulatorTagAgain(title: string, url: string)
    ensures !NeedsTag(MarkSpecialCategories(title, url), url, "emulator-games", EmulatorMarkers)
  {
    var r := MarkSpecialCategories(title, url);
    var e := NeedsTag(title, url, "emulator-games", EmulatorMarkers);
    var rest := (if NeedsTag(title, url, "multiplayer-games", MultiplayerMarkers) then MultiplayerTag else "")
              + (if NeedsTag(title, url, "vr-games", VrMarkers) then VrTag else "");
    MarkFlat(title, url);
    if Contains(Lower(url), "emulator-games") {
      if e {
        assert r == title + EmulatorTag + rest;
        assert Lower(EmulatorTag) == " (emulator)";
        assert OccursAt(Lower(EmulatorTag), "emulator", 2);
        TagIsMarker(title, EmulatorTag, rest, EmulatorMarkers, 0);
      } else {
        assert r == title + rest;
        MarkerKept(title, rest, EmulatorMarkers);
      }
    }
  }

  lemma NoMultiplayerTagAgain(title: string, url: string)
    ensures !NeedsTag(MarkSpecialCategories(title, url), url, "multiplayer-games", MultiplayerMarkers)
  {
    var r := MarkSpecialCategories(title, url);
    var m := NeedsTag(title, url, "multiplayer-games", MultiplayerMarkers);
    var te := if NeedsTag(title, url, "emulator-games", EmulatorMarkers) then EmulatorTag else "";
    var tv := if NeedsTag(title, url, "vr-games", VrMarkers) then VrTag else "";
    MarkFlat(title, url);
    if Contains(Lower(url), "multiplayer-games") {
      if m {
        assert r == (title + te) + MultiplayerTag + tv;
        assert Lower(MultiplayerTag) == " (multiplayer)";
        assert OccursAt(Lower(MultiplayerTag), "multiplayer", 2);
        TagIsMarker(title + te, MultiplayerTag, tv, MultiplayerMarkers, 0);
      } else {
        assert r == title + (te + tv);
        MarkerKept(title, te + tv, MultiplayerMarkers);
      }
    }
  }

  lemma NoVrTagAgain(title: string, url: string)
    ensures !NeedsTag(MarkSpecialCategories(title, url), url, "vr-games", VrMarkers)
  {
    var r := MarkSpecialCategories(title, url);
    var v := NeedsTag(title, url, "vr-games", VrMarkers);
    var te := if NeedsTag(title, url, "emulator-games", EmulatorMarkers) then EmulatorTag else "";
    var tm := if NeedsTag(title, url, "multiplayer-games", MultiplayerMarkers) then MultiplayerTag else "";
    MarkFlat(title, url);
    if Contains(Lower(url), "vr-games") {
      if v {
        assert r == (title + te + tm) + VrTag + "";
        assert Lower(VrTag) == " (vr)";
        assert OccursAt(Lower(VrTag), "vr", 2);
        TagIsMarker(title + te + tm, VrTag, "", VrMarkers, 0);
      } else {
        assert r == title + (te + tm);
        MarkerKept(title, te + tm, VrMarkers);
      }
    }
  }

  /** A marked title gets no further tag from the same URL. */
  lemma MarkIdempotent(title: string, url: string)
    ensures MarkSpecialCategories(MarkSpecialCategories(title, url), url) == MarkSpecialCategories(title, url)
  {
    var r := MarkSpecialCategories(title, url);
    NoEmulatorTagAgain(title, url);
    NoMultiplayerTagAgain(title, url);
    NoVrTagAgain(title, url);
    MarkFlat(r, url);
  }

  // ---------------------------------------------------------------------
  // normalize_special_titles, is_deadcode_version

  /** normalize_special_titles: three guarded `replace` calls, in order. */
  function NormalizeSpecialTitles(title: string): string
  {
    var t1 := if Contains(title, "The Headliners") then ReplaceAll(title, "The Headliners", "Headliners") else title;
    var t2 := if Contains(t1, "0xdeadcode") then ReplaceAll(t1, "0xdeadcode", "Multiplayer") else t1;
    if Contains(t2, "0xdeadc0de") then ReplaceAll(t2, "0xdeadc0de", "Multiplayer") else t2
  }

  /** Neither lower-case spelling of the online-fix tag survives. */
  lemma NoDeadcodeLeft(title: string)
    ensures !Contains(NormalizeSpecialTitles(title), "0xdeadcode")
    ensures !Contains(NormalizeSpecialTitles(title), "0xdeadc0de")
  {
    var t1 := if Contains(title, "The Headliners") then ReplaceAll(title, "The Headliners", "Headliners") else title;
    var t2 := if Contains(t1, "0xdeadcode") then ReplaceAll(t1, "0xdeadcode", "Multiplayer") else t1;
    var r := NormalizeSpecialTitles(title);
    assert 'M' !in "0xdeadcode" && '0' !in "Multiplayer" && 'M' !in "0xdeadc0de";
    if Contains(t1, "0xdeadcode") {
      ReplaceRemoves(t1, "0xdeadcode", "Multiplayer");
    }
    assert !Contains(t2, "0xdeadcode");
    if Contains(t2, "0xdeadc0de") {
      ReplaceRemoves(t2, "0xdeadc0de", "Multiplayer");
      if Contains(r, "0xdeadcode") {
        ReplaceCreatesNothing(t2, "0xdeadc0de", "Multiplayer", "0xdeadcode");
      }
    }
  }

  /** is_deadcode_version: either spelling, in any letter case. */
  predicate IsDeadcodeVersion(title: string)
  {
    ContainsLower(title, "0xdeadcode") || ContainsLower(title, "0xdeadc0de")
  }

  /** Case does not matter to the test. */
  lemma DeadcodeIgnoresCase(title: string)
    ensures IsDeadcodeVersion(Upper(title)) == IsDeadcodeVersion(title)
  {
    LowerUpper(title);
  }

  /** A title holding a lower-case spelling is a deadcode version. */
  lemma DeadcodeSpelled(title: string)
    requires Contains(title, "0xdeadcode") || Contains(title, "0xdeadc0de")
    ensures IsDeadcodeVersion(title)
  {
    if Contains(title, "0xdeadcode") {
      ContainsLowered(title, "0xdeadcode");
    } else {
      ContainsLowered(title, "0xdeadc0de");
    }
  }

  // ---------------------------------------------------------------------
  // find_duplicate_game

  datatype Duplicate = Ignore(index: nat, game: Game) | New

  /** find_duplicate_game: the first entry whose source is `source`. */
  function FindDuplicateGame(downloads: seq<Game>, source: string): (r: Duplicate)
    ensures r.New? <==> forall i | 0 <= i < |downloads| :: downloads[i].source != source
    ensures r.Ignore? ==> r.index < |downloads| && r.game == downloads[r.index]
                          && r.game.source == source
                          && forall i | 0 <= i < r.index :: downloads[i].source != source
  {
    match FirstIndex(downloads, (g: Game) => g.source == source)
    case None => New
    case Some(i) => Ignore(i, downloads[i])
  }

  // ---------------------------------------------------------------------
  // extract_category_from_url

  const CategoryPath: string := "/category/"

  /** The regex `/category/([^/]+)/?` can match at `i`: "/category/"
      followed by at least one character other than '/'. */
  predicate CategoryAt(url: string, i: int)
  {
    OccursAt(url, CategoryPath, i) && i + 10 < |url| && url[i + 10] != '/'
  }

  /** The leftmost match position at or after `i`, as `re.search` scans. */
  function CategoryScan(url: string, i: nat): (r: Option<nat>)
    requires i <= |url|
    ensures r.Some? ==> i <= r.value && CategoryAt(url, r.value)
    ensures r.Some? ==> forall j | i <= j < r.value :: !CategoryAt(url, j)
    ensures r.None? ==> forall j | i <= j <= |url| :: !CategoryAt(url, j)
    decreases |url| - i
  {
    if i + 10 >= |url| then None
    else if CategoryAt(url, i) then Some(i)
    else CategoryScan(url, i + 1)
  }

  /** extract_category_from_url: the greedy `[^/]+` group of the leftmost
      match, or "unknown". */
  function ExtractCategoryFromUrl(url: string): string
  {
    match CategoryScan(url, 0)
    case None => "unknown"
    case Some(i) => TakeUntil(url[i + 10..], '/')
  }

  /** The category is the non-empty '/'-free segment after the leftmost
      usable "/category/", up to the next '/' or the end; "unknown" when
      there is none. */
  lemma CategoryFacts(url: string)
    ensures (forall i | 0 <= i <= |url| :: !CategoryAt(url, i)) ==> ExtractCategoryFromUrl(url) == "unknown"
    ensures forall i | 0 <= i <= |url| && CategoryAt(url, i) ::
      (forall j | 0 <= j < i :: !CategoryAt(url, j)) ==>
        var c := ExtractCategoryFromUrl(url);
        && |c| > 0 && '/' !in c
        && StartsWith(url[i + 10..], c)
        && (i + 10 + |c| == |url| || url[i + 10 + |c|] == '/')
  {
    forall i | 0 <= i <= |url| && CategoryAt(url, i) && (forall j | 0 <= j < i :: !CategoryAt(url, j))
      ensures ExtractCategoryFromUrl(url) == TakeUntil(url[i + 10..], '/')
    {
      var k := CategoryScan(url, 0);
      assert k.Some? && k.value == i;
    }
  }

  /** Every '/' of `host` is followed, inside `host`, by a character other
      than 'c'; so no "/category/" can start inside `host`. */
  predicate NoCategoryStart(host: string)
  {
    forall j | 0 <= j < |host| :: host[j] == '/' ==> j + 1 < |host| && host[j + 1] != 'c'
  }

  /** Reading back a category URL built from a site address yields the
      category it names. */
  lemma CategoryRoundTrip(host: string, category: string, rest: string)
    requires NoCategoryStart(host)
    requires |category| > 0 && '/' !in category
    requires rest == "" || rest[0] == '/'
    ensures ExtractCategoryFromUrl(host + CategoryPath + category + rest) == category
  {
    var url := host + CategoryPath + category + rest;
    var i := |host|;
    assert url[i..i + 10] == CategoryPath;
    assert url[i + 10] == category[0];
    forall j | 0 <= j < i
      ensures !CategoryAt(url, j)
    {
      assert url[j] == host[j];
      if host[j] == '/' {
        assert url[j + 1] == host[j + 1];
        MismatchAt(url, CategoryPath, j, 1);
      } else {
        MismatchAt(url, CategoryPath, j, 0);
      }
    }
    assert CategoryAt(url, i);
    var k := CategoryScan(url, 0);
    assert k == Some(i);
    assert url[i + 10..] == category + rest;
    TakeUntilExact(category, rest, '/');
  }

  const SiteAddress: string := "https://repack-games.com"

  /** The scraper's own category listings name their category. */
  lemma SiteCategory(category: string)
    requires |category| > 0 && '/' !in category
    ensures ExtractCategoryFromUrl(SiteAddress + CategoryPath + category + "/") == category
  {
    assert NoCategoryStart(SiteAddress);
    CategoryRoundTrip(SiteAddress, category, "/");
  }

  // ---------------------------------------------------------------------
  // the provider-priority block of fetch_game_details

  /** The five `filtered_links` keys, declared in output priority order. */
  datatype Slot = FichierSlot | DatanodesSlot | GofileSlot | MediafireSlot | PixeldrainSlot

  const PriorityOrder: seq<Slot> := [FichierSlot, DatanodesSlot, GofileSlot, MediafireSlot, PixeldrainSlot]

  function Rank(s: Slot): nat
  {
    match s
    case FichierSlot => 0
    case DatanodesSlot => 1
    case GofileSlot => 2
    case MediafireSlot => 3
    case PixeldrainSlot => 4
  }

  /** The if-chain of the dictionary loop: domain tested, slot filled. */
  const HostTests: seq<(string, Slot)> := [
    (FichierDomain, FichierSlot), (DatanodesDomain, DatanodesSlot), (MediafireDomain, MediafireSlot),
    (GofileDomain, GofileSlot), (PixeldrainDomain, PixeldrainSlot)]

  /** The slot a link fills: the first domain found, tested in the order
      1fichier, datanodes, mediafire, gofile, pixeldrain. */
  function SlotOf(link: string): Option<Slot>
  {
    FirstTagged(link, HostTests)
  }

  /** `all_links`: the page's hrefs on one of the five hosts, in page order. */
  function HostLinks(hrefs: seq<string>): seq<string>
  {
    Filter(hrefs, (h: string) => SlotOf(h).Some?)
  }

  /** The position of the last of the first `n` links that fills slot `s`. */
  function LastIndex(links: seq<string>, s: Slot, n: nat): (r: Option<nat>)
    requires n <= |links|
    ensures r.None? ==> forall k | 0 <= k < n :: SlotOf(links[k]) != Some(s)
    ensures r.Some? ==> r.value < n && SlotOf(links[r.value]) == Some(s)
    ensures r.Some? ==> forall k | r.value < k < n :: SlotOf(links[k]) != Some(s)
  {
    if n == 0 then None
    else if SlotOf(links[n - 1]) == Some(s) then Some(n - 1)
    else LastIndex(links, s, n - 1)
  }

  /** `filtered_links[s]` once every link has been seen, as a list of at
      most one link. */
  function Pick(links: seq<string>, s: Slot): seq<string>
  {
    match LastIndex(links, s, |links|)
    case None => []
    case Some(j) => [links[j]]
  }

  /** `[filtered_links[key] for key in order if filtered_links[key] is not None]`. */
  function Picks(links: seq<string>, order: seq<Slot>): seq<string>
    decreases |order|
  {
    if |order| == 0 then [] else Pick(links, order[0]) + Picks(links, order[1..])
  }

  /** The links fetch_game_details keeps from a page's hrefs. */
  function PriorityLinks(hrefs: seq<string>): seq<string>
  {
    Picks(HostLinks(hrefs), PriorityOrder)
  }

  /** `l` fills a slot and no later link fills the same slot. */
  ghost predicate LastOfItsSlot(links: seq<string>, l: string)
  {
    SlotOf(l).Some?
    && exists j | 0 <= j < |links| :: links[j] == l && forall k | j < k < |links| :: SlotOf(links[k]) != SlotOf(l)
  }

  predicate Ascending(order: seq<Slot>)
  {
    forall i, j | 0 <= i < j < |order| :: Rank(order[i]) < Rank(order[j])
  }

  lemma {:induction false} PicksFacts(links: seq<string>, order: seq<Slot>)
    ensures |Picks(links, order)| <= |order|
    ensures forall i | 0 <= i < |Picks(links, order)| ::
      SlotOf(Picks(links, order)[i]).Some? && SlotOf(Picks(links, order)[i]).value in order
      && LastOfItsSlot(links, Picks(links, order)[i])
    ensures forall s, k | s in order && 0 <= k < |links| && SlotOf(links[k]) == Some(s) ::
      exists i | 0 <= i < |Picks(links, order)| :: SlotOf(Picks(links, order)[i]) == Some(s)
    decreases |order|
  {
    if |order| > 0 {
      var head := Pick(links, order[0]);
      var rest := Picks(links, order[1..]);
      PicksFacts(links, order[1..]);
      var r := head + rest;
      assert Picks(links, order) == r;
      forall i | 0 <= i < |head|
        ensures LastOfItsSlot(links, r[i]) && SlotOf(r[i]) == Some(order[0])
      {
        var j := LastIndex(links, order[0], |links|).value;
        assert r[i] == links[j];
      }
      forall i | |head| <= i < |r|
        ensures r[i] == rest[i - |head|] && SlotOf(r[i]).value in order[1..]
      {
      }
      forall s, k | s in order && 0 <= k < |links| && SlotOf(links[k]) == Some(s)
        ensures exists i | 0 <= i < |r| :: SlotOf(r[i]) == Some(s)
      {
        if s == order[0] {
          assert SlotOf(r[0]) == Some(s);
        } else {
          assert s in order[1..];
          var i :| 0 <= i < |rest| && SlotOf(rest[i]) == Some(s);
          assert r[|head| + i] == rest[i];
        }
      }
    }
  }

  /** Over an order listed by ascending rank, the picks come out in
      ascending rank as well. */
  lemma {:induction false} PicksAscending(links: seq<string>, order: seq<Slot>)
    requires Ascending(order)
    ensures forall i | 0 <= i < |Picks(links, order)| :: SlotOf(Picks(links, order)[i]).Some?
    ensures forall i, j | 0 <= i < j < |Picks(links, order)| ::
      Rank(SlotOf(Picks(links, order)[i]).value) < Rank(SlotOf(Picks(links, order)[j]).value)
    decreases |order|
  {
    if |order| > 0 {
      var head := Pick(links, order[0]);
      var rest := Picks(links, order[1..]);
      PicksFacts(links, order);
      PicksFacts(links, order[1..]);
      assert Ascending(order[1..]);
      PicksAscending(links, order[1..]);
      var r := head + rest;
      assert Picks(links, order) == r;
      forall i | 0 <= i < |head|
        ensures SlotOf(r[i]) == Some(order[0])
      {
        var j := LastIndex(links, order[0], |links|).value;
        assert r[i] == links[j];
      }
      forall i | |head| <= i < |r|
        ensures r[i] == rest[i - |head|] && Rank(order[0]) < Rank(SlotOf(r[i]).value)
      {
        var t := SlotOf(r[i]).value;
        assert t in order[1..];
        var m :| 0 <= m < |order[1..]| && order[1..][m] == t;
        assert order[m + 1] == t;
      }
    }
  }

  lemma SlotListed(s: Slot)
    ensures s in PriorityOrder
  {
    match s
    case FichierSlot => assert PriorityOrder[0] == s;
    case DatanodesSlot => assert PriorityOrder[1] == s;
    case GofileSlot => assert PriorityOrder[2] == s;
    case MediafireSlot => assert PriorityOrder[3] == s;
    case PixeldrainSlot => assert PriorityOrder[4] == s;
  }

  /** Every kept link is one of the hrefs. */
  lemma PicksFromPage(hrefs: seq<string>, r: seq<string>)
    requires forall i | 0 <= i < |r| :: LastOfItsSlot(HostLinks(hrefs), r[i])
    ensures forall i | 0 <= i < |r| :: r[i] in hrefs
  {
    var links := HostLinks(hrefs);
    FilterMembers(hrefs, (h: string) => SlotOf(h).Some?);
    forall i | 0 <= i < |r|
      ensures r[i] in hrefs
    {
      var j :| 0 <= j < |links| && links[j] == r[i] && forall k | j < k < |links| :: SlotOf(links[k]) != SlotOf(r[i]);
      assert links[j] in hrefs;
    }
  }

  /** Every host the page links to has its link among the kept ones. */
  lemma PicksCoverPage(hrefs: seq<string>, r: seq<string>)
    requires forall s, k | s in PriorityOrder && 0 <= k < |HostLinks(hrefs)| && SlotOf(HostLinks(hrefs)[k]) == Some(s) ::
      exists i | 0 <= i < |r| :: SlotOf(r[i]) == Some(s)
    ensures forall k | 0 <= k < |hrefs| && SlotOf(hrefs[k]).Some? ::
      exists i | 0 <= i < |r| :: SlotOf(r[i]) == SlotOf(hrefs[k])
  {
    var links := HostLinks(hrefs);
    FilterMembers(hrefs, (h: string) => SlotOf(h).Some?);
    forall k | 0 <= k < |hrefs| && SlotOf(hrefs[k]).Some?
      ensures exists i | 0 <= i < |r| :: SlotOf(r[i]) == SlotOf(hrefs[k])
    {
      var s := SlotOf(hrefs[k]).value;
      assert hrefs[k] in links;
      var m :| 0 <= m < |links| && links[m] == hrefs[k];
      SlotListed(s);
      assert SlotOf(links[m]) == Some(s);
    }
  }

  /** The priority block keeps at most one link per host, each the last of
      its host on the page, in the order 1fichier, datanodes, gofile,
      mediafire, pixeldrain, and misses no host the page links to. */
  lemma PriorityLinksFacts(hrefs: seq<string>)
    ensures var r := PriorityLinks(hrefs);
      && |r| <= 5
      && (forall i | 0 <= i < |r| :: r[i] in hrefs && LastOfItsSlot(HostLinks(hrefs), r[i]))
      && (forall i, j | 0 <= i < j < |r| :: Rank(SlotOf(r[i]).value) < Rank(SlotOf(r[j]).value))
      && (forall k | 0 <= k < |hrefs| && SlotOf(hrefs[k]).Some? ::
            exists i | 0 <= i < |r| :: SlotOf(r[i]) == SlotOf(hrefs[k]))
  {
    var r := PriorityLinks(hrefs);
    assert Ascending(PriorityOrder);
    PicksFacts(HostLinks(hrefs), PriorityOrder);
    PicksAscending(HostLinks(hrefs), PriorityOrder);
    PicksFromPage(hrefs, r);
    PicksCoverPage(hrefs, r);
  }

  /** The dictionary loop of fetch_game_details: every host link overwrites
      its slot, so each slot ends with the last link of its host. */
  method SelectPriorityLinks(hrefs: seq<string>) returns (r: seq<string>)
    ensures r == PriorityLinks(hrefs)
  {
    var links := HostLinks(hrefs);
    var slots: map<Slot, string> := map[];
    var i := 0;
    while i < |links|
      invariant i <= |links|
      invariant forall s: Slot :: (s in slots) == LastIndex(links, s, i).Some?
      invariant forall s: Slot | s in slots :: slots[s] == links[LastIndex(links, s, i).value]
    {
      var link := links[i];
      match SlotOf(link) {
        case Some(key) => slots := slots[key := link];
        case None =>
      }
      i := i + 1;
    }
    r := Collect(slots, PriorityOrder);
    CollectPicks(slots, links, PriorityOrder);
  }

  /** The closing list comprehension over the slot dictionary. */
  function Collect(slots: map<Slot, string>, order: seq<Slot>): seq<string>
    decreases |order|
  {
    if |order| == 0 then []
    else (if order[0] in slots then [slots[order[0]]] else []) + Collect(slots, order[1..])
  }

  lemma {:induction false} CollectPicks(slots: map<Slot, string>, links: seq<string>, order: seq<Slot>)
    requires forall s: Slot :: (s in slots) == LastIndex(links, s, |links|).Some?
    requires forall s: Slot | s in slots :: slots[s] == links[LastIndex(links, s, |links|).value]
    ensures Collect(slots, order) == Picks(links, order)
    decreases |order|
  {
    if |order| > 0 {
      CollectPicks(slots, links, order[1..]);
    }
  }

  // ---------------------------------------------------------------------
  // fetch_game_details

  /** What the parser extracts from a game page: the `h1.entry-title` text,
      the relative-date link text, the first "N GB"/"N MB" text, and every
      href, in document order. */
  datatype GamePage = GamePage(
    heading: Option<string>,
    dateText: Option<string>,
    sizeText: Option<string>,
    hrefs: seq<string>)

  function BaseTitle(page: GamePage): string
  {
    match page.heading
    case None => "Unknown Title"
    case Some(h) => h
  }

  /** fetch_game_details for `url`, given the fetched page (`None` when the
      fetch failed). */
  function FetchGameDetails(url: string, page: Option<GamePage>, blacklist: set<string>, now: int, earliest: int): Option<Game>
  {
    if url in blacklist then None
    else match page
      case None => None
      case Some(p) =>
        var date := match p.dateText
          case None => None
          case Some(t) => if Strip(t) == "" then None else Some(ParseRelativeDate(Strip(t), now, earliest));
        var size := match p.sizeText
          case None => ""
          case Some(t) => Strip(t);
        Some(Game(MarkSpecialCategories(BaseTitle(p), url), PriorityLinks(p.hrefs), size, date, url))
  }

  /** A blacklisted or unreachable page gives nothing; otherwise the entry
      records its page URL as source, a title that extends the page
      heading, at most five links, and a date no later than `now`. */
  lemma FetchFacts(url: string, page: Option<GamePage>, blacklist: set<string>, now: int, earliest: int)
    ensures FetchGameDetails(url, page, blacklist, now, earliest).None? <==> url in blacklist || page.None?
    ensures match FetchGameDetails(url, page, blacklist, now, earliest)
      case None => true
      case Some(g) =>
        && g.source == url
        && StartsWith(g.title, BaseTitle(page.value))
        && |g.uris| <= 5
        && (g.uploadDate.Some? ==> g.uploadDate.value <= now)
  {
    if url !in blacklist && page.Some? {
      var t := BaseTitle(page.value);
      MarkFlat(t, url);
      PriorityLinksFacts(page.value.hrefs);
    }
  }

  // ---------------------------------------------------------------------
  // process_page

  const MaxGames: nat := 1000000

  /** The scraper's running state: the `downloads` list, the known page
      URLs, the blacklist and `processed_games_count`. */
  datatype ScrapeState = ScrapeState(
    downloads: seq<Game>,
    existing: set<string>,
    blacklist: set<string>,
    count: nat)

  /** `GameLimitReached` is raised on entry; otherwise the new state and
      the page URL queued once per failed game fetch. */
  datatype PageOutcome = LimitReached | Done(state: ScrapeState, retries: seq<string>)

  /** A title the scraper refuses and blacklists. */
  predicate Cracked(title: string)
  {
    var t := Upper(NormalizeSpecialTitles(title));
    Contains(t, "FULL UNLOCKED") || Contains(t, "CRACKSTATUS")
  }

  /** The task-building loop: known or blacklisted URLs are skipped, and the
      loop stops once `remaining` tasks exist. */
  function SelectTasks(links: seq<string>, existing: set<string>, blacklist: set<string>, remaining: nat): (r: seq<string>)
    ensures |r| <= remaining
    ensures forall i | 0 <= i < |r| :: r[i] in links && r[i] !in existing && r[i] !in blacklist
    decreases |links|
  {
    if |links| == 0 then []
    else if links[0] in existing || links[0] in blacklist then SelectTasks(links[1..], existing, blacklist, remaining)
    else if remaining == 0 then []
    else [links[0]] + SelectTasks(links[1..], existing, blacklist, remaining - 1)
  }

  /** Away from the limit, every new link of the page becomes a task. */
  lemma {:induction false} SelectAllNew(links: seq<string>, existing: set<string>, blacklist: set<string>, remaining: nat)
    requires |links| <= remaining
    ensures SelectTasks(links, existing, blacklist, remaining)
         == Filter(links, (u: string) => u !in existing && u !in blacklist)
    decreases |links|
  {
    if |links| > 0 {
      SelectAllNew(links[1..], existing, blacklist, if links[0] in existing || links[0] in blacklist then remaining else remaining - 1);
    }
  }

  /** One fetched game in the result loop: skipped when the title is empty
      or it has no link, blacklisted when its title is cracked, appended
      otherwise. The appended entry keeps its own title; the special-title
      rewrite only feeds the cracked test. */
  function Admit(st: ScrapeState, g: Game): ScrapeState
  {
    if g.title == "" then st
    else if |g.uris| == 0 then st
    else if Cracked(g.title) then st.(blacklist := st.blacklist + {g.source})
    else st.(downloads := st.downloads + [g], existing := st.existing + {g.source}, count := st.count + 1)
  }

  /** A failed fetch is skipped; once the limit is reached the loop stops,
      which is the same as skipping every later result since the count
      never falls. */
  function Step(st: ScrapeState, r: Option<Game>): ScrapeState
  {
    match r
    case None => st
    case Some(g) => if st.count >= MaxGames then st else Admit(st, g)
  }

  function Absorb(st: ScrapeState, results: seq<Option<Game>>): ScrapeState
    decreases |results|
  {
    if |results| == 0 then st else Absorb(Step(st, results[0]), results[1..])
  }

  /** The retry loop: the page URL once per failed fetch. */
  function Retries(pageUrl: string, results: seq<Option<Game>>): (r: seq<string>)
    ensures forall i | 0 <= i < |r| :: r[i] == pageUrl
    decreases |results|
  {
    if |results| == 0 then []
    else (if results[0].None? then [pageUrl] else []) + Retries(pageUrl, results[1..])
  }

  /** fetch_game_details as one function of the page URL. */
  function FetchWith(pages: string -> Option<GamePage>, blacklist: set<string>, now: int, earliest: int): string -> Option<Game>
  {
    (u: string) => FetchGameDetails(u, pages(u), blacklist, now, earliest)
  }

  /** A fetcher that records the page URL as source. */
  ghost predicate SourcedBy(fetch: string -> Option<Game>)
  {
    forall u :: fetch(u).Some? ==> fetch(u).value.source == u
  }

  lemma FetchWithSourced(pages: string -> Option<GamePage>, blacklist: set<string>, now: int, earliest: int)
    ensures SourcedBy(FetchWith(pages, blacklist, now, earliest))
  {
    forall u: string
      ensures FetchWith(pages, blacklist, now, earliest)(u).Some? ==> FetchWith(pages, blacklist, now, earliest)(u).value.source == u
    {
      FetchFacts(u, pages(u), blacklist, now, earliest);
    }
  }

  /** A fetched game the result loop appends. */
  predicate Accepted(g: Game)
  {
    g.title != "" && |g.uris| > 0 && !Cracked(g.title)
  }

  /** Once the limit is reached nothing more changes. */
  lemma {:induction false} AbsorbSaturated(st: ScrapeState, results: seq<Option<Game>>)
    requires st.count >= MaxGames
    ensures Absorb(st, results) == st
    decreases |results|
  {
    if |results| > 0 {
      AbsorbSaturated(st, results[1..]);
    }
  }

  /** The result loop only appends, counts what it appends, never passes
      the limit, and only grows the two sets. */
  lemma {:induction false} AbsorbGrows(st: ScrapeState, results: seq<Option<Game>>)
    ensures var r := Absorb(st, results);
      && |st.downloads| <= |r.downloads| && r.downloads[..|st.downloads|] == st.downloads
      && r.count == st.count + (|r.downloads| - |st.downloads|)
      && (st.count <= MaxGames ==> r.count <= MaxGames)
      && st.existing <= r.existing && st.blacklist <= r.blacklist
    decreases |results|
  {
    if |results| > 0 {
      var s1 := Step(st, results[0]);
      AbsorbGrows(s1, results[1..]);
      var r := Absorb(st, results);
      assert r.downloads[..|s1.downloads|] == s1.downloads;
      assert s1.downloads[..|st.downloads|] == st.downloads;
      assert r.downloads[..|st.downloads|] == r.downloads[..|s1.downloads|][..|st.downloads|];
    }
  }

  /** Every appended entry is an accepted fetch result whose source is
      now known. */
  lemma {:induction false} AbsorbAdded(st: ScrapeState, results: seq<Option<Game>>)
    ensures var r := Absorb(st, results);
      forall i | |st.downloads| <= i < |r.downloads| ::
        && Accepted(r.downloads[i]) && r.downloads[i].source in r.existing
        && exists k | 0 <= k < |results| :: results[k] == Some(r.downloads[i])
    decreases |results|
  {
    if |results| > 0 {
      var s1 := Step(st, results[0]);
      AbsorbAdded(s1, results[1..]);
      AbsorbGrows(s1, results[1..]);
      AbsorbGrows(st, results);
      var r := Absorb(st, results);
      forall i | |st.downloads| <= i < |r.downloads|
        ensures Accepted(r.downloads[i]) && r.downloads[i].source in r.existing
        ensures exists k | 0 <= k < |results| :: results[k] == Some(r.downloads[i])
      {
        if i < |s1.downloads| {
          assert r.downloads[i] == s1.downloads[i];
          assert results[0] == Some(r.downloads[i]);
        } else {
          var k :| 0 <= k < |results[1..]| && results[1..][k] == Some(r.downloads[i]);
          assert results[k + 1] == Some(r.downloads[i]);
        }
      }
    }
  }

  /** A URL is newly blacklisted only for a fetched game with a cracked
      title. */
  lemma {:induction false} AbsorbBlacklisted(st: ScrapeState, results: seq<Option<Game>>)
    ensures var r := Absorb(st, results);
      forall u | u in r.blacklist && u !in st.blacklist ::
        exists k | 0 <= k < |results| :: results[k].Some? && results[k].value.source == u && Cracked(results[k].value.title)
    decreases |results|
  {
    if |results| > 0 {
      var s1 := Step(st, results[0]);
      AbsorbBlacklisted(s1, results[1..]);
      var r := Absorb(st, results);
      forall u | u in r.blacklist && u !in st.blacklist
        ensures exists k | 0 <= k < |results| :: results[k].Some? && results[k].value.source == u && Cracked(results[k].value.title)
      {
        if u in s1.blacklist {
          assert results[0].Some? && results[0].value.source == u && Cracked(results[0].value.title);
        } else {
          var k :| 0 <= k < |results[1..]| && results[1..][k].Some? && results[1..][k].value.source == u
                   && Cracked(results[1..][k].value.title);
          assert results[k + 1] == results[1..][k];
        }
      }
    }
  }

  /** A URL becomes known only as the source of an appended entry. */
  lemma {:induction false} AbsorbKnown(st: ScrapeState, results: seq<Option<Game>>)
    ensures var r := Absorb(st, results);
      forall u | u in r.existing && u !in st.existing ::
        exists i | |st.downloads| <= i < |r.downloads| :: r.downloads[i].source == u
    decreases |results|
  {
    if |results| > 0 {
      var s1 := Step(st, results[0]);
      AbsorbKnown(s1, results[1..]);
      AbsorbGrows(s1, results[1..]);
      AbsorbGrows(st, results);
      var r := Absorb(st, results);
      forall u | u in r.existing && u !in st.existing
        ensures exists i | |st.downloads| <= i < |r.downloads| :: r.downloads[i].source == u
      {
        if u in s1.existing {
          var j := |st.downloads|;
          assert s1.downloads[j] == r.downloads[j];
          assert r.downloads[j].source == u;
        } else {
          var i :| |s1.downloads| <= i < |r.downloads| && r.downloads[i].source == u;
        }
      }
    }
  }

  /** The result loop of process_page, with its early `break`. */
  method AbsorbResults(st: ScrapeState, results: seq<Option<Game>>) returns (out: ScrapeState)
    ensures out == Absorb(st, results)
  {
    out := st;
    var i := 0;
    while i < |results|
      invariant i <= |results|
      invariant Absorb(out, results[i..]) == Absorb(st, results)
    {
      assert results[i..][1..] == results[i + 1..];
      match results[i] {
        case None =>
        case Some(g) =>
          if out.count >= MaxGames {
            AbsorbSaturated(out, results[i..]);
            return;
          }
          if g.title == "" {
          } else if |g.uris| == 0 {
          } else if Cracked(g.title) {
            out := out.(blacklist := out.blacklist + {g.source});
          } else {
            out := out.(downloads := out.downloads + [g], existing := out.existing + {g.source}, count := out.count + 1);
          }
      }
      i := i + 1;
    }
    assert results[i..] == [];
  }

  /** Every entry has its own source, and every source is known. */
  ghost predicate Tracked(st: ScrapeState)
  {
    && (forall i, j | 0 <= i < j < |st.downloads| :: st.downloads[i].source != st.downloads[j].source)
    && (forall i | 0 <= i < |st.downloads| :: st.downloads[i].source in st.existing)
  }

  /** Fresh, pairwise different sources keep the state tracked. */
  lemma {:induction false} AbsorbTracked(st: ScrapeState, results: seq<Option<Game>>)
    requires Tracked(st)
    requires forall k | 0 <= k < |results| && results[k].Some? :: results[k].value.source !in st.existing
    requires forall k, l | 0 <= k < l < |results| && results[k].Some? && results[l].Some? ::
      results[k].value.source != results[l].value.source
    ensures Tracked(Absorb(st, results))
    decreases |results|
  {
    if |results| > 0 {
      var s1 := Step(st, results[0]);
      assert Tracked(s1);
      forall k | 0 <= k < |results[1..]| && results[1..][k].Some?
        ensures results[1..][k].value.source !in s1.existing
      {
        assert results[1..][k] == results[k + 1];
      }
      forall k, l | 0 <= k < l < |results[1..]| && results[1..][k].Some? && results[1..][l].Some?
        ensures results[1..][k].value.source != results[1..][l].value.source
      {
        assert results[1..][k] == results[k + 1] && results[1..][l] == results[l + 1];
      }
      AbsorbTracked(s1, results[1..]);
    }
  }

  /** `asyncio.gather` over the tasks. */
  function FetchAll(tasks: seq<string>, fetch: string -> Option<Game>): (r: seq<Option<Game>>)
    ensures |r| == |tasks|
    ensures forall i | 0 <= i < |tasks| :: r[i] == fetch(tasks[i])
  {
    seq(|tasks|, i requires 0 <= i < |tasks| => fetch(tasks[i]))
  }

  /** process_page as written, with the page fetches as `fetch`. `listing`
      is the game-page URLs of the page's articles, `None` when the page
      could not be fetched or has no article. */
  function RunPageAsWritten(st: ScrapeState, pageUrl: string, listing: Option<seq<string>>,
                            fetch: string -> Option<Game>): PageOutcome
  {
    if st.count >= MaxGames then LimitReached
    else match listing
      case None => Done(st, [])
      case Some(links) =>
        var tasks := SelectTasks(links, st.existing, st.blacklist, MaxGames - st.count);
        if tasks == [] then Done(st, [])
        else
          var results := FetchAll(tasks, fetch);
          Done(Absorb(st, results), Retries(pageUrl, results))
  }

  /** process_page as written; `pages` gives each game page as fetched. */
  function ProcessPageAsWritten(st: ScrapeState, pageUrl: string, listing: Option<seq<string>>,
                                pages: string -> Option<GamePage>, now: int, earliest: int): PageOutcome
  {
    RunPageAsWritten(st, pageUrl, listing, FetchWith(pages, st.blacklist, now, earliest))
  }

  /** A listing naming the same new game twice gets it appended twice. */
  lemma AsWrittenAppendsTwice(st: ScrapeState, pageUrl: string, u: string, fetch: string -> Option<Game>)
    requires st.count + 2 <= MaxGames && u !in st.existing && u !in st.blacklist
    requires fetch(u).Some? && fetch(u).value.title != "" && |fetch(u).value.uris| > 0 && !Cracked(fetch(u).value.title)
    ensures var o := RunPageAsWritten(st, pageUrl, Some([u, u]), fetch);
      o.Done? && o.state.downloads == st.downloads + [fetch(u).value, fetch(u).value]
  {
    var tasks := SelectTasks([u, u], st.existing, st.blacklist, MaxGames - st.count);
    var rem := MaxGames - st.count;
    assert [u, u][1..] == [u] && [u][1..] == [];
    assert SelectTasks([u], st.existing, st.blacklist, rem - 1) == [u];
    assert tasks == [u, u];
    var g := fetch(u).value;
    var results := FetchAll(tasks, fetch);
    assert results == [Some(g), Some(g)];
    var s1 := Admit(st, g);
    assert s1.downloads == st.downloads + [g];
    assert results[1..] == [Some(g)];
    assert [Some(g)][1..] == [];
    assert Absorb(st, results) == Absorb(s1, [Some(g)]) == Admit(s1, g);
  }

  /** The corrected task loop also skips a URL it has already queued. */
  function SelectNewTasks(links: seq<string>, existing: set<string>, blacklist: set<string>, remaining: nat): (r: seq<string>)
    ensures |r| <= remaining
    ensures forall i | 0 <= i < |r| :: r[i] in links && r[i] !in existing && r[i] !in blacklist
    decreases |links|
  {
    if |links| == 0 then []
    else if links[0] in existing || links[0] in blacklist then SelectNewTasks(links[1..], existing, blacklist, remaining)
    else if remaining == 0 then []
    else [links[0]] + SelectNewTasks(links[1..], existing + {links[0]}, blacklist, remaining - 1)
  }

  /** ... so no page URL is queued twice. */
  lemma {:induction false} SelectNewDistinct(links: seq<string>, existing: set<string>, blacklist: set<string>, remaining: nat)
    ensures Distinct(SelectNewTasks(links, existing, blacklist, remaining))
    decreases |links|
  {
    if |links| > 0 && links[0] !in existing && links[0] !in blacklist && remaining > 0 {
      SelectNewDistinct(links[1..], existing + {links[0]}, blacklist, remaining - 1);
    } else if |links| > 0 {
      SelectNewDistinct(links[1..], existing, blacklist, remaining);
    }
  }

  /** process_page with the corrected task loop. */
  function RunPage(st: ScrapeState, pageUrl: string, listing: Option<seq<string>>,
                   fetch: string -> Option<Game>): PageOutcome
  {
    if st.count >= MaxGames then LimitReached
    else match listing
      case None => Done(st, [])
      case Some(links) =>
        var tasks := SelectNewTasks(links, st.existing, st.blacklist, MaxGames - st.count);
        if tasks == [] then Done(st, [])
        else
          var results := FetchAll(tasks, fetch);
          Done(Absorb(st, results), Retries(pageUrl, results))
  }

  function ProcessPage(st: ScrapeState, pageUrl: string, listing: Option<seq<string>>,
                       pages: string -> Option<GamePage>, now: int, earliest: int): PageOutcome
  {
    RunPage(st, pageUrl, listing, FetchWith(pages, st.blacklist, now, earliest))
  }

  /** The corrected page step keeps every source once and known. */
  lemma RunPageTracked(st: ScrapeState, pageUrl: string, listing: Option<seq<string>>, fetch: string -> Option<Game>)
    requires Tracked(st) && SourcedBy(fetch)
    ensures RunPage(st, pageUrl, listing, fetch).Done? ==> Tracked(RunPage(st, pageUrl, listing, fetch).state)
  {
    if st.count < MaxGames && listing.Some? {
      var tasks := SelectNewTasks(listing.value, st.existing, st.blacklist, MaxGames - st.count);
      SelectNewDistinct(listing.value, st.existing, st.blacklist, MaxGames - st.count);
      var results := FetchAll(tasks, fetch);
      forall k | 0 <= k < |results| && results[k].Some?
        ensures results[k].value.source == tasks[k]
      {
        assert results[k] == fetch(tasks[k]);
      }
      AbsorbTracked(st, results);
    }
  }

  lemma ProcessPageTracked(st: ScrapeState, pageUrl: string, listing: Option<seq<string>>,
                           pages: string -> Option<GamePage>, now: int, earliest: int)
    requires Tracked(st)
    ensures ProcessPage(st, pageUrl, listing, pages, now, earliest).Done? ==>
      Tracked(ProcessPage(st, pageUrl, listing, pages, now, earliest).state)
  {
    FetchWithSourced(pages, st.blacklist, now, earliest);
    RunPageTracked(st, pageUrl, listing, FetchWith(pages, st.blacklist, now, earliest));
  }

  /** The as-written step breaks the same invariant. */
  lemma AsWrittenUntracked(st: ScrapeState, pageUrl: string, u: string, fetch: string -> Option<Game>)
    requires st.count + 2 <= MaxGames && u !in st.existing && u !in st.blacklist
    requires fetch(u).Some? && fetch(u).value.title != "" && |fetch(u).value.uris| > 0 && !Cracked(fetch(u).value.title)
    ensures !Tracked(RunPageAsWritten(st, pageUrl, Some([u, u]), fetch).state)
  {
    AsWrittenAppendsTwice(st, pageUrl, u, fetch);
    var d := RunPageAsWritten(st, pageUrl, Some([u, u]), fetch).state.downloads;
    var n := |st.downloads|;
    assert d[n] == fetch(u).value && d[n + 1] == fetch(u).value;
  }

  /** The page step raises at the limit, leaves the state alone when the
      page gives nothing, fetches only new, non-blacklisted URLs within the
      remaining budget, appends only accepted games, blacklists only
      cracked ones, and learns exactly the sources it appends. */
  lemma RunPageFacts(st: ScrapeState, pageUrl: string, listing: Option<seq<string>>, fetch: string -> Option<Game>)
    ensures RunPage(st, pageUrl, listing, fetch).LimitReached? <==> st.count >= MaxGames
    ensures st.count < MaxGames && listing.None? ==> RunPage(st, pageUrl, listing, fetch) == Done(st, [])
    ensures st.count < MaxGames && listing.Some? ==>
      var tasks := SelectNewTasks(listing.value, st.existing, st.blacklist, MaxGames - st.count);
      var r := RunPage(st, pageUrl, listing, fetch).state;
      && |tasks| <= MaxGames - st.count
      && (forall i | 0 <= i < |tasks| :: tasks[i] in listing.value && tasks[i] !in st.existing && tasks[i] !in st.blacklist)
      && |st.downloads| <= |r.downloads| && r.downloads[..|st.downloads|] == st.downloads
      && r.count == st.count + (|r.downloads| - |st.downloads|) <= MaxGames
      && (forall i | |st.downloads| <= i < |r.downloads| ::
            Accepted(r.downloads[i]) && r.downloads[i].source in r.existing
            && exists k | 0 <= k < |tasks| :: fetch(tasks[k]) == Some(r.downloads[i]))
      && (forall u | u in r.blacklist && u !in st.blacklist ::
            exists k | 0 <= k < |tasks| :: fetch(tasks[k]).Some? && fetch(tasks[k]).value.source == u
                                           && Cracked(fetch(tasks[k]).value.title))
      && st.existing <= r.existing && st.blacklist <= r.blacklist
      && (forall u | u in r.existing && u !in st.existing ::
            exists i | |st.downloads| <= i < |r.downloads| :: r.downloads[i].source == u)
  {
    if st.count < MaxGames && listing.Some? {
      var tasks := SelectNewTasks(listing.value, st.existing, st.blacklist, MaxGames - st.count);
      var results := FetchAll(tasks, fetch);
      if tasks != [] {
        AbsorbGrows(st, results);
        AbsorbAdded(st, results);
        AbsorbBlacklisted(st, results);
        AbsorbKnown(st, results);
      }
    }
  }
}

=== FILE: strings.dfy ===
/** Optional values, used wherever the Python code returns `None` or reads a
    key that may be missing. */
module Options {

  datatype Option<+T> = None | Some(value: T)
}

/** The string operations the scripts rely on: Python's `in` on strings,
    `str.replace`, `lower`/`upper`, `strip`, `startswith`/`endswith`, and the
    first-occurrence search behind `split(...)[1]` and `re.search`. */
module Strings {

  import opened Options

  /** `w` occurs in `s` starting at index `i`. */
  predicate OccursAt(s: string, w: string, i: int)
  {
    0 <= i && i + |w| <= |s| && s[i..i + |w|] == w
  }

  /** Python's `w in s` for strings. */
  predicate Contains(s: string, w: string)
  {
    exists i | 0 <= i <= |s| - |w| :: OccursAt(s, w, i)
  }

  predicate StartsWith(s: string, p: string)
  {
    |p| <= |s| && s[..|p|] == p
  }

  predicate EndsWith(s: string, p: string)
  {
    |p| <= |s| && s[|s| - |p|..] == p
  }

  lemma ContainsWitness(s: string, w: string, i: int)
    requires OccursAt(s, w, i)
    ensures Contains(s, w)
  {
  }

  /** A needle holding a character the haystack lacks does not occur in it;
      this is how negative facts about literal strings are established. */
  lemma AbsentChar(s: string, w: string, k: int)
    requires 0 <= k < |w| && w[k] !in s
    ensures !Contains(s, w)
  {
    forall i | 0 <= i <= |s| - |w|
      ensures !OccursAt(s, w, i)
    {
      assert s[i + k] in s;
      assert s[i..i + |w|][k] == s[i + k];
    }
  }

  /** A needle holding two adjacent characters that never stand side by
      side in the haystack does not occur in it. */
  lemma AbsentPair(s: string, w: string, k: int)
    requires 0 <= k && k + 1 < |w|
    requires forall i | 0 <= i < |s| - 1 :: !(s[i] == w[k] && s[i + 1] == w[k + 1])
    ensures !Contains(s, w)
  {
    forall i | 0 <= i <= |s| - |w|
      ensures !OccursAt(s, w, i)
    {
      assert s[i..i + |w|][k] == s[i + k];
      assert s[i..i + |w|][k + 1] == s[i + k + 1];
    }
  }

  /** One differing character rules out an occurrence at `i`. */
  lemma MismatchAt(s: string, w: string, i: int, k: int)
    requires 0 <= k < |w| && (0 <= i + k < |s| ==> s[i + k] != w[k])
    ensures !OccursAt(s, w, i)
  {
    if 0 <= i && i + |w| <= |s| {
      assert s[i..i + |w|][k] == s[i + k];
    }
  }

  lemma ContainsInLeft(a: string, b: string, w: string)
    requires Contains(a, w)
    ensures Contains(a + b, w)
  {
    var i :| 0 <= i <= |a| - |w| && OccursAt(a, w, i);
    assert (a + b)[i..i + |w|] == a[i..i + |w|];
    ContainsWitness(a + b, w, i);
  }

  lemma ContainsInRight(a: string, b: string, w: string)
    requires Contains(b, w)
    ensures Contains(a + b, w)
  {
    var i :| 0 <= i <= |b| - |w| && OccursAt(b, w, i);
    assert (a + b)[|a| + i..|a| + i + |w|] == b[i..i + |w|];
    ContainsWitness(a + b, w, |a| + i);
  }

  /** Substring containment is transitive. */
  lemma ContainsTrans(s: string, w: string, u: string)
    requires Contains(s, w) && Contains(w, u)
    ensures Contains(s, u)
  {
    var i :| 0 <= i <= |s| - |w| && OccursAt(s, w, i);
    var j :| 0 <= j <= |w| - |u| && OccursAt(w, u, j);
    assert forall m | 0 <= m < |u| :: s[i + j + m] == s[i..i + |w|][j + m] == u[m];
    assert s[i + j..i + j + |u|] == u;
    ContainsWitness(s, u, i + j);
  }

  lemma PrefixContained(s: string, p: string)
    requires StartsWith(s, p)
    ensures Contains(s, p)
  {
    ContainsWitness(s, p, 0);
  }

  /** A slice of a suffix is a slice of the whole. */
  lemma SliceOfDrop(s: string, k: nat, i: nat, j: nat)
    requires k <= |s| && i <= j <= |s| - k
    ensures s[k..][i..j] == s[k + i..k + j]
  {
    assert forall m | 0 <= m < j - i :: s[k..][i..j][m] == s[k + i + m] == s[k + i..k + j][m];
  }

  /** An occurrence in a suffix of `s` is an occurrence in `s`. */
  lemma ContainsInDrop(s: string, w: string, k: nat)
    requires k <= |s| && Contains(s[k..], w)
    ensures Contains(s, w)
  {
    var i :| 0 <= i <= |s[k..]| - |w| && OccursAt(s[k..], w, i);
    SliceOfDrop(s, k, i, i + |w|);
    ContainsWitness(s, w, k + i);
  }

  // ---------------------------------------------------------------- case

  /** ASCII part of Python's `str.lower`. */
  function LowerChar(c: char): char
  {
    if 'A' <= c <= 'Z' then (c as int + 32) as char else c
  }

  function UpperChar(c: char): char
  {
    if 'a' <= c <= 'z' then (c as int - 32) as char else c
  }

  function Lower(s: string): (r: string)
    ensures |r| == |s|
    ensures forall i | 0 <= i < |s| :: r[i] == LowerChar(s[i])
  {
    seq(|s|, i requires 0 <= i < |s| => LowerChar(s[i]))
  }

  function Upper(s: string): (r: string)
    ensures |r| == |s|
    ensures forall i | 0 <= i < |s| :: r[i] == UpperChar(s[i])
  {
    seq(|s|, i requires 0 <= i < |s| => UpperChar(s[i]))
  }

  lemma LowerConcat(a: string, b: string)
    ensures Lower(a + b) == Lower(a) + Lower(b)
  {
  }

  /** `lower()` leaves no ASCII capital and keeps white space where it was. */
  lemma LowerShape(s: string)
    ensures forall i | 0 <= i < |s| :: !('A' <= Lower(s)[i] <= 'Z') && IsSpace(Lower(s)[i]) == IsSpace(s[i])
  {
  }

  /** Lower-casing an upper-cased text is lower-casing it. */
  lemma LowerUpper(s: string)
    ensures Lower(Upper(s)) == Lower(s)
  {
  }

  /** A lower-case needle found in `s` is found in `s.lower()`. */
  lemma ContainsLowered(s: string, w: string)
    requires Lower(w) == w && Contains(s, w)
    ensures Contains(Lower(s), w)
  {
    var i :| 0 <= i <= |s| - |w| && OccursAt(s, w, i);
    assert Lower(s)[i..i + |w|] == Lower(s[i..i + |w|]);
    ContainsWitness(Lower(s), w, i);
  }

  /** Case-insensitive containment of an already lower-case needle, the
      `needle in text.lower()` idiom. */
  predicate ContainsLower(s: string, needle: string)
  {
    Contains(Lower(s), needle)
  }

  // ----------------------------------------------------------- whitespace

  /** The characters Python's `str.isspace` (and so `strip` and the regex
      class `\s`) treats as white space. */
  predicate IsSpace(c: char)
  {
    c == ' ' || ('\t' <= c <= '\r') || ('\U{1c}' <= c <= '\U{1f}')
    || c == '\U{85}' || c == '\U{a0}' || c == '\U{1680}'
    || ('\U{2000}' <= c <= '\U{200a}') || c == '\U{2028}' || c == '\U{2029}'
    || c == '\U{202f}' || c == '\U{205f}' || c == '\U{3000}'
  }

  function StripLeft(s: string): (r: string)
    ensures |r| <= |s| && r == s[|s| - |r|..]
    ensures |r| > 0 ==> !IsSpace(r[0])
    ensures forall i | 0 <= i < |s| - |r| :: IsSpace(s[i])
  {
    if |s| > 0 && IsSpace(s[0]) then StripLeft(s[1..]) else s
  }

  function StripRight(s: string): (r: string)
    ensures |r| <= |s| && r == s[..|r|]
    ensures |r| > 0 ==> !IsSpace(r[|r| - 1])
    ensures forall i | |r| <= i < |s| :: IsSpace(s[i])
  {
    if |s| > 0 && IsSpace(s[|s| - 1]) then StripRight(s[..|s| - 1]) else s
  }

  /** Python's `str.strip()` with no argument. */
  function Strip(s: string): (r: string)
    ensures |r| > 0 ==> !IsSpace(r[0]) && !IsSpace(r[|r| - 1])
  {
    StripRight(StripLeft(s))
  }

  lemma StripNoSpace(s: string)
    requires |s| == 0 || (!IsSpace(s[0]) && !IsSpace(s[|s| - 1]))
    ensures Strip(s) == s
  {
  }

  // ------------------------------------------------------- first occurrence

  /** Away from a match at the front, `s` and `s[1..]` contain `w` alike. */
  lemma ContainsTail(s: string, w: string)
    requires |s| >= |w| && !StartsWith(s, w)
    ensures Contains(s, w) <==> Contains(s[1..], w)
    ensures forall j | 0 < j <= |s| - |w| :: OccursAt(s, w, j) == OccursAt(s[1..], w, j - 1)
  {
    forall j | 0 < j <= |s| - |w|
      ensures OccursAt(s, w, j) == OccursAt(s[1..], w, j - 1)
    {
      SliceOfDrop(s, 1, j - 1, j - 1 + |w|);
    }
    if Contains(s, w) {
      var i :| 0 <= i <= |s| - |w| && OccursAt(s, w, i);
      assert i > 0;
      ContainsWitness(s[1..], w, i - 1);
    }
    if Contains(s[1..], w) {
      ContainsInDrop(s, w, 1);
    }
  }

  /** Index of the first occurrence of `w` in `s`, as `str.find` reports it. */
  function FindFirst(s: string, w: string): (r: Option<nat>)
    ensures r.None? <==> !Contains(s, w)
    ensures r.Some? ==> OccursAt(s, w, r.value)
    ensures r.Some? ==> forall j | 0 <= j < r.value :: !OccursAt(s, w, j)
    decreases |s|
  {
    if |s| < |w| then
      None
    else if s[..|w|] == w then
      assert OccursAt(s, w, 0);
      Some(0)
    else
      ContainsTail(s, w);
      match FindFirst(s[1..], w)
      case None => None
      case Some(k) => Some(k + 1)
  }

  /** The longest prefix of `s` without the character `c`, which is
      `s.split(c)[0]`. */
  function TakeUntil(s: string, c: char): (r: string)
    ensures StartsWith(s, r)
    ensures c !in r
    ensures |r| < |s| ==> s[|r|] == c
  {
    if |s| == 0 || s[0] == c then "" else [s[0]] + TakeUntil(s[1..], c)
  }

  /** `TakeUntil` stops exactly at the end of a `c`-free front part that is
      followed by `c` or by nothing. */
  lemma {:induction false} TakeUntilExact(x: string, rest: string, c: char)
    requires c !in x && (rest == "" || rest[0] == c)
    ensures TakeUntil(x + rest, c) == x
    decreases |x|
  {
    if |x| > 0 {
      assert (x + rest)[1..] == x[1..] + rest;
      TakeUntilExact(x[1..], rest, c);
    } else {
      assert x + rest == rest;
    }
  }

  /** The tag of the first test whose needle occurs in `s`: an if-chain of
      `needle in s` tests. */
  function FirstTagged<T>(s: string, tests: seq<(string, T)>): Option<T>
    decreases |tests|
  {
    if |tests| == 0 then None
    else if Contains(s, tests[0].0) then Some(tests[0].1)
    else FirstTagged(s, tests[1..])
  }

  /** Some test passes, so some tag is found. */
  lemma {:induction false} FirstTaggedSome<T>(s: string, tests: seq<(string, T)>, k: nat)
    requires k < |tests| && Contains(s, tests[k].0)
    ensures FirstTagged(s, tests).Some?
    decreases k
  {
    if k > 0 && !Contains(s, tests[0].0) {
      FirstTaggedSome(s, tests[1..], k - 1);
    }
  }

  // ---------------------------------------------------------------- replace

  /** Python's `s.replace(pat, rep)` for a non-empty pattern: every
      non-overlapping occurrence, scanned from the left, is replaced. */
  function ReplaceAll(s: string, pat: string, rep: string): string
    requires |pat| > 0
    decreases |s|
  {
    if |s| < |pat| then s
    else if s[..|pat|] == pat then rep + ReplaceAll(s[|pat|..], pat, rep)
    else [s[0]] + ReplaceAll(s[1..], pat, rep)
  }

  /** Replacing a pattern that does not occur changes nothing. */
  lemma {:induction false} ReplaceAbsent(s: string, pat: string, rep: string)
    requires |pat| > 0 && !Contains(s, pat)
    ensures ReplaceAll(s, pat, rep) == s
    decreases |s|
  {
    if |s| < |pat| {
    } else {
      if s[..|pat|] == pat {
        ContainsWitness(s, pat, 0);
      }
      if Contains(s[1..], pat) {
        ContainsInDrop(s, pat, 1);
      }
      ReplaceAbsent(s[1..], pat, rep);
      assert s == [s[0]] + s[1..];
    }
  }

  /** A prefix that avoids the first character of `r`'s prefix `p` is empty. */
  lemma HeadNotInPrefix(r: string, u: string, p: string)
    requires StartsWith(r, p) && |p| > 0 && StartsWith(r, u) && p[0] !in u
    ensures u == ""
  {
    assert u == r[..|u|];
  }

  /** A prefix of the replaced text that avoids the first character of the
      replacement was copied unchanged from the original. */
  lemma {:induction false} ReplacePrefixCopied(t: string, pat: string, rep: string, u: string)
    requires |pat| > 0 && |rep| > 0
    requires StartsWith(ReplaceAll(t, pat, rep), u) && rep[0] !in u
    ensures StartsWith(t, u)
    decreases |t|
  {
    var r := ReplaceAll(t, pat, rep);
    if |t| < |pat| {
    } else if t[..|pat|] == pat {
      assert r == rep + ReplaceAll(t[|pat|..], pat, rep);
      HeadNotInPrefix(r, u, rep);
    } else if |u| > 0 {
      var r1 := ReplaceAll(t[1..], pat, rep);
      assert r == [t[0]] + r1;
      assert u[1..] == r1[..|u| - 1];
      ReplacePrefixCopied(t[1..], pat, rep, u[1..]);
      assert u == [t[0]] + u[1..];
    }
  }

  /** An occurrence in `a + b` that starts inside `a` starts with a
      character of `a`. */
  lemma OccursHeadIn(a: string, b: string, w: string, p: int)
    requires OccursAt(a + b, w, p) && p < |a| && |w| > 0
    ensures w[0] in a
  {
    assert w[0] == (a + b)[p..p + |w|][0] == a[p];
  }

  /** An occurrence in `a + b` that starts after `a` is an occurrence in `b`. */
  lemma OccursShift(a: string, b: string, w: string, p: int)
    requires OccursAt(a + b, w, p) && p >= |a|
    ensures Contains(b, w)
  {
    assert b[p - |a|..p - |a| + |w|] == (a + b)[p..p + |w|];
    ContainsWitness(b, w, p - |a|);
  }

  /** A non-empty prefix of `[c] + x` is `c` followed by a prefix of `x`. */
  lemma ConsPrefix(c: char, x: string, u: string)
    requires StartsWith([c] + x, u) && |u| > 0
    ensures u[0] == c && StartsWith(x, u[1..])
  {
    assert u[1..] == ([c] + x)[1..|u|];
  }

  /** The converse of ConsPrefix for a non-empty `t`. */
  lemma ConsPrefixBack(t: string, u: string)
    requires |t| > 0 && |u| > 0 && u[0] == t[0] && StartsWith(t[1..], u[1..])
    ensures StartsWith(t, u)
  {
    assert t[..|u|] == [t[0]] + t[1..][..|u| - 1];
    assert u == [u[0]] + u[1..];
  }

  /** Replacement creates no new occurrence of a word `w` whose first
      character is not in the replacement and that does not contain the
      replacement's first character. */
  lemma {:induction false} ReplaceCreatesNothing(t: string, pat: string, rep: string, w: string)
    requires |pat| > 0 && |rep| > 0 && |w| > 0
    requires w[0] !in rep && rep[0] !in w
    requires Contains(ReplaceAll(t, pat, rep), w)
    ensures Contains(t, w)
    decreases |t|
  {
    var r := ReplaceAll(t, pat, rep);
    var p :| 0 <= p <= |r| - |w| && OccursAt(r, w, p);
    if |t| < |pat| {
    } else if t[..|pat|] == pat {
      var r1 := ReplaceAll(t[|pat|..], pat, rep);
      assert r == rep + r1;
      if p < |rep| {
        OccursHeadIn(rep, r1, w, p);
        assert false;
      }
      OccursShift(rep, r1, w, p);
      ReplaceCreatesNothing(t[|pat|..], pat, rep, w);
      ContainsInDrop(t, w, |pat|);
    } else {
      var r1 := ReplaceAll(t[1..], pat, rep);
      assert r == [t[0]] + r1;
      if p == 0 {
        ConsPrefix(t[0], r1, w);
        ReplacePrefixCopied(t[1..], pat, rep, w[1..]);
        ConsPrefixBack(t, w);
        PrefixContained(t, w);
      } else {
        OccursShift([t[0]], r1, w, p);
        ReplaceCreatesNothing(t[1..], pat, rep, w);
        ContainsInDrop(t, w, 1);
      }
    }
  }

  /** After `replace`, the pattern is gone, provided the replacement cannot
      start or re-form it. */
  lemma {:induction false} ReplaceRemoves(t: string, pat: string, rep: string)
    requires |pat| > 0 && |rep| > 0
    requires pat[0] !in rep && rep[0] !in pat
    ensures !Contains(ReplaceAll(t, pat, rep), pat)
    decreases |t|
  {
    var r := ReplaceAll(t, pat, rep);
    if |t| >= |pat| && Contains(r, pat) {
      var p :| 0 <= p <= |r| - |pat| && OccursAt(r, pat, p);
      if t[..|pat|] == pat {
        var r1 := ReplaceAll(t[|pat|..], pat, rep);
        assert r == rep + r1;
        if p < |rep| {
          OccursHeadIn(rep, r1, pat, p);
          assert false;
        }
        OccursShift(rep, r1, pat, p);
        ReplaceRemoves(t[|pat|..], pat, rep);
        assert false;
      } else {
        var r1 := ReplaceAll(t[1..], pat, rep);
        assert r == [t[0]] + r1;
        if p == 0 {
          ConsPrefix(t[0], r1, pat);
          ReplacePrefixCopied(t[1..], pat, rep, pat[1..]);
          ConsPrefixBack(t, pat);
          assert false;
        }
        OccursShift([t[0]], r1, pat, p);
        ReplaceRemoves(t[1..], pat, rep);
        assert false;
      }
    }
  }

  // ----------------------------------------------------------------- digits

  predicate IsDigit(c: char)
  {
    '0' <= c <= '9'
  }

  function DigitValue(c: char): nat
    requires IsDigit(c)
  {
    c as int - '0' as int
  }

  /** Value of a run of decimal digits, most significant first. */
  function DigitsValue(d: string): nat
    requires forall i | 0 <= i < |d| :: IsDigit(d[i])
    decreases |d|
  {
    if |d| == 0 then 0 else DigitsValue(d[..|d| - 1]) * 10 + DigitValue(d[|d| - 1])
  }

  /** The maximal run of digits at the front of `s`. */
  function LeadingDigits(s: string): (r: string)
    ensures StartsWith(s, r)
    ensures forall i | 0 <= i < |r| :: IsDigit(r[i])
    ensures |r| < |s| ==> !IsDigit(s[|r|])
  {
    if |s| > 0 && IsDigit(s[0]) then [s[0]] + LeadingDigits(s[1..]) else ""
  }

  /** `int(re.search(r'(\d+)', s).group(1))`: the value of the first run of
      digits, or `None` when `s` holds no digit (the search returns `None` and
      `.group` raises). */
  function FirstNumber(s: string): (r: Option<nat>)
    ensures r.None? <==> forall i | 0 <= i < |s| :: !IsDigit(s[i])
    decreases |s|
  {
    if |s| == 0 then None
    else if IsDigit(s[0]) then Some(DigitsValue(LeadingDigits(s)))
    else FirstNumber(s[1..])
  }
}
